=== FILE: README.md ===
# Local logic of the patched AWS Terraform provider, in Dafny

This project models the parts of the patched Terraform AWS provider (the v5 and
v6 mirrors) that hold logic of their own, apart from AWS API calls:

- **Control Tower landing-zone manifests** (`LandingZone`). Normalisation decodes
  the JSON manifest with `encoding/json` (`JsonDecode`) into the dynamic value tree
  (`Dynamic`). It then turns every `retentionDays` string that `strconv.Atoi`
  accepts into a number (`GoStrings`). Last, it re-encodes the tree with
  `encoding/json` (`JsonEncode`).
  - The diff-suppression and state functions compare and store normalised text.
  - The landing-zone id taken from an ARN and the refresh step of the operation
    waiter are modelled alongside; they do not involve normalisation.
  - `JsonRoundTrip` proves that decoding the encoder's output gives back the
    value. It also proves that the encoder is injective. The idempotence and
    equivalence properties of normalisation rest on these two facts.
  - `LandingZoneExample` works the resource's normalisation test through the
    model: the test's manifest normalises to exactly the text the test expects
    (`LandingZoneExampleText`).
- **The SDK v1 client cache** (`ClientCache`). `conn[T]` answers a default request
  from the cache or builds the client through the service package's factory and
  `CustomizeConn` hook. It caches a default client under the service name.
- **The S3 legacy error predicates** (`AwsErrors`). These are `ErrCodeEquals`,
  `ErrMessageContains` and `ErrStatusCodeEquals`, over an error chain searched the
  way `errors.As` searches it.
- **The GameLift matchmaking configuration** (`MatchmakingConfiguration`):
  - the schema's declared bounds;
  - the conversion of game properties to and from the API;
  - `expandStringList`;
  - how Read and Delete treat what the API returns.
- **The bridge shim's `tags_all` rewrite** (`TagsShim`, over `SdkSchema`). It
  also covers the context switch that turns off the tag-schema check, in its SDK
  and framework forms (`TagSchemaCheck`).
- **`InfoFromContext`** of the interceptors, v5 and v6 (`InterceptorInfo`).

Go's `nil` error, `nil` pointers and failing type assertions are explicit:
`Option`, `Result`, a `Panic` value, or a `Failure` (`Wrappers`). Code the model
cannot see is a parameter:
- the service packages and their hooks;
- `names.HumanFriendly`;
- `arn.Parse`;
- a resource's own schema;
- the API's answers.

## Model

| member | source | states |
|---|---|---|
| GoStrings.Atoi | mirrors/aws/v6/internal/service/controltower/landing_zone.go:345-348 | `strconv.Atoi` succeeds exactly when the text is an optional sign followed by at least one digit and the signed value fits in a 64-bit `int`. It then returns that value. |
| GoStrings.AtoiExamples | mirrors/aws/v6/internal/service/controltower/landing_zone.go:345-348 | `+365` and `0365` read as 365 and `-0` as 0. The empty string, a bare `-` and `3 65` are rejected. |
| GoStrings.AtoiInt64Max | mirrors/aws/v6/internal/service/controltower/landing_zone.go:345-348 | `9223372036854775807`, the largest `int`, is accepted as itself. |
| GoStrings.AtoiPastInt64Max | mirrors/aws/v6/internal/service/controltower/landing_zone.go:345-348 | `9223372036854775808`, one past the largest `int`, is rejected. |
| GoStrings.AtoiItoa | mirrors/aws/v6/internal/service/controltower/landing_zone.go:345-349 | Every 64-bit integer, written in decimal, is read back by `Atoi` as itself. |
| GoStrings.TrimPrefix | mirrors/aws/v6/internal/service/controltower/landing_zone.go:227 | With the prefix present, prefix plus result is the input, so exactly one copy is removed. Without it the input is returned. |
| GoStrings.Contains | mirrors/aws/v5/internal/service/s3legacy/tfawserr_shim.go:29 | `strings.Contains` holds exactly when the substring occurs at some index. |
| JsonDecode.Decode | mirrors/aws/v6/internal/service/controltower/landing_zone.go:332-335 | A decoded manifest nests arrays and objects at most 10000 deep, Go's limit. |
| JsonEncode.SortedKeysOrdered | mirrors/aws/v6/internal/service/controltower/landing_zone.go:375 | Object members are written in strictly increasing key order, each key once. |
| JsonEncode.SortedKeysOfSorted | mirrors/aws/v6/internal/service/controltower/landing_zone.go:375 | Any strictly increasing sequence holding exactly an object's keys is the order in which the encoder writes them. |
| JsonEncode.QuotePlain | mirrors/aws/v6/internal/service/controltower/landing_zone.go:375 | A string with no quote, backslash or escaped character is written between quotes as it stands. |
| JsonEncode.EncodeFirst | mirrors/aws/v6/internal/service/controltower/landing_zone.go:375 | The first character of the encoding tells which kind of value it is, in both directions. |
| JsonRoundTrip.DecodeEncode | mirrors/aws/v6/internal/service/controltower/landing_zone.go:333-379 | Unmarshal of Marshal's output gives back the value, for every value within the nesting limit. |
| JsonRoundTrip.EncodeInjective | mirrors/aws/v6/internal/service/controltower/landing_zone.go:375 | Two values within the limit with the same encoding are equal. |
| LandingZone.NormRetentionDays | mirrors/aws/v6/internal/service/controltower/landing_zone.go:337-350 | A replacement exists exactly for the key `retentionDays` holding a string that `Atoi` parses. The replacement is that number. |
| LandingZone.WalkRewritesRetentionDays | mirrors/aws/v6/internal/service/controltower/landing_zone.go:359-364 | A parsable `retentionDays` string member becomes the parsed integer. |
| LandingZone.WalkKeepsOtherMembers | mirrors/aws/v6/internal/service/controltower/landing_zone.go:359-367 | Any other member, or an unparsable one, is only walked. A string member comes out unchanged. |
| LandingZone.WalkArrayElement | mirrors/aws/v6/internal/service/controltower/landing_zone.go:355-358 | Array elements are walked but never replaced themselves. A string element stays as it is. |
| LandingZone.WalkDepth | mirrors/aws/v6/internal/service/controltower/landing_zone.go:352-373 | The walk keeps a tree within any nesting bound it started in. |
| LandingZone.WalkNormalizes | mirrors/aws/v6/internal/service/controltower/landing_zone.go:352-373 | After the walk no `retentionDays` member anywhere holds a parsable string. |
| LandingZone.WalkFixesNormalized | mirrors/aws/v6/internal/service/controltower/landing_zone.go:352-373 | On such a tree the walk changes nothing. |
| LandingZone.WalkIdempotent | mirrors/aws/v6/internal/service/controltower/landing_zone.go:352-373 | Walking twice is the same as walking once. |
| LandingZone.WalkLoggingBucketExample | mirrors/aws/v5/internal/service/controltower/landing_zone_internals_test.go:10-51 | In the test's logging-bucket part, `"365"` under `retentionDays` becomes 365. The sibling ARN string is untouched. |
| LandingZone.NormalizeManifest | mirrors/aws/v6/internal/service/controltower/landing_zone.go:331-380 | Normalisation succeeds exactly when the manifest decodes. It fails with the decoder's own error. |
| LandingZone.NormalizeManifestDecodes | mirrors/aws/v6/internal/service/controltower/landing_zone.go:373-379 | The normalised text decodes to the walked manifest. |
| LandingZone.NormalizeManifestIdempotent | mirrors/aws/v6/internal/service/controltower/landing_zone.go:331-380 | Normalising normalised text gives it back unchanged, for exact integers. Go's `float64` numbers keep this only below 2^53; see "Left out". |
| LandingZone.NormalizeManifestEqual | mirrors/aws/v6/internal/service/controltower/landing_zone.go:331-380 | Two manifests normalise to the same text exactly when their walked trees are equal. Key order, whitespace and string-vs-number `retentionDays` make no difference. |
| LandingZone.SuppressEquivalentJsonDiffs | mirrors/aws/v6/internal/service/controltower/landing_zone.go:382-392 | A diff is suppressed only when both manifests normalise. |
| LandingZone.SuppressIff | mirrors/aws/v6/internal/service/controltower/landing_zone.go:382-392 | A diff is suppressed exactly when both manifests decode and walk to the same tree. |
| LandingZone.SuppressReflexive | mirrors/aws/v6/internal/service/controltower/landing_zone.go:382-392 | A manifest is equivalent to itself exactly when it decodes. |
| LandingZone.SuppressSymmetric | mirrors/aws/v6/internal/service/controltower/landing_zone.go:382-392 | Swapping old and new does not change the decision. |
| LandingZone.SuppressTransitive | mirrors/aws/v6/internal/service/controltower/landing_zone.go:382-392 | Equivalence carries through a third manifest. |
| LandingZone.ManifestStateFunc | mirrors/aws/v6/internal/service/controltower/landing_zone.go:394-404 | A non-string is stored as `""`. A string that does not decode is stored as given. One that decodes is stored as its normalised text. |
| LandingZone.ManifestStateFuncIdempotent | mirrors/aws/v6/internal/service/controltower/landing_zone.go:394-404 | Storing the stored text again stores the same text. |
| LandingZone.ManifestStateFuncEquivalent | mirrors/aws/v6/internal/service/controltower/landing_zone.go:382-404 | The stored text of a decodable manifest suppresses the diff against the manifest itself. |
| LandingZone.LandingZoneIdFromArn | mirrors/aws/v6/internal/service/controltower/landing_zone.go:220-228 | A parse error is returned as is. A parsed ARN always yields an id. |
| LandingZone.LandingZoneIdRoundTrip | mirrors/aws/v6/internal/service/controltower/landing_zone.go:226-227 | The id after `landingzone/` is recovered exactly. |
| LandingZone.LandingZoneIdWithoutPrefix | mirrors/aws/v6/internal/service/controltower/landing_zone.go:227 | A resource part without the prefix is the id as it stands. |
| LandingZoneExample.WalkManifest | mirrors/aws/v5/internal/service/controltower/landing_zone_internals_test.go:11-40 | In the test's manifest, both `retentionDays` strings become numbers and every other member is unchanged. |
| LandingZoneExample.EncodeManifest | mirrors/aws/v5/internal/service/controltower/landing_zone_internals_test.go:44 | The walked manifest encodes to the test's expected text, character for character. |
| LandingZoneExample.NormalizeManifestTestCase | mirrors/aws/v5/internal/service/controltower/landing_zone_internals_test.go:10-50 | A text that decodes to the test's manifest normalises to exactly the test's expected text. |
| LandingZone.StatusLandingZoneOperation | mirrors/aws/v6/internal/service/controltower/landing_zone.go:280-294 | Not-found reports no operation, an empty status and no error. A lookup error is passed on. A found operation reports its own status without error. |
| LandingZone.StatusLandingZoneOperationReadBack | mirrors/aws/v6/internal/service/controltower/landing_zone.go:280-294 | The waiter can tell the three lookup outcomes apart: the lookup is recovered from the refresh result. |
| ClientCache.MergeConfig | mirrors/aws/v5/internal/conns/awsclient_extra.go:70-71 | The construction config has the keys of both maps. Extras win, and keys only in the defaults keep their default value. |
| ClientCache.Construct | mirrors/aws/v5/internal/conns/awsclient_extra.go:56-86 | An unknown package and a package without a matching factory fail with their own errors. A built client has the requested type. |
| ClientCache.Conn | mirrors/aws/v5/internal/conns/awsclient_extra.go:37-94 | A default request hits the cache, or fails on a wrongly typed entry, without changing the cache. A miss, and any request with extras, returns what construction returns. Requests with extras and failed requests leave the cache as it was. A successful default miss adds the new client under the service name, and nothing else changes. |
| ClientCache.DefaultRequestCached | mirrors/aws/v5/internal/conns/awsclient_extra.go:40-93 | After a successful default request, the next default request returns the same client and changes nothing. |
| ClientCache.ConstructSeesMergedConfig | mirrors/aws/v5/internal/conns/awsclient_extra.go:70-76 | Without a customisation hook, the client is the factory's answer for the merged config, and a factory error is returned. |
| ClientCache.ConstructCustomizes | mirrors/aws/v5/internal/conns/awsclient_extra.go:78-86 | With a matching `CustomizeConn` hook, the result is the hook's output or its error. |
| ClientCache.RunKeepsCachedClients | mirrors/aws/v5/internal/conns/awsclient_extra.go:42-91 | A cached client stays cached, unchanged, through any later requests. |
| ClientCache.RunWithExtrasKeepsCache | mirrors/aws/v5/internal/conns/awsclient_extra.go:40-91 | Requests that all carry extras never modify the cache. |
| ClientCache.RunCachesOnlyReturnedClients | mirrors/aws/v5/internal/conns/awsclient_extra.go:88-93 | Every client added to the cache was returned to some default request for that service. |
| AwsErrors.As | mirrors/aws/v5/internal/service/s3legacy/tfawserr_shim.go:15-16 | `errors.As` finds a link implementing the target interface. It finds nothing exactly when no link implements it. |
| AwsErrors.AsFindsFirst | mirrors/aws/v5/internal/service/s3legacy/tfawserr_shim.go:16 | What `errors.As` finds is the first implementing link of the chain. |
| AwsErrors.ErrCodeEquals | mirrors/aws/v5/internal/service/s3legacy/tfawserr_shim.go:14-24 | The loop over `codes` answers true exactly when the first AWS error's code is one of `codes`. |
| AwsErrors.CodeEqualsNoCodes | mirrors/aws/v5/internal/service/s3legacy/tfawserr_shim.go:17-23 | With an empty code list the answer is false. |
| AwsErrors.CodeEqualsOrderIndependent | mirrors/aws/v5/internal/service/s3legacy/tfawserr_shim.go:17-21 | The order and repetition of codes do not matter. |
| AwsErrors.CodeEqualsNeedsAwsError | mirrors/aws/v5/internal/service/s3legacy/tfawserr_shim.go:16-23 | A chain with no AWS error never matches. |
| AwsErrors.CodeEqualsFirstWins | mirrors/aws/v5/internal/service/s3legacy/tfawserr_shim.go:15-22 | Only the first AWS error's code is compared. |
| AwsErrors.ErrMessageContains | mirrors/aws/v5/internal/service/s3legacy/tfawserr_shim.go:26-32 | True exactly when the first AWS error has that code and its message contains the text at some position. |
| AwsErrors.ErrMessageContainsEmpty | mirrors/aws/v5/internal/service/s3legacy/tfawserr_shim.go:29 | With an empty substring it reduces to code equality. |
| AwsErrors.ErrStatusCodeEquals | mirrors/aws/v5/internal/service/s3legacy/tfawserr_shim.go:34-40 | True exactly when the first request failure in the chain carries that status. False when there is no request failure. |
| AwsErrors.StatusComparesFirstFailure | mirrors/aws/v5/internal/service/s3legacy/tfawserr_shim.go:35-37 | With two request failures of different status in the chain, only the first one's status matches. |
| AwsErrors.RequestFailureIsAwsError | mirrors/aws/v5/internal/service/s3legacy/tfawserr_shim.go:14-40 | A request failure at the head of the chain is seen by both the code check and the status check. |
| AwsErrors.StatusLooksPastAwsError | mirrors/aws/v5/internal/service/s3legacy/tfawserr_shim.go:14-40 | A plain AWS error in front hides a request failure from the code check but not from the status check. |
| MatchmakingConfiguration.ToInt32 | mirrors/aws/v5/internal/service/gamelift/matchmaking_configuration.go:159 | `int32(v)` lands in the 32-bit range and differs from `v` by a multiple of 2^32. |
| MatchmakingConfiguration.GetOkInt | mirrors/aws/v5/internal/service/gamelift/matchmaking_configuration.go:164-169 | `d.GetOk` on an integer reads a 0 as unset: the value comes back exactly when it is set and non-zero. |
| MatchmakingConfiguration.OptionalInt32 | mirrors/aws/v5/internal/service/gamelift/matchmaking_configuration.go:164-169 | An optional count is sent exactly when it is set and non-zero, as the `int32` conversion of the argument. A non-zero count within `int32` is sent as it is. |
| MatchmakingConfiguration.RequestCounts | mirrors/aws/v5/internal/service/gamelift/matchmaking_configuration.go:155-169 | The request timeout is sent as its `int32` conversion. The acceptance timeout and the player count are sent exactly when they are set and non-zero, each as its `int32` conversion. |
| MatchmakingConfiguration.AdditionalPlayerCountWraps | mirrors/aws/v5/internal/service/gamelift/matchmaking_configuration.go:42-46 | As declared, a player count of 2^31 passes validation and is sent as -2^31. |
| MatchmakingConfiguration.ZeroCountNotSent | mirrors/aws/v5/internal/service/gamelift/matchmaking_configuration.go:42-46 | A player count of 0 passes validation but is not sent. A count of 2^32 passes and is sent as 0. |
| MatchmakingConfiguration.ValidArgumentsReachApi | mirrors/aws/v5/internal/service/gamelift/matchmaking_configuration.go:37-46 | With the count bounded by `int32`, the integer arguments reach the API unchanged, except that a player count of 0 is left out as if unset. Such arguments also satisfy the declared schema. |
| MatchmakingConfiguration.NameLengthInCharacters | mirrors/aws/v5/internal/service/gamelift/matchmaking_configuration.go:111-118 | A name matching the pattern is ASCII, so its UTF-8 byte length is its character count and the byte-length bound is a 128-character bound. |
| MatchmakingConfiguration.ValidNameLength | mirrors/aws/v5/internal/service/gamelift/matchmaking_configuration.go:111-118 | A valid name or rule-set name has at most 128 characters, each one byte in UTF-8. |
| MatchmakingConfiguration.ExpandProperty | mirrors/aws/v5/internal/service/gamelift/matchmaking_configuration.go:360-364 | An element converts exactly when it is a map with string `key` and `value`. It converts to those two strings. |
| MatchmakingConfiguration.ExpandGamePropertiesFrom | mirrors/aws/v5/internal/service/gamelift/matchmaking_configuration.go:358-366 | The loop from index `i` either converts every element in order or panics at the first element that fails. |
| MatchmakingConfiguration.ExpandGameProperties | mirrors/aws/v5/internal/service/gamelift/matchmaking_configuration.go:357-367 | On success the list has the same length. Element `i` carries key `i` and value `i`. |
| MatchmakingConfiguration.FlattenProperty | mirrors/aws/v5/internal/service/gamelift/matchmaking_configuration.go:372-375 | A property flattens to a map with exactly `key` and `value`. A nil pointer gives nothing. |
| MatchmakingConfiguration.FlattenGameProperties | mirrors/aws/v5/internal/service/gamelift/matchmaking_configuration.go:369-379 | Order and length are kept, and each map holds exactly `key` and `value`. An empty input gives an empty list. It fails exactly when some pointer is nil. |
| MatchmakingConfiguration.FlattenExpand | mirrors/aws/v5/internal/service/gamelift/matchmaking_configuration.go:357-379 | Flatten after expand gives back the input's key/value pairs in order. |
| MatchmakingConfiguration.ExpandFlatten | mirrors/aws/v5/internal/service/gamelift/matchmaking_configuration.go:357-379 | Expand after flatten gives back properties without nil pointers. |
| MatchmakingConfiguration.ExpandStringList | mirrors/aws/v5/internal/service/gamelift/matchmaking_configuration.go:381-391 | The result is no longer than the input. It holds exactly the non-empty strings of the input. |
| MatchmakingConfiguration.ExpandStringListAppend | mirrors/aws/v5/internal/service/gamelift/matchmaking_configuration.go:384-388 | The filter distributes over concatenation, so kept elements keep their relative order. |
| MatchmakingConfiguration.ExpandStringListKeepsAll | mirrors/aws/v5/internal/service/gamelift/matchmaking_configuration.go:381-391 | A list of non-empty strings comes back as it was. |
| MatchmakingConfiguration.ExpandStringListIdempotent | mirrors/aws/v5/internal/service/gamelift/matchmaking_configuration.go:381-391 | Filtering a filtered list changes nothing. |
| MatchmakingConfiguration.Read | mirrors/aws/v5/internal/service/gamelift/matchmaking_configuration.go:215-247 | A not-found error, or zero configurations, removes the resource. Any other error, or more than one configuration, is an error. Exactly one configuration fills in its ARN, its name and its flattened game properties. A nil creation time makes Read panic, and so, after that, does a nil game property. |
| MatchmakingConfiguration.Delete | mirrors/aws/v5/internal/service/gamelift/matchmaking_configuration.go:343-354 | Delete succeeds exactly when there was no error or the error says the configuration is not found. Any other error is reported. |
| MatchmakingConfiguration.DeleteIdempotent | mirrors/aws/v5/internal/service/gamelift/matchmaking_configuration.go:346-349 | Deleting an absent configuration succeeds, so deleting twice succeeds twice. |
| MatchmakingConfiguration.InvalidRequestNotFound | mirrors/aws/v5/internal/service/gamelift/matchmaking_configuration.go:346-347 | An invalid-request error whose message contains the phrase counts as not found. |
| TagsShim.MarkForSchema | mirrors/aws/v5/shim/shim.go:68-86 | Without `tags_all` the map is unchanged. With `tags_all` but no `tags` it panics. Otherwise the key set is kept, `tags_all` becomes a copy of `tags`, and every other key keeps its schema. |
| TagsShim.MarkForSchemaIdempotent | mirrors/aws/v5/shim/shim.go:68-86 | Rewriting a rewritten map changes nothing. |
| TagsShim.MarkForResource | mirrors/aws/v5/shim/shim.go:55-66 | A resource with a `SchemaFunc` gets it wrapped. Otherwise its `Schema` field is rewritten. |
| TagsShim.MarkForResourcePresents | mirrors/aws/v5/shim/shim.go:55-66 | Either way, the schema the resource presents is the rewrite of the one it presented before. |
| TagsShim.MarkForResources | mirrors/aws/v5/shim/shim.go:47-53 | The same resource names, each rewritten. It fails exactly when some resource's rewrite panics, and the failure names exactly the resources whose rewrite panics. |
| TagsShim.MarkForResourcesNoTagsAll | mirrors/aws/v5/shim/shim.go:47-71 | A provider whose resources all have a plain schema without `tags_all` comes back unchanged. A resource with a `SchemaFunc` always has it wrapped (`MarkForResource`). |
| TagSchemaCheck.DisableSdk | mirrors/aws/v5/internal/provider/provider_tagcheck.go:12-14 | Afterwards the SDK flag reads as boolean true. Every other context key reads as before. |
| TagSchemaCheck.SchemaMapForTagsChecking | mirrors/aws/v5/internal/provider/provider_tagcheck.go:16-37 | With the flag true, the result has exactly `tags` and `tags_all`, string maps, and `tags` is computed as asked while `tags_all` is always computed. Otherwise the resource's own map is returned. |
| TagSchemaCheck.SdkDisableTakesEffect | mirrors/aws/v5/internal/provider/provider_tagcheck.go:12-33 | After disabling, the stand-in map is what the tag-schema check sees. |
| TagSchemaCheck.SdkIgnoresFrameworkFlag | mirrors/aws/v5/internal/provider/provider_tagcheck.go:17-20 | The framework's flag does not switch off the SDK check. |
| TagSchemaCheck.DisableFramework | mirrors/aws/v5/internal/provider/fwprovider/provider_tagscheck.go:14-16 | Afterwards the framework flag reads as boolean true. Every other key reads as before. |
| TagSchemaCheck.SchemaResponseForTagsChecking | mirrors/aws/v5/internal/provider/fwprovider/provider_tagscheck.go:18-43 | With the flag true, the schema has exactly `tags` (computed) and `tags_all` (not computed), both maps. Otherwise the resource's own response is returned. |
| TagSchemaCheck.FrameworkDisableTakesEffect | mirrors/aws/v5/internal/provider/fwprovider/provider_tagscheck.go:14-39 | After disabling, the stand-in response is what the tag-schema check sees. |
| TagSchemaCheck.BothDisabled | mirrors/aws/v5/shim/shim.go:20-21 | Disabling both checks on one context leaves both flags set. |
| InterceptorInfo.ServiceName | mirrors/aws/v5/internal/provider/interceptors/info.go:17-20 | The human-friendly name, or `<service>` when the conversion fails. |
| InterceptorInfo.InfoFromContextV5 | mirrors/aws/v5/internal/provider/interceptors/info.go:14-34 | Without in-context info, the package or tags-in-context, the result is the failure tuple. Otherwise it holds the package, the service name, a non-empty resource name and the tags, with ok. |
| InterceptorInfo.InfoV5ResourceName | mirrors/aws/v5/internal/provider/interceptors/info.go:22-25 | The resource name is the context's own, or `<thing>` when that is empty. |
| InterceptorInfo.InfoFromContextV6 | mirrors/aws/v6/internal/provider/interceptors/info.go:18-43 | As written: the same failure cases as v5. On success the service name is the human-friendly name or `<service>`. The resource name is `aws_<service>_<thing>` when the type name is empty, and otherwise the context's own or `<thing>`. The type name is returned as found, possibly empty. |
| InterceptorInfo.InfoV6EmptyTypeNameClobbersResourceName | mirrors/aws/v6/internal/provider/interceptors/info.go:31-34 | As written, an empty type name replaces the resource name `Bucket` with `aws_<service>_<thing>` and is returned empty. |
| InterceptorInfo.InfoFromContextV6Intended | mirrors/aws/v6/internal/provider/interceptors/info.go:18-43 | With the fallback on the type name: the same failure tuple and success fields as v5. |
| InterceptorInfo.InfoV6IntendedAgreesWithV5 | mirrors/aws/v6/internal/provider/interceptors/info.go:26-34 | The corrected v6 agrees with v5 on every shared field and never returns an empty type name. It equals the code as written whenever the type name is set. |

## Left out

- JsonDecode.Decode: numbers are exact integers only. A literal with a fraction or
  an exponent, and `-0`, is reported as `UnsupportedNumber`. Go decodes them to
  `float64`, and integers beyond 2^53 lose precision there; this model keeps them
  exact.
- LandingZone.NormalizeManifest: because of the decoder's number rule, a manifest
  with a fractional or exponent number fails to normalise here. Go normalises it.
  The same holds for `SuppressEquivalentJsonDiffs` and `ManifestStateFunc`, which
  then suppress nothing and store the text as given.
- LandingZone.NormalizeManifestIdempotent: the model's numbers are exact
  integers, and normalisation is idempotent for all of them. Go's is not. The
  walk stores a parsed `retentionDays` as an `int`, and the next normalisation
  reads it back as a `float64`. So `"9007199254740993"` is normalised to
  `9007199254740993`, and normalising that again gives `9007199254740992`. Go
  also writes a `float64` integer of 1e21 or more as `1e+21`. The row's
  promise therefore matches Go only for integers below 2^53 in magnitude.
- LandingZone.NormalizeManifestEqual: for the same reason, two manifests whose
  integers differ beyond 2^53 can normalise to the same text in Go but not here.
- LandingZoneExample.NormalizeManifestTestCase: the test's input text enters
  through a precondition, that it decodes to the test's manifest. Its
  character-by-character decoding is not proved.
- `encoding/json` string handling is modelled on characters. Invalid UTF-8 cannot
  occur in a Dafny string, so Go's replacement of it by U+FFFD is not modelled.
- LandingZone.LandingZoneIdFromArn: `arn.Parse` is not part of this model. The
  function takes its outcome, the resource part or an error.
- LandingZone.StatusLandingZoneOperation: the lookup (`findLandingZoneOperationByID`)
  and `retry.NotFound` are taken as an outcome value. The waiter loop around the
  refresh function lives in the SDK and is not modelled.
- ClientCache: the mutex is not modelled; each call is one sequential state
  transition. The `tflog` field on the context is logging only. The
  `ServicePackage` lookup, `apiClientConfig`, `NewConn` and `CustomizeConn` are
  code outside this model, given as inputs.
- ClientCache: `S3Conn` and `ECRConn` are `conn` with a fixed name and no extras,
  whose error `errs.Must` turns into a panic. `S3ConnURICleaningDisabled` copies
  an SDK session. Neither is modelled separately.
- AwsErrors: the chain is linear. Errors that wrap several errors, and errors
  with their own `As` method, are not modelled.
- MatchmakingConfiguration: Create, Update and Read's tag handling are AWS calls
  and are not modelled beyond `RequestCounts` and `Read`. The `backfill_mode` and
  `flex_match_mode` enum checks list values that are not part of this model. The
  remaining fields Read copies verbatim are not modelled.
- MatchmakingConfiguration.Read: the outcome is reduced to the ARN, the name and
  the flattened game properties. The source also copies the other fields into
  the state, formatting `creation_time` as a date and time. Those copies are
  not modelled, apart from the panic on a nil creation time. The other copied
  fields are nil-safe.
- MatchmakingConfiguration.DeleteIdempotent: `ServiceDelete` is an assumed
  service. It deletes a present configuration and answers an absent one with a
  not-found error; the real API's answer is not part of this model.
- MatchmakingConfiguration.ExpandStringList: Go returns a nil slice for no
  elements and the model an empty sequence; the two are not told apart.
- TagsShim: schema values are compared by value. The pointer copy for `tags_all`
  and the sharing of the other entries are not modelled. When several resources
  would panic, Go's map order decides which one it reports; the model returns the
  set of them.
- TagsShim: `NewUpstreamProvider`'s calls of `provider.New` and `fwprovider.New`
  are outside this model. Only the context flags it sets are modelled
  (`TagSchemaCheck.BothDisabled`).
- InterceptorInfo: `conns.FromContext`, `tftags.FromContext`, the service-package
  lookup and `names.HumanFriendly` are inputs. A conversion error is `None`.
- The EKS add-on waiters, the WAF regional token handler, the Lambda request
  logger, and the retry predicates in the ACM, Lambda and S3 packages are not
  modelled. Their behaviour rests on goroutines, wall-clock retries, logging I/O
  or helpers that are not part of this model.

## Findings

| source | as written | input that shows it | evidently intended | confidence | as-written member | corrected member |
|---|---|---|---|---|---|---|
| mirrors/aws/v6/internal/provider/interceptors/info.go:31-34 | an empty type name sets `resourceName = "aws_<service>_<thing>"` | context with resource name `Bucket` and an empty type name: resource name becomes `aws_<service>_<thing>`, type name stays `""` | `typeName = "aws_<service>_<thing>"`, like the two placeholders above it | medium; not executed | InterceptorInfo.InfoV6EmptyTypeNameClobbersResourceName | InterceptorInfo.InfoV6IntendedAgreesWithV5 |
| mirrors/aws/v5/internal/service/gamelift/matchmaking_configuration.go:42-46 | `additional_player_count` is only bounded below (`IntAtLeast(0)`) but is sent as `int32(v)` | `additional_player_count = 2147483648` passes validation and is sent as `-2147483648` | values outside the `int32` range are rejected at plan time | low; not executed | MatchmakingConfiguration.AdditionalPlayerCountWraps | MatchmakingConfiguration.ValidArgumentsReachApi |

=== FILE: aws_errors.dfy ===
/**
 * The S3 legacy error-classification helpers: predicates over a Go error chain
 * that look for the first AWS SDK error in it, as `errors.As` does.
 */
module AwsErrors {
  import opened Wrappers
  import opened GoStrings

  /**
   * One error in a chain. `AwsError` implements `awserr.Error`; `RequestFailure`
   * implements `awserr.RequestFailure`, which embeds `awserr.Error`; `Plain` is
   * any other error.
   */
  datatype Link =
    | Plain(text: string)
    | AwsError(code: string, message: string)
    | RequestFailure(code: string, message: string, statusCode: int)

  /** An error and the errors it wraps, outermost first; `[]` is the nil error. */
  type Chain = seq<Link>

  /** The interface types `errors.As` is asked to find. */
  datatype Target = AwsErrorTarget | RequestFailureTarget

  /** Whether a link can be assigned to the target interface. */
  predicate Implements(link: Link, target: Target) {
    match target
    case AwsErrorTarget => link.AwsError? || link.RequestFailure?
    case RequestFailureTarget => link.RequestFailure?
  }

  /** `errors.As`: the first link of the chain that implements the target. */
  function As(chain: Chain, target: Target): (r: Option<Link>)
    ensures r.Some? ==> r.value in chain && Implements(r.value, target)
    ensures r.None? <==> forall i :: 0 <= i < |chain| ==> !Implements(chain[i], target)
  {
    if chain == [] then None
    else if Implements(chain[0], target) then Some(chain[0])
    else As(chain[1..], target)
  }

  /** What `As` finds is the first implementing link: every link before it is skipped. */
  lemma {:induction false} AsFindsFirst(chain: Chain, target: Target) returns (i: nat)
    requires As(chain, target).Some?
    ensures i < |chain| && chain[i] == As(chain, target).value
    ensures forall j :: 0 <= j < i ==> !Implements(chain[j], target)
  {
    if Implements(chain[0], target) {
      i := 0;
    } else {
      var k := AsFindsFirst(chain[1..], target);
      i := k + 1;
      forall j | 0 <= j < i
        ensures !Implements(chain[j], target)
      {
        if j > 0 {
          assert chain[j] == chain[1..][j - 1];
        }
      }
    }
  }

  /**
   * `ErrCodeEquals`: whether the first AWS error in the chain has one of `codes`.
   * The codes are tried one by one, as in the source loop.
   */
  method ErrCodeEquals(chain: Chain, codes: seq<string>) returns (b: bool)
    ensures b == CodeEquals(chain, codes)
  {
    var found := As(chain, AwsErrorTarget);
    if found.None? {
      return false;
    }
    var i := 0;
    while i < |codes|
      invariant 0 <= i <= |codes|
      invariant forall j :: 0 <= j < i ==> codes[j] != found.value.code
    {
      if found.value.code == codes[i] {
        return true;
      }
      i := i + 1;
    }
    return false;
  }

  /** What `ErrCodeEquals` decides, as a predicate. */
  predicate CodeEquals(chain: Chain, codes: seq<string>) {
    match As(chain, AwsErrorTarget)
    case None => false
    case Some(e) => e.code in codes
  }

  /** With no codes to compare, nothing matches. */
  lemma CodeEqualsNoCodes(chain: Chain)
    ensures !CodeEquals(chain, [])
  {
  }

  /** Only the set of codes matters: their order and repetitions do not. */
  lemma CodeEqualsOrderIndependent(chain: Chain, codes: seq<string>, others: seq<string>)
    requires forall c :: c in codes <==> c in others
    ensures CodeEquals(chain, codes) == CodeEquals(chain, others)
  {
  }

  /** A chain without an AWS error matches no code. */
  lemma CodeEqualsNeedsAwsError(chain: Chain, codes: seq<string>)
    requires forall i :: 0 <= i < |chain| ==> chain[i].Plain?
    ensures !CodeEquals(chain, codes)
  {
  }

  /** A later AWS error is shadowed by an earlier one, whatever its code. */
  lemma CodeEqualsFirstWins(code: string, message: string, rest: Chain, codes: seq<string>)
    ensures CodeEquals([AwsError(code, message)] + rest, codes) <==> code in codes
  {
  }

  /**
   * `ErrMessageContains`: the first AWS error has exactly `code` and its message
   * contains `message`.
   */
  function ErrMessageContains(chain: Chain, code: string, message: string): (r: bool)
    ensures r <==> As(chain, AwsErrorTarget).Some?
                   && As(chain, AwsErrorTarget).value.code == code
                   && exists k :: 0 <= k <= |As(chain, AwsErrorTarget).value.message| - |message|
                                  && OccursAt(As(chain, AwsErrorTarget).value.message, message, k)
  {
    match As(chain, AwsErrorTarget)
    case None => false
    case Some(e) => e.code == code && Contains(e.message, message)
  }

  /** With an empty substring only the code is compared. */
  lemma ErrMessageContainsEmpty(chain: Chain, code: string)
    ensures ErrMessageContains(chain, code, "") <==> CodeEquals(chain, [code])
  {
    if As(chain, AwsErrorTarget).Some? {
      ContainsEmpty(As(chain, AwsErrorTarget).value.message);
    }
  }

  /** `ErrStatusCodeEquals`: the first request failure carries exactly `statusCode`. */
  function ErrStatusCodeEquals(chain: Chain, statusCode: int): (r: bool)
    ensures r <==> As(chain, RequestFailureTarget).Some? && As(chain, RequestFailureTarget).value.statusCode == statusCode
    ensures r ==> exists i :: 0 <= i < |chain| && chain[i].RequestFailure? && chain[i].statusCode == statusCode
    ensures (forall i :: 0 <= i < |chain| ==> !chain[i].RequestFailure?) ==> !r
  {
    match As(chain, RequestFailureTarget)
    case None => false
    case Some(e) => e.statusCode == statusCode
  }

  /** A request failure is also an AWS error, so its code is seen by `ErrCodeEquals`. */
  lemma RequestFailureIsAwsError(code: string, message: string, status: int, rest: Chain)
    ensures CodeEquals([RequestFailure(code, message, status)] + rest, [code])
    ensures ErrStatusCodeEquals([RequestFailure(code, message, status)] + rest, status)
  {
  }

  /**
   * Only the first request failure is compared: a later one carrying the status does
   * not make the check true.
   */
  lemma StatusComparesFirstFailure(code: string, message: string, first: int, later: int)
    requires first != later
    ensures !ErrStatusCodeEquals([RequestFailure(code, message, first), RequestFailure(code, message, later)], later)
    ensures ErrStatusCodeEquals([RequestFailure(code, message, first), RequestFailure(code, message, later)], first)
  {
  }

  /**
   * A plain AWS error in front of a request failure hides it from the code checks but
   * not from the status check.
   */
  lemma StatusLooksPastAwsError(code: string, message: string, failure: Link)
    requires failure.RequestFailure? && failure.code != code
    ensures !CodeEquals([AwsError(code, message), failure], [failure.code])
    ensures ErrStatusCodeEquals([AwsError(code, message), failure], failure.statusCode)
  {
    assert [AwsError(code, message), failure][1..] == [failure];
    assert As([failure], RequestFailureTarget) == Some(failure);
  }
}

=== FILE: client_cache.dfy ===
/**
 * The AWS SDK v1 client cache of `AWSClient`: the generic `conn` builds a service
 * client through the service package's factory, caching the default client (the
 * one built without extra configuration) under the service name. The mutex that
 * guards the cache is not modelled; each request is one state transition.
 */
module ClientCache {
  import opened Wrappers
  import opened Dynamic

  /** A client configuration, Go's `map[string]any`. */
  type Config = map<string, Value>

  /** A constructed API client: its Go type and which instance it is. */
  datatype Client = Client(typeName: string, handle: nat)

  /**
   * A service package as `conn` sees it. `factoryType` is the client type its
   * `NewConn` method returns, if it has one, and `customizeType` the type its
   * `CustomizeConn` hook works on, if it has one; the two hooks themselves are
   * code outside this model and are given as their outcomes.
   */
  datatype ServicePackage = ServicePackage(
    factoryType: Option<string>,
    newConn: Config -> Result<nat, string>,
    customizeType: Option<string>,
    customizeConn: nat -> Result<nat, string>)

  /**
   * What `conn` consults besides the cache: the registered service packages and
   * the per-service default configuration (`apiClientConfig`).
   */
  datatype Environment = Environment(
    packages: map<string, ServicePackage>,
    apiClientConfig: string -> Config)

  /** The cache of default clients, by service package name. */
  datatype AwsClient = AwsClient(conns: map<string, Client>)

  /** The four ways `conn` fails. */
  datatype ConnError =
    | WrongCachedType(service: string, cached: string, want: string)
    | UnknownServicePackage(service: string)
    | NoClientFactory(service: string)
    | HookFailed(message: string)

  /** A request is for the default client exactly when it carries no extra configuration. */
  predicate IsDefault(extra: Config) {
    |extra| == 0
  }

  /** `maps.Copy(config, extra)`: the extras overwrite the per-service defaults key by key. */
  function MergeConfig(defaults: Config, extra: Config): (r: Config)
    ensures r.Keys == defaults.Keys + extra.Keys
    ensures forall k :: k in extra ==> r[k] == extra[k]
    ensures forall k :: k in defaults && k !in extra ==> r[k] == defaults[k]
  {
    defaults + extra
  }

  /** The uncached half of `conn`: look up the package, build the client, customise it. */
  function Construct(env: Environment, service: string, want: string, extra: Config): (r: Result<Client, ConnError>)
    ensures service !in env.packages ==> r == Failure(UnknownServicePackage(service))
    ensures (service in env.packages && env.packages[service].factoryType != Some(want)) ==>
              r == Failure(NoClientFactory(service))
    ensures r.Success? ==> r.value.typeName == want
  {
    if service !in env.packages then Failure(UnknownServicePackage(service))
    else
      var sp := env.packages[service];
      if sp.factoryType != Some(want) then Failure(NoClientFactory(service))
      else
        var config := MergeConfig(env.apiClientConfig(service), extra);
        match sp.newConn(config)
        case Failure(message) => Failure(HookFailed(message))
        case Success(handle) =>
          if sp.customizeType == Some(want) then
            match sp.customizeConn(handle)
            case Failure(message) => Failure(HookFailed(message))
            case Success(customized) => Success(Client(want, customized))
          else Success(Client(want, handle))
  }

  /**
   * `conn[T]`: a default request is answered from the cache when the service is
   * there; otherwise the client is constructed, and a default one is cached.
   */
  function Conn(env: Environment, c: AwsClient, service: string, want: string, extra: Config)
    : (r: (Result<Client, ConnError>, AwsClient))
    ensures (IsDefault(extra) && service in c.conns && c.conns[service].typeName == want) ==>
              r == (Success(c.conns[service]), c)
    ensures (IsDefault(extra) && service in c.conns && c.conns[service].typeName != want) ==>
              r == (Failure(WrongCachedType(service, c.conns[service].typeName, want)), c)
    ensures !IsDefault(extra) ==> r.1 == c
    ensures r.0.Failure? ==> r.1 == c
    ensures r.1 != c ==> IsDefault(extra) && service !in c.conns && r.0.Success?
                         && r.1.conns == c.conns[service := r.0.value]
    ensures r.0.Success? ==> r.0.value.typeName == want
    ensures !(IsDefault(extra) && service in c.conns) ==> r.0 == Construct(env, service, want, extra)
    ensures (IsDefault(extra) && service !in c.conns && r.0.Success?) ==> r.1.conns == c.conns[service := r.0.value]
  {
    var isDefault := IsDefault(extra);
    if isDefault && service in c.conns then
      var raw := c.conns[service];
      if raw.typeName == want then (Success(raw), c)
      else (Failure(WrongCachedType(service, raw.typeName, want)), c)
    else
      match Construct(env, service, want, extra)
      case Failure(e) => (Failure(e), c)
      case Success(client) =>
        if isDefault then (Success(client), AwsClient(c.conns[service := client]))
        else (Success(client), c)
  }

  /** A successful default request is cached, so the next one returns the same client without building. */
  lemma DefaultRequestCached(env: Environment, c: AwsClient, service: string, want: string)
    requires Conn(env, c, service, want, map[]).0.Success?
    ensures var (first, c1) := Conn(env, c, service, want, map[]);
            service in c1.conns && Conn(env, c1, service, want, map[]) == (first, c1)
  {
  }

  /** An uncached request builds with the defaults overwritten by the extras. */
  lemma ConstructSeesMergedConfig(env: Environment, service: string, want: string, extra: Config)
    requires service in env.packages && env.packages[service].factoryType == Some(want)
    requires env.packages[service].customizeType != Some(want)
    ensures var built := env.packages[service].newConn(MergeConfig(env.apiClientConfig(service), extra));
            Construct(env, service, want, extra)
              == if built.Success? then Success(Client(want, built.value)) else Failure(HookFailed(built.error))
  {
  }

  /** With a matching `CustomizeConn` hook the client returned is the hook's output. */
  lemma ConstructCustomizes(env: Environment, service: string, want: string, extra: Config, handle: nat)
    requires service in env.packages && env.packages[service].factoryType == Some(want)
    requires env.packages[service].customizeType == Some(want)
    requires env.packages[service].newConn(MergeConfig(env.apiClientConfig(service), extra)) == Success(handle)
    ensures var hooked := env.packages[service].customizeConn(handle);
            Construct(env, service, want, extra)
              == if hooked.Success? then Success(Client(want, hooked.value)) else Failure(HookFailed(hooked.error))
  {
  }

  /** One call of `conn`. */
  datatype Request = Request(service: string, want: string, extra: Config)

  /** A sequence of calls, each seeing the cache the previous ones left. */
  function Run(env: Environment, c: AwsClient, requests: seq<Request>): (r: (seq<Result<Client, ConnError>>, AwsClient))
    ensures |r.0| == |requests|
    decreases |requests|
  {
    if requests == [] then ([], c)
    else
      var q := requests[0];
      var (first, c1) := Conn(env, c, q.service, q.want, q.extra);
      var (rest, c2) := Run(env, c1, requests[1..]);
      ([first] + rest, c2)
  }

  /** Once a client is cached it stays cached, unchanged, whatever requests follow. */
  lemma {:induction false} RunKeepsCachedClients(env: Environment, c: AwsClient, requests: seq<Request>)
    ensures forall s :: s in c.conns ==>
              s in Run(env, c, requests).1.conns && Run(env, c, requests).1.conns[s] == c.conns[s]
    decreases |requests|
  {
    if requests != [] {
      var q := requests[0];
      var c1 := Conn(env, c, q.service, q.want, q.extra).1;
      RunKeepsCachedClients(env, c1, requests[1..]);
    }
  }

  /** Requests that all carry extras leave the cache as it was. */
  lemma {:induction false} RunWithExtrasKeepsCache(env: Environment, c: AwsClient, requests: seq<Request>)
    requires forall i :: 0 <= i < |requests| ==> !IsDefault(requests[i].extra)
    ensures Run(env, c, requests).1 == c
    decreases |requests|
  {
    if requests != [] {
      assert !IsDefault(requests[0].extra);
      RunWithExtrasKeepsCache(env, c, requests[1..]);
    }
  }

  /** Every client the cache ever holds was returned to some default request for its service. */
  lemma {:induction false} RunCachesOnlyReturnedClients(env: Environment, c: AwsClient, requests: seq<Request>, s: string)
    requires s in Run(env, c, requests).1.conns && s !in c.conns
    ensures exists i :: 0 <= i < |requests| && requests[i].service == s && IsDefault(requests[i].extra)
                        && Run(env, c, requests).0[i] == Success(Run(env, c, requests).1.conns[s])
    decreases |requests|
  {
    var q := requests[0];
    var (first, c1) := Conn(env, c, q.service, q.want, q.extra);
    var (rest, c2) := Run(env, c1, requests[1..]);
    if s in c1.conns {
      assert c1 != c;
      RunKeepsCachedClients(env, c1, requests[1..]);
      assert Run(env, c, requests).0[0] == first;
    } else {
      RunCachesOnlyReturnedClients(env, c1, requests[1..], s);
      var i :| 0 <= i < |requests[1..]| && requests[1..][i].service == s && IsDefault(requests[1..][i].extra)
               && rest[i] == Success(c2.conns[s]);
      assert Run(env, c, requests).0[i + 1] == rest[i];
    }
  }
}

=== FILE: dynamic.dfy ===
/**
 * Go's dynamically typed `any` values, in the shapes that `encoding/json` decodes
 * into and that the Terraform plugin SDK hands to resource code: nil, bool, number,
 * string, `[]any` and `map[string]any`.
 */
module Dynamic {

  /**
   * A dynamic value. Numbers are exact integers: the model never reasons about
   * floating point.
   */
  datatype Value =
    | Null
    | Bool(b: bool)
    | Number(n: int)
    | String(s: string)
    | Array(items: seq<Value>)
    | Object(members: map<string, Value>)

  /** The deepest nesting of arrays and objects `encoding/json` accepts. */
  const MaxDepth: nat := 10000

  /** `v` nests at most `d` arrays and objects inside one another. */
  predicate DepthAtMost(v: Value, d: nat) {
    match v
    case Array(items) => d > 0 && forall i :: 0 <= i < |items| ==> DepthAtMost(items[i], d - 1)
    case Object(members) => d > 0 && forall k :: k in members ==> DepthAtMost(members[k], d - 1)
    case _ => true
  }

  /** Every element nests at most `d` arrays and objects. */
  predicate ItemsAtMost(items: seq<Value>, d: nat) {
    forall i :: 0 <= i < |items| ==> DepthAtMost(items[i], d)
  }

  /** Every member value nests at most `d` arrays and objects. */
  predicate MembersAtMost(members: map<string, Value>, d: nat) {
    forall k :: k in members ==> DepthAtMost(members[k], d)
  }
}

=== FILE: go_strings.dfy ===
/**
 * The pieces of Go's `strings` and `strconv` packages that the modelled code calls:
 * prefix tests, substring search, decimal parsing (`strconv.Atoi`) and printing
 * (`strconv.Itoa`), byte-wise string order and UTF-8 byte length.
 *
 * A Go string is a sequence of UTF-8 bytes; here it is a sequence of Unicode scalar
 * values (`char`), so every string is valid UTF-8 and the code-point order below is
 * the same as Go's byte-wise order.
 */
module GoStrings {
  import opened Wrappers

  predicate IsDigit(c: char) {
    '0' <= c <= '9'
  }

  function DigitValue(c: char): (d: nat)
    requires IsDigit(c)
    ensures d < 10
  {
    (c as int) - ('0' as int)
  }

  function DigitChar(d: nat): (c: char)
    requires d < 10
    ensures IsDigit(c) && DigitValue(c) == d
  {
    (('0' as int) + d) as char
  }

  predicate AllDigits(s: string) {
    forall i :: 0 <= i < |s| ==> IsDigit(s[i])
  }

  // ---------------------------------------------------------------------------
  // strings.HasPrefix, strings.TrimPrefix, strings.Contains
  // ---------------------------------------------------------------------------

  predicate HasPrefix(s: string, prefix: string) {
    |prefix| <= |s| && s[..|prefix|] == prefix
  }

  /** `strings.TrimPrefix`: removes one leading copy of `prefix`, if there is one. */
  function TrimPrefix(s: string, prefix: string): (r: string)
    ensures HasPrefix(s, prefix) ==> prefix + r == s
    ensures !HasPrefix(s, prefix) ==> r == s
  {
    if HasPrefix(s, prefix) then
      assert s == s[..|prefix|] + s[|prefix|..];
      s[|prefix|..]
    else
      s
  }

  /** `sub` occurs in `s` starting at index `i`. */
  ghost predicate OccursAt(s: string, sub: string, i: int) {
    0 <= i && i + |sub| <= |s| && s[i..i + |sub|] == sub
  }

  /** `strings.Contains`: some index of `s` starts a copy of `sub`. */
  function Contains(s: string, sub: string): (b: bool)
    ensures b <==> exists i :: OccursAt(s, sub, i)
    decreases |s|
  {
    if HasPrefix(s, sub) then
      assert OccursAt(s, sub, 0);
      true
    else if |s| == 0 then
      false
    else
      var rest := Contains(s[1..], sub);
      assert forall i :: OccursAt(s[1..], sub, i) <==> OccursAt(s, sub, i + 1) by {
        forall i ensures OccursAt(s[1..], sub, i) <==> OccursAt(s, sub, i + 1) {
          if 0 <= i && i + |sub| <= |s[1..]| {
            assert s[1..][i..i + |sub|] == s[i + 1..i + 1 + |sub|];
          }
        }
      }
      assert !OccursAt(s, sub, 0);
      assert rest ==> exists i :: OccursAt(s, sub, i) by {
        if rest {
          var j :| OccursAt(s[1..], sub, j);
          assert OccursAt(s, sub, j + 1);
        }
      }
      assert (exists i :: OccursAt(s, sub, i)) ==> exists i :: OccursAt(s[1..], sub, i) by {
        if exists i :: OccursAt(s, sub, i) {
          var i :| OccursAt(s, sub, i);
          assert i != 0;
          assert OccursAt(s[1..], sub, i - 1);
        }
      }
      rest
  }

  /** Every string contains the empty string. */
  lemma ContainsEmpty(s: string)
    ensures Contains(s, "")
  {
    assert OccursAt(s, "", 0);
  }

  // ---------------------------------------------------------------------------
  // Decimal numerals: strconv.Atoi and strconv.Itoa
  // ---------------------------------------------------------------------------

  /** The range of Go's 64-bit `int`, which `strconv.Atoi` returns. */
  const Int64Min: int := -0x8000_0000_0000_0000
  const Int64Max: int := 0x7fff_ffff_ffff_ffff

  predicate InInt64(n: int) {
    Int64Min <= n <= Int64Max
  }

  /** The value of a non-empty run of decimal digits, most significant first. */
  function DigitsValue(s: string): nat
    requires AllDigits(s)
    decreases |s|
  {
    if s == [] then 0 else DigitsValue(s[..|s| - 1]) * 10 + DigitValue(s[|s| - 1])
  }

  /** The numeral after an optional leading `+` or `-`. */
  function Unsigned(s: string): (d: string)
    ensures |d| >= |s| - 1
  {
    if |s| > 0 && (s[0] == '+' || s[0] == '-') then s[1..] else s
  }

  /** The value of a signed numeral: its digits' value, negated after a `-`. */
  function SignedValue(s: string): (n: int)
    requires AllDigits(Unsigned(s))
    ensures n < 0 ==> |s| > 0 && s[0] == '-'
  {
    var magnitude: int := DigitsValue(Unsigned(s));
    if |s| > 0 && s[0] == '-' then -magnitude else magnitude
  }

  /**
   * `strconv.Atoi` on a 64-bit platform: an optional `+` or `-`, then one or more
   * ASCII digits (leading zeros allowed), whose value fits in an `int`.
   * Anything else is an error, here `None`.
   */
  function Atoi(s: string): (r: Option<int>)
    ensures r.Some? <==> |Unsigned(s)| > 0 && AllDigits(Unsigned(s)) && InInt64(SignedValue(s))
    ensures r.Some? ==> r.value == SignedValue(s)
    ensures r.Some? ==> InInt64(r.value)
    ensures r.Some? ==> |s| > 0 && (IsDigit(s[0]) || s[0] == '+' || s[0] == '-')
  {
    var negative := |s| > 0 && s[0] == '-';
    var digits := if |s| > 0 && (s[0] == '+' || s[0] == '-') then s[1..] else s;
    if |digits| == 0 || !AllDigits(digits) then
      None
    else
      var magnitude: int := DigitsValue(digits);
      var n := if negative then -magnitude else magnitude;
      if InInt64(n) then Some(n) else None
  }

  /**
   * Edge cases of `strconv.Atoi`: a `+` sign and leading zeros are accepted, `-0` is
   * zero, and an empty string, a bare sign or an inner space are rejected.
   */
  lemma AtoiExamples()
    ensures Atoi("+365") == Some(365)
    ensures Atoi("0365") == Some(365)
    ensures Atoi("-0") == Some(0)
    ensures Atoi("") == None && Atoi("-") == None && Atoi("3 65") == None
  {
    assert DigitsValue("365") == 365 by {
      assert "365"[..2] == "36" && "36"[..1] == "3" && "3"[..0] == [];
    }
    assert DigitsValue("0365") == 365 by {
      assert "0365"[..3] == "036" && "036"[..2] == "03" && "03"[..1] == "0" && "0"[..0] == [];
    }
    assert "+365"[1..] == "365" && "-0"[1..] == "0" && "0"[..0] == [];
    assert !AllDigits("3 65") by {
      assert !IsDigit("3 65"[1]);
    }
  }

  /** The largest 64-bit value is accepted. */
  lemma AtoiInt64Max()
    ensures Atoi("9223372036854775807") == Some(Int64Max)
  {
    Int64MaxDigits();
    AtoiUnsigned("9223372036854775807");
  }

  /** The next value past the 64-bit range is rejected. */
  lemma AtoiPastInt64Max()
    ensures Atoi("9223372036854775808") == None
  {
    var s := "9223372036854775808";
    Int64MaxDigits();
    assert s[..18] == "922337203685477580";
    DigitsSnoc(s);
    AtoiUnsigned(s);
  }

  /** A numeral without a sign reads as its digits' value, when that fits. */
  lemma AtoiUnsigned(s: string)
    requires |s| > 0 && AllDigits(s)
    ensures Atoi(s) == if InInt64(DigitsValue(s)) then Some(DigitsValue(s)) else None
  {
    assert IsDigit(s[0]);
  }

  lemma DigitsSnoc(s: string)
    requires |s| > 0 && AllDigits(s[..|s| - 1]) && IsDigit(s[|s| - 1])
    ensures AllDigits(s) && DigitsValue(s) == DigitsValue(s[..|s| - 1]) * 10 + DigitValue(s[|s| - 1])
  {
    forall i | 0 <= i < |s| - 1
      ensures IsDigit(s[i])
    {
      assert s[i] == s[..|s| - 1][i];
    }
  }

  lemma Int64MaxDigits5()
    ensures DigitsValue("92233") == 92233
  {
    assert DigitsValue("9") == 9 by { assert "9"[..0] == []; }
    assert DigitsValue("92") == 92 by { assert "92"[..1] == "9"; }
    assert DigitsValue("922") == 922 by { assert "922"[..2] == "92"; }
    assert DigitsValue("9223") == 9223 by { assert "9223"[..3] == "922"; }
    assert DigitsValue("92233") == 92233 by { assert "92233"[..4] == "9223"; }
  }

  lemma Int64MaxDigits10()
    ensures DigitsValue("9223372036") == 9223372036
  {
    Int64MaxDigits5();
    assert DigitsValue("922337") == 922337 by { assert "922337"[..5] == "92233"; }
    assert DigitsValue("9223372") == 9223372 by { assert "9223372"[..6] == "922337"; }
    assert DigitsValue("92233720") == 92233720 by { assert "92233720"[..7] == "9223372"; }
    assert DigitsValue("922337203") == 922337203 by { assert "922337203"[..8] == "92233720"; }
    assert DigitsValue("9223372036") == 9223372036 by { assert "9223372036"[..9] == "922337203"; }
  }

  lemma Int64MaxDigits15()
    ensures DigitsValue("922337203685477") == 922337203685477
  {
    Int64MaxDigits10();
    assert DigitsValue("92233720368") == 92233720368 by { assert "92233720368"[..10] == "9223372036"; }
    assert DigitsValue("922337203685") == 922337203685 by { assert "922337203685"[..11] == "92233720368"; }
    assert DigitsValue("9223372036854") == 9223372036854 by { assert "9223372036854"[..12] == "922337203685"; }
    assert DigitsValue("92233720368547") == 92233720368547 by { assert "92233720368547"[..13] == "9223372036854"; }
    assert DigitsValue("922337203685477") == 922337203685477 by { assert "922337203685477"[..14] == "92233720368547"; }
  }

  /** The numeral of the largest `int` has that value, one digit at a time. */
  lemma Int64MaxDigits()
    ensures AllDigits("922337203685477580") && DigitsValue("922337203685477580") == 922337203685477580
    ensures AllDigits("9223372036854775807") && DigitsValue("9223372036854775807") == Int64Max
  {
    Int64MaxDigits15();
    assert DigitsValue("9223372036854775") == 9223372036854775 by { assert "9223372036854775"[..15] == "922337203685477"; }
    assert DigitsValue("92233720368547758") == 92233720368547758 by { assert "92233720368547758"[..16] == "9223372036854775"; }
    assert DigitsValue("922337203685477580") == 922337203685477580 by { assert "922337203685477580"[..17] == "92233720368547758"; }
    assert DigitsValue("9223372036854775807") == 9223372036854775807 by { assert "9223372036854775807"[..18] == "922337203685477580"; }
  }

  /** The shortest decimal numeral of a natural number: no leading zero. */
  function NatToDigits(n: nat): (s: string)
    ensures |s| > 0 && AllDigits(s)
    ensures s[0] == '0' ==> n == 0 && |s| == 1
    decreases n
  {
    if n < 10 then [DigitChar(n)] else NatToDigits(n / 10) + [DigitChar(n % 10)]
  }

  /** `strconv.Itoa`, also the form in which `encoding/json` writes an integer. */
  function Itoa(n: int): (s: string)
    ensures |s| > 0
    ensures n < 0 <==> s[0] == '-'
  {
    if n < 0 then "-" + NatToDigits(-n) else NatToDigits(n)
  }

  lemma {:induction false} NatToDigitsValue(n: nat)
    ensures DigitsValue(NatToDigits(n)) == n
    decreases n
  {
    var s := NatToDigits(n);
    if n >= 10 {
      NatToDigitsValue(n / 10);
      assert s[..|s| - 1] == NatToDigits(n / 10);
    }
  }

  /** Printing then parsing an `int` gives it back. */
  lemma AtoiItoa(n: int)
    requires InInt64(n)
    ensures Atoi(Itoa(n)) == Some(n)
  {
    var s := Itoa(n);
    if n < 0 {
      NatToDigitsValue(-n);
      assert s[1..] == NatToDigits(-n);
    } else {
      NatToDigitsValue(n);
    }
  }

  // ---------------------------------------------------------------------------
  // Byte-wise string order (Go's `<` on strings)
  // ---------------------------------------------------------------------------

  /** `a < b` in Go: lexicographic on code points, a proper prefix first. */
  predicate Less(a: string, b: string)
    decreases |a|
  {
    |b| > 0 && (|a| == 0 || a[0] < b[0] || (a[0] == b[0] && Less(a[1..], b[1..])))
  }

  lemma {:induction false} LessIrreflexive(a: string)
    ensures !Less(a, a)
    decreases |a|
  {
    if |a| > 0 {
      LessIrreflexive(a[1..]);
    }
  }

  lemma {:induction false} LessAsymmetric(a: string, b: string)
    ensures !(Less(a, b) && Less(b, a))
    decreases |a|
  {
    if |a| > 0 && |b| > 0 && a[0] == b[0] {
      LessAsymmetric(a[1..], b[1..]);
    }
  }

  lemma {:induction false} LessTransitive(a: string, b: string, c: string)
    requires Less(a, b) && Less(b, c)
    ensures Less(a, c)
    decreases |a|
  {
    if |a| > 0 && a[0] == b[0] && b[0] == c[0] {
      LessTransitive(a[1..], b[1..], c[1..]);
    }
  }

  lemma {:induction false} LessTotal(a: string, b: string)
    requires a != b
    ensures Less(a, b) || Less(b, a)
    decreases |a|
  {
    if |a| > 0 && |b| > 0 && a[0] == b[0] {
      assert a == [a[0]] + a[1..] && b == [b[0]] + b[1..];
      LessTotal(a[1..], b[1..]);
    }
  }

  // ---------------------------------------------------------------------------
  // UTF-8 length (Go's `len` on a string)
  // ---------------------------------------------------------------------------

  function Utf8Width(c: char): (w: nat)
    ensures 1 <= w <= 4
    ensures w == 1 <==> c as int < 0x80
  {
    if c as int < 0x80 then 1
    else if c as int < 0x800 then 2
    else if c as int < 0x1_0000 then 3
    else 4
  }

  /** `len(s)` for a Go string: its length in UTF-8 bytes. */
  function Utf8Len(s: string): (n: nat)
    ensures |s| <= n <= 4 * |s|
    ensures (forall i :: 0 <= i < |s| ==> s[i] as int < 0x80) ==> n == |s|
  {
    if s == [] then 0 else Utf8Width(s[0]) + Utf8Len(s[1..])
  }
}

=== FILE: interceptor_info.dfy ===
/**
 * `InfoFromContext` of the provider's interceptors, in its v5 (five results) and
 * v6 (six results, with the resource type name) forms: gather the service
 * package, display names and tags-in-context for the resource being handled,
 * falling back to placeholder names.
 */
module InterceptorInfo {
  import opened Wrappers

  /** A registered service package; only its name is read here. */
  datatype ServicePackage = ServicePackage(packageName: string)

  /** The per-resource information the provider stores in the request context. */
  datatype InContext = InContext(servicePackageName: string, resourceName: string, typeName: string)

  /** The tags-in-context record, passed through untouched. */
  datatype TagsInContext = TagsInContext(id: nat)

  /**
   * What the function reads: the two context entries, the client's package
   * registry (`ServicePackage` yields nil for an unknown name) and the outcome of
   * `names.HumanFriendly` for each package name.
   */
  datatype Lookup = Lookup(
    inContext: Option<InContext>,
    packages: map<string, ServicePackage>,
    humanFriendly: string -> Option<string>,
    tags: Option<TagsInContext>)

  const ServicePlaceholder: string := "<service>"
  const ResourcePlaceholder: string := "<thing>"
  const TypePlaceholder: string := "aws_<service>_<thing>"

  /** The v5 result tuple `(sp, serviceName, resourceName, tags, ok)`. */
  datatype InfoV5 = InfoV5(sp: Option<ServicePackage>, serviceName: string, resourceName: string,
                           tags: Option<TagsInContext>, ok: bool)

  /** The v6 result tuple `(sp, serviceName, resourceName, typeName, tags, ok)`. */
  datatype InfoV6 = InfoV6(sp: Option<ServicePackage>, serviceName: string, resourceName: string,
                           typeName: string, tags: Option<TagsInContext>, ok: bool)

  /** Whether all three lookups succeed, which is when the result is not the failure tuple. */
  predicate Found(l: Lookup) {
    l.inContext.Some? && l.inContext.value.servicePackageName in l.packages && l.tags.Some?
  }

  /** The human-friendly service name, or the placeholder when the conversion fails. */
  function ServiceName(l: Lookup, sp: ServicePackage): (r: string)
    ensures l.humanFriendly(sp.packageName).Some? ==> r == l.humanFriendly(sp.packageName).value
    ensures l.humanFriendly(sp.packageName).None? ==> r == ServicePlaceholder
  {
    match l.humanFriendly(sp.packageName)
    case Some(name) => name
    case None => ServicePlaceholder
  }

  /** A name, or the placeholder when it is empty. */
  function OrPlaceholder(name: string, placeholder: string): (r: string)
    ensures name != "" ==> r == name
    ensures name == "" ==> r == placeholder
  {
    if name == "" then placeholder else name
  }

  /** The v5 `InfoFromContext`. */
  function InfoFromContextV5(l: Lookup): (r: InfoV5)
    ensures !Found(l) ==> r == InfoV5(None, "", "", None, false)
    ensures Found(l) ==> r.ok && r.sp == Some(l.packages[l.inContext.value.servicePackageName]) && r.tags == l.tags
    ensures Found(l) ==> r.resourceName != "" && r.serviceName == ServiceName(l, r.sp.value)
  {
    if l.inContext.None? then InfoV5(None, "", "", None, false)
    else
      var inContext := l.inContext.value;
      if inContext.servicePackageName !in l.packages then InfoV5(None, "", "", None, false)
      else
        var sp := l.packages[inContext.servicePackageName];
        var serviceName := ServiceName(l, sp);
        var resourceName := OrPlaceholder(inContext.resourceName, ResourcePlaceholder);
        if l.tags.Some? then InfoV5(Some(sp), serviceName, resourceName, l.tags, true)
        else InfoV5(None, "", "", None, false)
  }

  /** On success the v5 resource name is the context's own unless that is empty. */
  lemma InfoV5ResourceName(l: Lookup)
    requires Found(l)
    ensures InfoFromContextV5(l).resourceName == OrPlaceholder(l.inContext.value.resourceName, ResourcePlaceholder)
    ensures l.inContext.value.resourceName != "" ==> InfoFromContextV5(l).resourceName == l.inContext.value.resourceName
  {
  }

  /**
   * The v6 `InfoFromContext` as written: when the type name is empty the
   * placeholder meant for it is stored into the resource name, and the empty
   * type name is returned.
   */
  function InfoFromContextV6(l: Lookup): (r: InfoV6)
    ensures !Found(l) ==> r == InfoV6(None, "", "", "", None, false)
    ensures Found(l) ==> r.ok && r.sp == Some(l.packages[l.inContext.value.servicePackageName]) && r.tags == l.tags
    ensures Found(l) ==> r.typeName == l.inContext.value.typeName && r.resourceName != ""
    ensures Found(l) ==> r.serviceName == ServiceName(l, r.sp.value)
    ensures Found(l) ==>
              r.resourceName == if l.inContext.value.typeName == "" then TypePlaceholder
                                else OrPlaceholder(l.inContext.value.resourceName, ResourcePlaceholder)
  {
    if l.inContext.None? then InfoV6(None, "", "", "", None, false)
    else
      var inContext := l.inContext.value;
      if inContext.servicePackageName !in l.packages then InfoV6(None, "", "", "", None, false)
      else
        var sp := l.packages[inContext.servicePackageName];
        var serviceName := ServiceName(l, sp);
        var resourceName := OrPlaceholder(inContext.resourceName, ResourcePlaceholder);
        var typeName := inContext.typeName;
        var resourceName' := if typeName == "" then TypePlaceholder else resourceName;
        if l.tags.Some? then InfoV6(Some(sp), serviceName, resourceName', typeName, l.tags, true)
        else InfoV6(None, "", "", "", None, false)
  }

  /**
   * As written, a resource without a type name loses its own name: a context naming
   * resource "Bucket" with an empty type name reports resource name
   * `aws_<service>_<thing>` and type name "".
   */
  lemma InfoV6EmptyTypeNameClobbersResourceName()
    ensures var l := Lookup(Some(InContext("s3", "Bucket", "")), map["s3" := ServicePackage("s3")],
                            (name: string) => Some("S3"), Some(TagsInContext(0)));
            InfoFromContextV6(l).resourceName == TypePlaceholder && InfoFromContextV6(l).typeName == ""
  {
  }

  /** The v6 `InfoFromContext` with the type-name fallback applied to the type name. */
  function InfoFromContextV6Intended(l: Lookup): (r: InfoV6)
    ensures !Found(l) ==> r == InfoV6(None, "", "", "", None, false)
    ensures Found(l) ==> r.ok && r.sp == Some(l.packages[l.inContext.value.servicePackageName]) && r.tags == l.tags
  {
    if l.inContext.None? then InfoV6(None, "", "", "", None, false)
    else
      var inContext := l.inContext.value;
      if inContext.servicePackageName !in l.packages then InfoV6(None, "", "", "", None, false)
      else
        var sp := l.packages[inContext.servicePackageName];
        var serviceName := ServiceName(l, sp);
        var resourceName := OrPlaceholder(inContext.resourceName, ResourcePlaceholder);
        var typeName := OrPlaceholder(inContext.typeName, TypePlaceholder);
        if l.tags.Some? then InfoV6(Some(sp), serviceName, resourceName, typeName, l.tags, true)
        else InfoV6(None, "", "", "", None, false)
  }

  /**
   * With the fallback on the type name, v6 reports the same package, service name,
   * resource name and tags as v5, and a type name that is never empty.
   */
  lemma InfoV6IntendedAgreesWithV5(l: Lookup)
    ensures var r5 := InfoFromContextV5(l);
            var r6 := InfoFromContextV6Intended(l);
            r6.sp == r5.sp && r6.serviceName == r5.serviceName && r6.resourceName == r5.resourceName
            && r6.tags == r5.tags && r6.ok == r5.ok
    ensures InfoFromContextV6Intended(l).ok ==> InfoFromContextV6Intended(l).typeName != ""
    ensures Found(l) && l.inContext.value.typeName != "" ==>
              InfoFromContextV6Intended(l) == InfoFromContextV6(l)
  {
  }
}

=== FILE: json_decode.dfy ===
/**
 * `json.Unmarshal` into an `any`: the grammar of section 2 to 7 of RFC 8259 as Go's
 * `encoding/json` accepts it, producing a `Dynamic.Value`.
 *
 * Go details kept: only space, tab, line feed and carriage return are whitespace;
 * control characters inside strings are rejected; `\uXXXX` escapes may form a
 * surrogate pair, and a surrogate that does not form a pair decodes as U+FFFD
 * without consuming the escape after it; a repeated object key keeps its last
 * value; at most `MaxDepth` arrays and objects nest.
 *
 * Numbers are modelled as integers: a literal with a fraction or an exponent, and
 * `-0`, are reported as `UnsupportedNumber` instead of being decoded to a float64.
 */
module JsonDecode {
  import opened Wrappers
  import opened GoStrings
  import opened Dynamic

  datatype DecodeError = SyntaxError | DepthExceeded | UnsupportedNumber

  /** A parsed item and the input left after it. */
  type Parsed<T> = Result<(T, string), DecodeError>

  predicate IsWhitespace(c: char) {
    c == ' ' || c == '\t' || c == '\n' || c == '\r'
  }

  function SkipWhitespace(s: string): (r: string)
    ensures |r| <= |s|
    ensures r == [] || !IsWhitespace(r[0])
  {
    if s != [] && IsWhitespace(s[0]) then SkipWhitespace(s[1..]) else s
  }

  predicate IsHexDigit(c: char) {
    IsDigit(c) || 'a' <= c <= 'f' || 'A' <= c <= 'F'
  }

  function HexValue(c: char): (d: nat)
    requires IsHexDigit(c)
    ensures d < 16
  {
    if IsDigit(c) then DigitValue(c)
    else if 'a' <= c <= 'f' then (c as int) - ('a' as int) + 10
    else (c as int) - ('A' as int) + 10
  }

  /** The four hex digits of a `\uXXXX` escape, if `s` starts with four. */
  function Hex4(s: string): (r: Option<nat>)
    ensures r.Some? ==> |s| >= 4 && r.value < 0x1_0000
  {
    if |s| >= 4 && IsHexDigit(s[0]) && IsHexDigit(s[1]) && IsHexDigit(s[2]) && IsHexDigit(s[3]) then
      Some(((HexValue(s[0]) * 16 + HexValue(s[1])) * 16 + HexValue(s[2])) * 16 + HexValue(s[3]))
    else
      None
  }

  predicate IsSurrogate(u: int) {
    0xD800 <= u < 0xE000
  }

  const ReplacementChar: char := 0xFFFD as char

  /**
   * The escape after a backslash: the character it stands for and the input after it.
   * A high surrogate immediately followed by a `\u` low surrogate decodes as one
   * character; any other surrogate decodes as U+FFFD and consumes only its own escape.
   */
  function ParseEscape(s: string): (r: Parsed<char>)
    ensures r.Success? ==> |r.value.1| < |s|
  {
    if s == [] then Failure(SyntaxError)
    else if s[0] == '"' || s[0] == '\\' || s[0] == '/' then Success((s[0], s[1..]))
    else if s[0] == 'b' then Success(((0x08 as char), s[1..]))
    else if s[0] == 'f' then Success(((0x0C as char), s[1..]))
    else if s[0] == 'n' then Success(('\n', s[1..]))
    else if s[0] == 'r' then Success(('\r', s[1..]))
    else if s[0] == 't' then Success(('\t', s[1..]))
    else if s[0] == 'u' then
      match Hex4(s[1..])
      case None => Failure(SyntaxError)
      case Some(u) =>
        if !IsSurrogate(u) then
          Success(((u as char), s[5..]))
        else if 0xD800 <= u < 0xDC00 && |s| >= 11 && s[5] == '\\' && s[6] == 'u'
                && Hex4(s[7..]).Some? && 0xDC00 <= Hex4(s[7..]).value < 0xE000 then
          var low := Hex4(s[7..]).value;
          Success((((0x1_0000 + (u - 0xD800) * 0x400 + (low - 0xDC00)) as char), s[11..]))
        else
          Success((ReplacementChar, s[5..]))
    else
      Failure(SyntaxError)
  }

  /** The characters of a string literal up to its closing quote, and the input after the quote. */
  function ParseStringBody(s: string): (r: Parsed<string>)
    ensures r.Success? ==> |r.value.1| < |s|
    decreases |s|
  {
    if s == [] then Failure(SyntaxError)
    else if s[0] == '"' then Success(("", s[1..]))
    else if (s[0] as int) < 0x20 then Failure(SyntaxError)
    else if s[0] == '\\' then
      var e :- ParseEscape(s[1..]);
      var p :- ParseStringBody(e.1);
      Success(([e.0] + p.0, p.1))
    else
      var p :- ParseStringBody(s[1..]);
      Success(([s[0]] + p.0, p.1))
  }

  /** The longest run of digits at the start of `s`, and the rest. */
  function ReadDigits(s: string): (r: (string, string))
    ensures AllDigits(r.0) && r.0 + r.1 == s
    ensures r.1 == [] || !IsDigit(r.1[0])
  {
    if s != [] && IsDigit(s[0]) then
      var p := ReadDigits(s[1..]);
      ([s[0]] + p.0, p.1)
    else
      ("", s)
  }

  /** A number literal: `-`? then `0` or a non-zero digit followed by digits. */
  function ParseNumber(s: string): (r: Parsed<Value>)
    requires s != [] && (s[0] == '-' || IsDigit(s[0]))
    ensures r.Success? ==> |r.value.1| < |s| && r.value.0.Number?
  {
    var negative := s[0] == '-';
    var body := if negative then s[1..] else s;
    if body == [] || !IsDigit(body[0]) then
      Failure(SyntaxError)
    else
      var p := if body[0] == '0' then ("0", body[1..]) else ReadDigits(body);
      var digits := p.0;
      var rest := p.1;
      if rest != [] && (rest[0] == '.' || rest[0] == 'e' || rest[0] == 'E') then
        Failure(UnsupportedNumber)
      else if negative && digits == "0" then
        Failure(UnsupportedNumber)
      else
        var magnitude: int := DigitsValue(digits);
        Success((Number(if negative then -magnitude else magnitude), rest))
  }

  /**
   * One value after optional whitespace; `depth` arrays and objects are already open.
   */
  function ParseValue(s: string, depth: nat): (r: Parsed<Value>)
    requires depth <= MaxDepth
    ensures r.Success? ==> |r.value.1| < |s|
    ensures r.Success? ==> DepthAtMost(r.value.0, MaxDepth - depth)
    decreases |s|, 1
  {
    var t := SkipWhitespace(s);
    if t == [] then Failure(SyntaxError)
    else if t[0] == '[' then
      if depth == MaxDepth then Failure(DepthExceeded) else ParseArray(t[1..], depth + 1)
    else if t[0] == '{' then
      if depth == MaxDepth then Failure(DepthExceeded) else ParseObject(t[1..], depth + 1)
    else if t[0] == '"' then
      var p :- ParseStringBody(t[1..]);
      Success((String(p.0), p.1))
    else if t[0] == '-' || IsDigit(t[0]) then ParseNumber(t)
    else if HasPrefix(t, "true") then Success((Bool(true), t[4..]))
    else if HasPrefix(t, "false") then Success((Bool(false), t[5..]))
    else if HasPrefix(t, "null") then Success((Null, t[4..]))
    else Failure(SyntaxError)
  }

  /** The rest of an array after its `[`; `depth` counts the array itself. */
  function ParseArray(s: string, depth: nat): (r: Parsed<Value>)
    requires 1 <= depth <= MaxDepth
    ensures r.Success? ==> |r.value.1| < |s|
    ensures r.Success? ==> DepthAtMost(r.value.0, MaxDepth - depth + 1)
    decreases |s|, 3
  {
    var t := SkipWhitespace(s);
    if t != [] && t[0] == ']' then
      Success((Array([]), t[1..]))
    else
      var p :- ParseElements(t, depth);
      Success((Array(p.0), p.1))
  }

  /** One or more comma-separated array elements and the closing `]`. */
  function ParseElements(s: string, depth: nat): (r: Parsed<seq<Value>>)
    requires 1 <= depth <= MaxDepth
    ensures r.Success? ==> |r.value.1| < |s|
    ensures r.Success? ==> ItemsAtMost(r.value.0, MaxDepth - depth)
    decreases |s|, 2
  {
    var p :- ParseValue(s, depth);
    var t := SkipWhitespace(p.1);
    if t == [] then Failure(SyntaxError)
    else if t[0] == ']' then Success(([p.0], t[1..]))
    else if t[0] == ',' then
      var q :- ParseElements(t[1..], depth);
      Success(([p.0] + q.0, q.1))
    else Failure(SyntaxError)
  }

  /** The rest of an object after its `{`; `depth` counts the object itself. */
  function ParseObject(s: string, depth: nat): (r: Parsed<Value>)
    requires 1 <= depth <= MaxDepth
    ensures r.Success? ==> |r.value.1| < |s|
    ensures r.Success? ==> DepthAtMost(r.value.0, MaxDepth - depth + 1)
    decreases |s|, 3
  {
    var t := SkipWhitespace(s);
    if t != [] && t[0] == '}' then
      Success((Object(map[]), t[1..]))
    else
      var p :- ParseMembers(t, depth, map[]);
      Success((Object(p.0), p.1))
  }

  /** One `"key": value` pair of an object. */
  function ParseMember(s: string, depth: nat): (r: Parsed<(string, Value)>)
    requires 1 <= depth <= MaxDepth
    ensures r.Success? ==> |r.value.1| < |s|
    ensures r.Success? ==> DepthAtMost(r.value.0.1, MaxDepth - depth)
    decreases |s|, 1
  {
    if s == [] || s[0] != '"' then Failure(SyntaxError)
    else
      var key :- ParseStringBody(s[1..]);
      var t := SkipWhitespace(key.1);
      if t == [] || t[0] != ':' then Failure(SyntaxError)
      else
        var p :- ParseValue(t[1..], depth);
        Success(((key.0, p.0), p.1))
  }

  /**
   * One or more comma-separated `"key": value` members and the closing `}`, added
   * in order to `acc`, so that a repeated key keeps its last value.
   */
  function ParseMembers(s: string, depth: nat, acc: map<string, Value>): (r: Parsed<map<string, Value>>)
    requires 1 <= depth <= MaxDepth
    ensures r.Success? ==> |r.value.1| < |s|
    ensures r.Success? && MembersAtMost(acc, MaxDepth - depth) ==> MembersAtMost(r.value.0, MaxDepth - depth)
    decreases |s|, 2
  {
    var m :- ParseMember(s, depth);
    var acc' := acc[m.0.0 := m.0.1];
    var u := SkipWhitespace(m.1);
    if u == [] then Failure(SyntaxError)
    else if u[0] == '}' then Success((acc', u[1..]))
    else if u[0] == ',' then ParseMembers(SkipWhitespace(u[1..]), depth, acc')
    else Failure(SyntaxError)
  }

  /** `json.Unmarshal(data, &v)` with `v` of type `any`: one value and nothing but whitespace after it. */
  function Decode(s: string): (r: Result<Value, DecodeError>)
    ensures r.Success? ==> DepthAtMost(r.value, MaxDepth)
  {
    var p :- ParseValue(s, 0);
    if SkipWhitespace(p.1) != [] then Failure(SyntaxError) else Success(p.0)
  }
}

=== FILE: json_encode.dfy ===
/**
 * `json.Marshal` of a `Dynamic.Value`: compact output (no whitespace between
 * tokens), object members in increasing key order, and Go's string escaping with
 * HTML escaping on.
 */
module JsonEncode {
  import opened GoStrings
  import opened Dynamic

  function HexDigitLower(d: nat): (c: char)
    requires d < 16
  {
    if d < 10 then DigitChar(d) else (('a' as int) + d - 10) as char
  }

  /** `\u` followed by four lower-case hex digits of `u`. */
  function UnicodeEscape(u: nat): (r: string)
    requires u < 0x1_0000
    ensures |r| == 6 && r[0] == '\\' && r[1] == 'u'
  {
    ['\\', 'u', HexDigitLower(u / 0x1000), HexDigitLower(u / 0x100 % 16),
     HexDigitLower(u / 16 % 16), HexDigitLower(u % 16)]
  }

  /** The characters `encoding/json` writes with an escape when HTML escaping is on. */
  predicate NeedsUnicodeEscape(c: char) {
    (c as int) < 0x20 || c == '<' || c == '>' || c == '&' || c as int == 0x2028 || c as int == 0x2029
  }

  /** How one character of a string is written inside the quotes. */
  function EscapeChar(c: char): (r: string)
    ensures |r| > 0
    ensures r[0] != '"' && (r[0] as int) >= 0x20
    ensures r[0] == '\\' <==> (c == '"' || c == '\\' || NeedsUnicodeEscape(c))
  {
    if c == '"' || c == '\\' then ['\\', c]
    else if c as int == 0x08 then "\\b"
    else if c as int == 0x0C then "\\f"
    else if c == '\n' then "\\n"
    else if c == '\r' then "\\r"
    else if c == '\t' then "\\t"
    else if NeedsUnicodeEscape(c) then UnicodeEscape(c as int)
    else [c]
  }

  function EscapeString(s: string): string {
    if s == [] then "" else EscapeChar(s[0]) + EscapeString(s[1..])
  }

  /** A string literal. */
  function Quote(s: string): (r: string)
    ensures |r| >= 2 && r[0] == '"'
  {
    "\"" + EscapeString(s) + "\""
  }

  /** The least key of a non-empty key set. */
  function LeastKey(keys: set<string>): (k: string)
    requires keys != {}
    ensures k in keys
    ensures forall x :: x in keys && x != k ==> Less(k, x)
  {
    LeastKeyExists(keys);
    LessAsymmetricAll();
    var k :| k in keys && forall x :: x in keys && x != k ==> Less(k, x); k
  }

  lemma LessAsymmetricAll()
    ensures forall a, b :: !(Less(a, b) && Less(b, a))
  {
    forall a, b ensures !(Less(a, b) && Less(b, a)) {
      LessAsymmetric(a, b);
    }
  }

  lemma LeastKeyExists(keys: set<string>)
    requires keys != {}
    ensures exists k :: k in keys && forall x :: x in keys && x != k ==> Less(k, x)
  {
    var k := LeastKeyWitness(keys);
  }

  lemma {:induction false} LeastKeyWitness(keys: set<string>) returns (k: string)
    requires keys != {}
    ensures k in keys && forall x :: x in keys && x != k ==> Less(k, x)
    decreases |keys|
  {
    var y :| y in keys;
    if keys == {y} {
      k := y;
    } else {
      var rest := keys - {y};
      var m := LeastKeyWitness(rest);
      LessTotal(m, y);
      if Less(y, m) {
        k := y;
        forall x | x in keys && x != y
          ensures Less(y, x)
        {
          if x != m {
            assert x in rest;
            LessTransitive(y, m, x);
          }
        }
      } else {
        k := m;
        forall x | x in keys && x != m
          ensures Less(m, x)
        {
          if x != y {
            assert x in rest;
          }
        }
      }
    }
  }

  /** The keys of an object in the order `encoding/json` writes them. */
  function SortedKeys(keys: set<string>): (r: seq<string>)
    ensures |r| == |keys|
    ensures forall k :: k in keys <==> k in r
    decreases |keys|
  {
    if keys == {} then []
    else
      var k := LeastKey(keys);
      [k] + SortedKeys(keys - {k})
  }

  /** The keys come out in strictly increasing byte order, so none is repeated. */
  lemma {:induction false} SortedKeysOrdered(keys: set<string>)
    ensures forall i, j :: 0 <= i < j < |SortedKeys(keys)| ==> Less(SortedKeys(keys)[i], SortedKeys(keys)[j])
    decreases |keys|
  {
    if keys != {} {
      var k := LeastKey(keys);
      var t := SortedKeys(keys - {k});
      SortedKeysOrdered(keys - {k});
      var r := SortedKeys(keys);
      assert r == [k] + t;
      forall i, j | 0 <= i < j < |r|
        ensures Less(r[i], r[j])
      {
        assert r[j] == t[j - 1];
        if i == 0 {
          assert t[j - 1] in keys - {k};
        } else {
          assert r[i] == t[i - 1];
        }
      }
    }
  }

  /**
   * A list of keys in strictly increasing order is the order in which the members
   * of an object with exactly those keys are written.
   */
  lemma {:induction false} SortedKeysOfSorted(keys: set<string>, s: seq<string>)
    requires forall k :: k in keys <==> k in s
    requires forall i, j :: 0 <= i < j < |s| ==> Less(s[i], s[j])
    ensures SortedKeys(keys) == s
    decreases |s|
  {
    if s == [] {
      assert keys == {};
    } else {
      assert s[0] in keys;
      var k := LeastKey(keys);
      var j :| 0 <= j < |s| && s[j] == k;
      LessAsymmetric(k, s[0]);
      assert j == 0;
      var rest := keys - {k};
      LessIrreflexive(k);
      forall t | t in s[1..]
        ensures t in rest
      {
        var i :| 1 <= i < |s| && s[i] == t;
        assert Less(s[0], s[i]);
      }
      forall t | t in rest
        ensures t in s[1..]
      {
        var i :| 0 <= i < |s| && s[i] == t;
        assert i != 0;
        assert s[1..][i - 1] == t;
      }
      SortedKeysOfSorted(rest, s[1..]);
      assert SortedKeys(keys) == [k] + SortedKeys(rest);
    }
  }

  /** A character that `encoding/json` writes as itself inside a string literal. */
  predicate PlainChar(c: char) {
    c != '"' && c != '\\' && !NeedsUnicodeEscape(c)
  }

  /** A string of plain characters is written between the quotes as it is. */
  lemma {:induction false} QuotePlain(s: string)
    requires forall i :: 0 <= i < |s| ==> PlainChar(s[i])
    ensures Quote(s) == "\"" + s + "\""
  {
    EscapePlain(s);
  }

  lemma {:induction false} EscapePlain(s: string)
    requires forall i :: 0 <= i < |s| ==> PlainChar(s[i])
    ensures EscapeString(s) == s
    decreases |s|
  {
    if s != [] {
      assert PlainChar(s[0]);
      EscapePlain(s[1..]);
    }
  }

  /** The first character of an encoding tells which kind of value it is. */
  lemma EncodeFirst(v: Value)
    ensures v.Array? <==> Encode(v)[0] == '['
    ensures v.Object? <==> Encode(v)[0] == '{'
    ensures v.String? <==> Encode(v)[0] == '"'
    ensures v.Number? <==> (Encode(v)[0] == '-' || IsDigit(Encode(v)[0]))
    ensures v.Null? <==> Encode(v)[0] == 'n'
    ensures v.Bool? <==> (Encode(v)[0] == 't' || Encode(v)[0] == 'f')
  {
  }

  /** The JSON text of a value. */
  function Encode(v: Value): (r: string)
    ensures |r| > 0
    decreases v, 1, 0
  {
    match v
    case Null => "null"
    case Bool(b) => if b then "true" else "false"
    case Number(n) => Itoa(n)
    case String(s) => Quote(s)
    case Array(items) => "[" + EncodeItems(items) + "]"
    case Object(members) => "{" + EncodeMembers(members, SortedKeys(members.Keys)) + "}"
  }

  /** Array elements separated by commas. */
  function EncodeItems(items: seq<Value>): string
    decreases items, 0, 0
  {
    if items == [] then ""
    else if |items| == 1 then Encode(items[0])
    else Encode(items[0]) + "," + EncodeItems(items[1..])
  }

  /** The members of `members` named by `keys`, in that order, separated by commas. */
  function EncodeMembers(members: map<string, Value>, keys: seq<string>): string
    requires forall k :: k in keys ==> k in members
    decreases Object(members), 0, |keys|
  {
    if keys == [] then ""
    else
      var member := Quote(keys[0]) + ":" + Encode(members[keys[0]]);
      if |keys| == 1 then member else member + "," + EncodeMembers(members, keys[1..])
  }
}

=== FILE: json_round_trip.dfy ===
/**
 * `json.Unmarshal` reads back exactly what `json.Marshal` wrote: decoding the
 * encoding of any value (within the nesting limit) gives the value again. The
 * normaliser's idempotence and the diff-suppression lemmas rest on this.
 */
module JsonRoundTrip {
  import opened Wrappers
  import opened GoStrings
  import opened Dynamic
  import opened JsonDecode
  import opened JsonEncode

  /** What may follow a value inside an encoding: nothing, or the next delimiter. */
  predicate Follows(rest: string) {
    rest == [] || rest[0] == ',' || rest[0] == ']' || rest[0] == '}'
  }

  lemma HexDigitRoundTrip(d: nat)
    requires d < 16
    ensures IsHexDigit(HexDigitLower(d)) && HexValue(HexDigitLower(d)) == d
  {
  }

  lemma HexDigitsRecombine(u: nat)
    requires u < 0x1_0000
    ensures ((u / 0x1000 * 16 + u / 0x100 % 16) * 16 + u / 16 % 16) * 16 + u % 16 == u
  {
    var a := u / 16;
    var b := a / 16;
    var c := b / 16;
    assert u == a * 16 + u % 16;
    assert a == b * 16 + a % 16;
    assert b == c * 16 + b % 16;
    assert b == u / 0x100;
    assert c == u / 0x1000;
  }

  lemma UnicodeEscapeParses(u: nat, tail: string)
    requires u < 0x1_0000
    ensures Hex4(UnicodeEscape(u)[2..] + tail) == Some(u)
  {
    var s := UnicodeEscape(u)[2..] + tail;
    HexDigitRoundTrip(u / 0x1000);
    HexDigitRoundTrip(u / 0x100 % 16);
    HexDigitRoundTrip(u / 16 % 16);
    HexDigitRoundTrip(u % 16);
    HexDigitsRecombine(u);
    assert s[0] == HexDigitLower(u / 0x1000);
    assert s[1] == HexDigitLower(u / 0x100 % 16);
    assert s[2] == HexDigitLower(u / 16 % 16);
    assert s[3] == HexDigitLower(u % 16);
  }

  /** An escape that `EscapeChar` writes decodes to the character it stands for. */
  lemma EscapeParses(c: char, tail: string)
    requires EscapeChar(c)[0] == '\\'
    ensures ParseEscape(EscapeChar(c)[1..] + tail) == Success((c, tail))
  {
    var e := EscapeChar(c);
    var s := e[1..] + tail;
    if c == '"' || c == '\\' || c as int == 0x08 || c as int == 0x0C || c == '\n' || c == '\r' || c == '\t' {
      assert s[1..] == tail;
    } else {
      assert NeedsUnicodeEscape(c);
      assert e == UnicodeEscape(c as int);
      UnicodeEscapeParses(c as int, tail);
      assert s[1..] == UnicodeEscape(c as int)[2..] + tail;
      assert s[5..] == tail;
    }
  }

  /** The body of a string literal decodes back to the string. */
  lemma {:induction false} StringBodyRoundTrip(s: string, rest: string)
    ensures ParseStringBody(EscapeString(s) + "\"" + rest) == Success((s, rest))
    decreases |s|
  {
    if s == [] {
      assert EscapeString(s) + "\"" + rest == "\"" + rest;
    } else {
      var c := s[0];
      var tail := EscapeString(s[1..]) + "\"" + rest;
      assert EscapeString(s) + "\"" + rest == EscapeChar(c) + tail;
      StringBodyRoundTrip(s[1..], rest);
      CharStep(c, tail, s[1..], rest);
      assert [c] + s[1..] == s;
    }
  }

  /** One escaped character in front of a parsable string body. */
  lemma CharStep(c: char, tail: string, str: string, rest: string)
    requires ParseStringBody(tail) == Success((str, rest))
    ensures ParseStringBody(EscapeChar(c) + tail) == Success(([c] + str, rest))
  {
    var input := EscapeChar(c) + tail;
    if EscapeChar(c)[0] == '\\' {
      EscapeParses(c, tail);
      assert input[1..] == EscapeChar(c)[1..] + tail;
    } else {
      assert EscapeChar(c) == [c];
      AfterFirst([c], tail);
    }
  }

  lemma QuoteRoundTrip(s: string, rest: string)
    ensures ParseStringBody(Quote(s)[1..] + rest) == Success((s, rest))
  {
    assert Quote(s)[1..] + rest == EscapeString(s) + "\"" + rest;
    StringBodyRoundTrip(s, rest);
  }

  lemma {:induction false} ReadDigitsStopsAt(digits: string, rest: string)
    requires AllDigits(digits)
    requires rest == [] || !IsDigit(rest[0])
    ensures ReadDigits(digits + rest) == (digits, rest)
    decreases |digits|
  {
    if digits != [] {
      var s := digits + rest;
      assert s[0] == digits[0] && IsDigit(s[0]);
      assert s[1..] == digits[1..] + rest;
      ReadDigitsStopsAt(digits[1..], rest);
      assert ReadDigits(s) == ([s[0]] + ReadDigits(s[1..]).0, ReadDigits(s[1..]).1);
      assert [digits[0]] + digits[1..] == digits;
    } else {
      assert digits + rest == rest;
    }
  }

  /** The unsigned part of a number literal: its digits and what follows them. */
  lemma DigitsRoundTrip(m: nat, rest: string)
    requires Follows(rest)
    ensures var body := NatToDigits(m) + rest;
      body != [] && IsDigit(body[0])
      && (if body[0] == '0' then ("0", body[1..]) else ReadDigits(body)) == (NatToDigits(m), rest)
  {
    var digits := NatToDigits(m);
    var body := digits + rest;
    assert body[0] == digits[0];
    if digits[0] == '0' {
      assert digits == "0";
      assert body[1..] == rest;
    } else {
      ReadDigitsStopsAt(digits, rest);
    }
  }

  lemma NumberRoundTrip(n: int, rest: string)
    requires Follows(rest)
    ensures ParseNumber(Itoa(n) + rest) == Success((Number(n), rest))
  {
    if n < 0 {
      assert Itoa(n) + rest == "-" + (NatToDigits(-n) + rest);
      NegativeRoundTrip(-n, rest);
    } else {
      UnsignedRoundTrip(n, rest);
    }
  }

  lemma UnsignedRoundTrip(m: nat, rest: string)
    requires Follows(rest)
    ensures ParseNumber(NatToDigits(m) + rest) == Success((Number(m), rest))
  {
    NatToDigitsValue(m);
    DigitsRoundTrip(m, rest);
  }

  lemma NegativeRoundTrip(m: nat, rest: string)
    requires m > 0
    requires Follows(rest)
    ensures ParseNumber("-" + (NatToDigits(m) + rest)) == Success((Number(-(m as int)), rest))
  {
    NatToDigitsValue(m);
    DigitsRoundTrip(m, rest);
    AfterFirst("-", NatToDigits(m) + rest);
    assert NatToDigits(m) != "0";
  }

  /** The first character of an encoding starts the right kind of token, never whitespace. */
  lemma EncodeStart(v: Value)
    ensures !IsWhitespace(Encode(v)[0])
    ensures Encode(v)[0] != ']' && Encode(v)[0] != '}' && Encode(v)[0] != ','
  {
    EncodeFirst(v);
  }

  lemma AfterFirst(c: string, x: string)
    requires |c| == 1
    ensures (c + x)[1..] == x
  {
  }

  lemma ParseValueNoWhitespace(s: string, depth: nat)
    requires depth <= MaxDepth
    requires s != [] && !IsWhitespace(s[0])
    ensures SkipWhitespace(s) == s
  {
  }

  lemma ParseValueArray(s: string, depth: nat)
    requires depth < MaxDepth
    requires s != [] && s[0] == '['
    ensures ParseValue(s, depth) == ParseArray(s[1..], depth + 1)
  {
  }

  lemma ParseValueObject(s: string, depth: nat)
    requires depth < MaxDepth
    requires s != [] && s[0] == '{'
    ensures ParseValue(s, depth) == ParseObject(s[1..], depth + 1)
  {
  }

  lemma ParseValueString(s: string, depth: nat, str: string, rest: string)
    requires depth <= MaxDepth
    requires s != [] && s[0] == '"'
    requires ParseStringBody(s[1..]) == Success((str, rest))
    ensures ParseValue(s, depth) == Success((String(str), rest))
  {
  }

  lemma ParseValueNumber(s: string, depth: nat)
    requires depth <= MaxDepth
    requires s != [] && (s[0] == '-' || IsDigit(s[0]))
    ensures ParseValue(s, depth) == ParseNumber(s)
  {
  }

  lemma ParseValueNull(rest: string, depth: nat)
    requires depth <= MaxDepth
    ensures ParseValue("null" + rest, depth) == Success((Null, rest))
  {
    var s := "null" + rest;
    assert SkipWhitespace(s) == s;
    assert !HasPrefix(s, "true") && !HasPrefix(s, "false") && HasPrefix(s, "null");
    assert s[4..] == rest;
  }

  lemma ParseValueTrue(rest: string, depth: nat)
    requires depth <= MaxDepth
    ensures ParseValue("true" + rest, depth) == Success((Bool(true), rest))
  {
    var s := "true" + rest;
    assert SkipWhitespace(s) == s;
    assert HasPrefix(s, "true");
    assert s[4..] == rest;
  }

  lemma ParseValueFalse(rest: string, depth: nat)
    requires depth <= MaxDepth
    ensures ParseValue("false" + rest, depth) == Success((Bool(false), rest))
  {
    var s := "false" + rest;
    assert SkipWhitespace(s) == s;
    assert !HasPrefix(s, "true") && HasPrefix(s, "false");
    assert s[5..] == rest;
  }

  lemma ParseArrayEmpty(rest: string, depth: nat)
    requires 1 <= depth <= MaxDepth
    ensures ParseArray("]" + rest, depth) == Success((Array([]), rest))
  {
    assert SkipWhitespace("]" + rest) == "]" + rest;
    assert ("]" + rest)[1..] == rest;
  }

  lemma ParseArrayItems(s: string, depth: nat)
    requires 1 <= depth <= MaxDepth
    requires s != [] && !IsWhitespace(s[0]) && s[0] != ']'
    requires ParseElements(s, depth).Success?
    ensures ParseArray(s, depth) == Success((Array(ParseElements(s, depth).value.0), ParseElements(s, depth).value.1))
  {
    assert SkipWhitespace(s) == s;
  }

  lemma ParseObjectEmpty(rest: string, depth: nat)
    requires 1 <= depth <= MaxDepth
    ensures ParseObject("}" + rest, depth) == Success((Object(map[]), rest))
  {
    assert SkipWhitespace("}" + rest) == "}" + rest;
    assert ("}" + rest)[1..] == rest;
  }

  lemma ParseObjectMembers(s: string, depth: nat)
    requires 1 <= depth <= MaxDepth
    requires s != [] && s[0] == '"'
    requires ParseMembers(s, depth, map[]).Success?
    ensures ParseObject(s, depth)
         == Success((Object(ParseMembers(s, depth, map[]).value.0), ParseMembers(s, depth, map[]).value.1))
  {
    assert SkipWhitespace(s) == s;
  }

  /** Decoding an encoding, followed by a delimiter, gives the value and the delimiter back. */
  lemma {:induction false} ValueRoundTrip(v: Value, rest: string, depth: nat)
    requires depth <= MaxDepth
    requires DepthAtMost(v, MaxDepth - depth)
    requires Follows(rest)
    ensures ParseValue(Encode(v) + rest, depth) == Success((v, rest))
    decreases v, 3, 0, 0
  {
    match v
    case Null =>
      ParseValueNull(rest, depth);
    case Bool(b) =>
      if b { ParseValueTrue(rest, depth); } else { ParseValueFalse(rest, depth); }
    case Number(n) =>
      var s := Itoa(n) + rest;
      ParseValueNumber(s, depth);
      NumberRoundTrip(n, rest);
    case String(str) =>
      var s := Quote(str) + rest;
      QuoteRoundTrip(str, rest);
      assert s[1..] == Quote(str)[1..] + rest;
      ParseValueString(s, depth, str, rest);
    case Array(items) =>
      ArrayRoundTrip(items, rest, depth);
    case Object(members) =>
      ObjectRoundTrip(members, rest, depth);
  }

  lemma {:induction false} ArrayRoundTrip(items: seq<Value>, rest: string, depth: nat)
    requires depth < MaxDepth
    requires ItemsAtMost(items, MaxDepth - (depth + 1))
    requires Follows(rest)
    ensures ParseValue(Encode(Array(items)) + rest, depth) == Success((Array(items), rest))
    decreases Array(items), 2, 0, 0
  {
    if items == [] {
      EmptyArrayRoundTrip(items, rest, depth);
    } else {
      ItemsArrayRoundTrip(items, rest, depth);
    }
  }

  lemma EmptyArrayRoundTrip(items: seq<Value>, rest: string, depth: nat)
    requires depth < MaxDepth
    requires items == []
    ensures ParseValue(Encode(Array(items)) + rest, depth) == Success((Array(items), rest))
  {
    assert EncodeItems(items) + "]" + rest == "]" + rest;
    ParseArrayEmpty(rest, depth + 1);
    ArrayOpen(items, rest, depth);
  }

  lemma {:induction false} ItemsArrayRoundTrip(items: seq<Value>, rest: string, depth: nat)
    requires depth < MaxDepth
    requires items != []
    requires ItemsAtMost(items, MaxDepth - (depth + 1))
    requires Follows(rest)
    ensures ParseValue(Encode(Array(items)) + rest, depth) == Success((Array(items), rest))
    decreases Array(items), 1, 0, 0
  {
    ItemsRoundTrip(items, rest, depth + 1);
    ArrayFromElements(items, rest, depth);
  }

  lemma ArrayFromElements(items: seq<Value>, rest: string, depth: nat)
    requires depth < MaxDepth
    requires items != []
    requires ParseElements(EncodeItems(items) + "]" + rest, depth + 1) == Success((items, rest))
    ensures ParseValue(Encode(Array(items)) + rest, depth) == Success((Array(items), rest))
  {
    ArrayBody(items, rest, depth + 1);
    ArrayOpen(items, rest, depth);
  }

  lemma ArrayBody(items: seq<Value>, rest: string, depth: nat)
    requires 1 <= depth <= MaxDepth
    requires items != []
    requires ParseElements(EncodeItems(items) + "]" + rest, depth) == Success((items, rest))
    ensures ParseArray(EncodeItems(items) + "]" + rest, depth) == Success((Array(items), rest))
  {
    EncodeItemsStart(items, "]" + rest);
    EncodeStart(items[0]);
    ParseArrayItems(EncodeItems(items) + "]" + rest, depth);
  }

  lemma ArrayOpen(items: seq<Value>, rest: string, depth: nat)
    requires depth < MaxDepth
    ensures ParseValue(Encode(Array(items)) + rest, depth) == ParseArray(EncodeItems(items) + "]" + rest, depth + 1)
  {
    EncodeArrayShape(items, rest);
    OpenBracket("[", EncodeItems(items) + "]" + rest, depth);
  }

  lemma ObjectOpen(members: map<string, Value>, rest: string, depth: nat)
    requires depth < MaxDepth
    ensures ParseValue(Encode(Object(members)) + rest, depth)
         == ParseObject(EncodeMembers(members, SortedKeys(members.Keys)) + "}" + rest, depth + 1)
  {
    EncodeObjectShape(members, rest);
    OpenBracket("{", EncodeMembers(members, SortedKeys(members.Keys)) + "}" + rest, depth);
  }

  lemma EncodeArrayShape(items: seq<Value>, rest: string)
    ensures Encode(Array(items)) + rest == "[" + (EncodeItems(items) + "]" + rest)
  {
  }

  lemma EncodeObjectShape(members: map<string, Value>, rest: string)
    ensures Encode(Object(members)) + rest
         == "{" + (EncodeMembers(members, SortedKeys(members.Keys)) + "}" + rest)
  {
  }

  /** An opening bracket is consumed and the container parsed one level deeper. */
  lemma OpenBracket(open: string, inner: string, depth: nat)
    requires depth < MaxDepth
    requires open == "[" || open == "{"
    ensures open == "[" ==> ParseValue(open + inner, depth) == ParseArray(inner, depth + 1)
    ensures open == "{" ==> ParseValue(open + inner, depth) == ParseObject(inner, depth + 1)
  {
    AfterFirst(open, inner);
    if open == "[" {
      ParseValueArray(open + inner, depth);
    } else {
      ParseValueObject(open + inner, depth);
    }
  }

  lemma EncodeItemsStart(items: seq<Value>, tail: string)
    requires items != []
    ensures (EncodeItems(items) + tail)[0] == Encode(items[0])[0]
  {
  }

  lemma EncodeMembersStart(members: map<string, Value>, keys: seq<string>, tail: string)
    requires keys != []
    requires forall k :: k in keys ==> k in members
    ensures (EncodeMembers(members, keys) + tail)[0] == '"'
  {
  }

  lemma {:induction false} ObjectRoundTrip(members: map<string, Value>, rest: string, depth: nat)
    requires depth < MaxDepth
    requires MembersAtMost(members, MaxDepth - (depth + 1))
    requires Follows(rest)
    ensures ParseValue(Encode(Object(members)) + rest, depth) == Success((Object(members), rest))
    decreases Object(members), 2, 0, 0
  {
    if members == map[] {
      EmptyObjectRoundTrip(members, rest, depth);
    } else {
      MembersObjectRoundTrip(members, rest, depth);
    }
  }

  lemma EmptyObjectRoundTrip(members: map<string, Value>, rest: string, depth: nat)
    requires depth < MaxDepth
    requires members == map[]
    ensures ParseValue(Encode(Object(members)) + rest, depth) == Success((Object(members), rest))
  {
    var keys := SortedKeys(members.Keys);
    assert keys == [];
    EmptyObjectBody(members, keys, rest, depth + 1);
    ObjectOpen(members, rest, depth);
  }

  lemma {:induction false} MembersObjectRoundTrip(members: map<string, Value>, rest: string, depth: nat)
    requires depth < MaxDepth
    requires members != map[]
    requires MembersAtMost(members, MaxDepth - (depth + 1))
    requires Follows(rest)
    ensures ParseValue(Encode(Object(members)) + rest, depth) == Success((Object(members), rest))
    decreases Object(members), 1, 0, 0
  {
    ObjectKeys(members);
    MembersBodyRoundTrip(members, SortedKeys(members.Keys), rest, depth + 1);
    ObjectOpen(members, rest, depth);
  }

  lemma ObjectKeys(members: map<string, Value>)
    requires members != map[]
    ensures SortedKeys(members.Keys) != []
    ensures forall k :: k in SortedKeys(members.Keys) <==> k in members
  {
    var k :| k in members;
    assert k in SortedKeys(members.Keys);
  }

  lemma EmptyObjectBody(members: map<string, Value>, keys: seq<string>, rest: string, depth: nat)
    requires 1 <= depth <= MaxDepth
    requires members == map[] && keys == []
    ensures ParseObject(EncodeMembers(members, keys) + "}" + rest, depth) == Success((Object(members), rest))
  {
    assert EncodeMembers(members, keys) + "}" + rest == "}" + rest;
    ParseObjectEmpty(rest, depth);
  }

  lemma {:induction false} MembersBodyRoundTrip(members: map<string, Value>, keys: seq<string>, rest: string,
                                                depth: nat)
    requires 1 <= depth <= MaxDepth
    requires keys != []
    requires forall k :: k in keys ==> k in members
    requires forall k :: k in members <==> k in keys
    requires MembersAtMost(members, MaxDepth - depth)
    requires Follows(rest)
    ensures ParseObject(EncodeMembers(members, keys) + "}" + rest, depth) == Success((Object(members), rest))
    decreases Object(members), 0, |keys|, 2
  {
    var inner := EncodeMembers(members, keys) + "}" + rest;
    MembersRoundTrip(members, keys, rest, depth, map[]);
    EncodeMembersStart(members, keys, "}" + rest);
    ParseObjectMembers(inner, depth);
    CollectAll(members, keys);
  }

  /** `acc` updated with the members named by `keys`, in order, as the decoder stores them. */
  function Collect(acc: map<string, Value>, members: map<string, Value>, keys: seq<string>): map<string, Value>
    requires forall k :: k in keys ==> k in members
    decreases |keys|
  {
    if keys == [] then acc else Collect(acc[keys[0] := members[keys[0]]], members, keys[1..])
  }

  lemma {:induction false} CollectContents(acc: map<string, Value>, members: map<string, Value>, keys: seq<string>)
    requires forall k :: k in keys ==> k in members
    ensures forall k :: k in Collect(acc, members, keys) <==> k in acc || k in keys
    ensures forall k :: k in keys ==> Collect(acc, members, keys)[k] == members[k]
    ensures forall k :: k in acc && k !in keys ==> Collect(acc, members, keys)[k] == acc[k]
    decreases |keys|
  {
    if keys != [] {
      CollectContents(acc[keys[0] := members[keys[0]]], members, keys[1..]);
      assert forall k :: k in keys <==> k == keys[0] || k in keys[1..];
    }
  }

  lemma CollectAll(members: map<string, Value>, keys: seq<string>)
    requires forall k :: k in keys ==> k in members
    requires forall k :: k in members <==> k in keys
    ensures Collect(map[], members, keys) == members
  {
    CollectContents(map[], members, keys);
  }

  lemma ParseElementsLast(s: string, depth: nat, v: Value, rest: string)
    requires 1 <= depth <= MaxDepth
    requires ParseValue(s, depth) == Success((v, "]" + rest))
    ensures ParseElements(s, depth) == Success(([v], rest))
  {
    assert SkipWhitespace("]" + rest) == "]" + rest;
    assert ("]" + rest)[1..] == rest;
  }

  lemma ParseElementsNext(s: string, depth: nat, v: Value, after: string, vs: seq<Value>, rest: string)
    requires 1 <= depth <= MaxDepth
    requires ParseValue(s, depth) == Success((v, "," + after))
    requires ParseElements(after, depth) == Success((vs, rest))
    ensures ParseElements(s, depth) == Success(([v] + vs, rest))
  {
    assert SkipWhitespace("," + after) == "," + after;
    assert ("," + after)[1..] == after;
  }

  lemma {:induction false} ItemsRoundTrip(items: seq<Value>, rest: string, depth: nat)
    requires 1 <= depth <= MaxDepth
    requires items != []
    requires ItemsAtMost(items, MaxDepth - depth)
    requires Follows(rest)
    ensures ParseElements(EncodeItems(items) + "]" + rest, depth) == Success((items, rest))
    decreases items, 0, 0, 1
  {
    if |items| == 1 {
      LastItemRoundTrip(items, rest, depth);
    } else {
      NextItemRoundTrip(items, rest, depth);
    }
  }

  lemma {:induction false} LastItemRoundTrip(items: seq<Value>, rest: string, depth: nat)
    requires 1 <= depth <= MaxDepth
    requires |items| == 1
    requires ItemsAtMost(items, MaxDepth - depth)
    requires Follows(rest)
    ensures ParseElements(EncodeItems(items) + "]" + rest, depth) == Success((items, rest))
    decreases items, 0, 0, 0
  {
    LastItemText(items, rest);
    ValueRoundTrip(items[0], "]" + rest, depth);
    ParseElementsLast(Encode(items[0]) + ("]" + rest), depth, items[0], rest);
    assert [items[0]] == items;
  }

  lemma {:induction false} NextItemRoundTrip(items: seq<Value>, rest: string, depth: nat)
    requires 1 <= depth <= MaxDepth
    requires |items| > 1
    requires ItemsAtMost(items, MaxDepth - depth)
    requires Follows(rest)
    ensures ParseElements(EncodeItems(items) + "]" + rest, depth) == Success((items, rest))
    decreases items, 0, 0, 0
  {
    var after := EncodeItems(items[1..]) + "]" + rest;
    NextItemText(items, rest);
    ItemsTail(items, MaxDepth - depth);
    ValueRoundTrip(items[0], "," + after, depth);
    ItemsRoundTrip(items[1..], rest, depth);
    ParseElementsNext(Encode(items[0]) + ("," + after), depth, items[0], after, items[1..], rest);
    assert [items[0]] + items[1..] == items;
  }

  lemma ItemsTail(items: seq<Value>, d: nat)
    requires items != []
    requires ItemsAtMost(items, d)
    ensures DepthAtMost(items[0], d)
    ensures ItemsAtMost(items[1..], d)
  {
    forall i | 0 <= i < |items[1..]|
      ensures DepthAtMost(items[1..][i], d)
    {
      assert items[1..][i] == items[i + 1];
    }
  }

  lemma LastItemText(items: seq<Value>, rest: string)
    requires |items| == 1
    ensures EncodeItems(items) + "]" + rest == Encode(items[0]) + ("]" + rest)
  {
    assert EncodeItems(items) == Encode(items[0]);
    Assoc(Encode(items[0]), "]", rest);
  }

  lemma NextItemText(items: seq<Value>, rest: string)
    requires |items| > 1
    ensures EncodeItems(items) + "]" + rest == Encode(items[0]) + ("," + (EncodeItems(items[1..]) + "]" + rest))
  {
    assert EncodeItems(items) == Encode(items[0]) + "," + EncodeItems(items[1..]);
    RegroupItems(Encode(items[0]), EncodeItems(items[1..]), rest);
  }

  lemma Assoc(a: string, b: string, c: string)
    ensures a + b + c == a + (b + c)
  {
  }

  lemma RegroupItems(first: string, more: string, rest: string)
    ensures (first + "," + more) + "]" + rest == first + ("," + (more + "]" + rest))
  {
  }

  /** A quoted key, a colon and a value text that parses to `v` form one member. */
  lemma ParseMemberStep(key: string, valueText: string, v: Value, rest: string, depth: nat)
    requires 1 <= depth <= MaxDepth
    requires ParseValue(valueText, depth) == Success((v, rest))
    ensures ParseMember(Quote(key) + (":" + valueText), depth) == Success(((key, v), rest))
  {
    var s := Quote(key) + (":" + valueText);
    assert s[1..] == Quote(key)[1..] + (":" + valueText);
    QuoteRoundTrip(key, ":" + valueText);
    assert SkipWhitespace(":" + valueText) == ":" + valueText;
    AfterFirst(":", valueText);
  }

  lemma ParseMembersLast(s: string, depth: nat, acc: map<string, Value>, key: string, v: Value, rest: string)
    requires 1 <= depth <= MaxDepth
    requires ParseMember(s, depth) == Success(((key, v), "}" + rest))
    ensures ParseMembers(s, depth, acc) == Success((acc[key := v], rest))
  {
    assert SkipWhitespace("}" + rest) == "}" + rest;
    AfterFirst("}", rest);
  }

  lemma ParseMembersNext(s: string, depth: nat, acc: map<string, Value>, key: string, v: Value, after: string)
    requires 1 <= depth <= MaxDepth
    requires ParseMember(s, depth) == Success(((key, v), "," + after))
    requires SkipWhitespace(after) == after
    ensures ParseMembers(s, depth, acc) == ParseMembers(after, depth, acc[key := v])
  {
    assert SkipWhitespace("," + after) == "," + after;
    AfterFirst(",", after);
  }

  lemma {:induction false} MembersRoundTrip(members: map<string, Value>, keys: seq<string>, rest: string,
                                            depth: nat, acc: map<string, Value>)
    requires 1 <= depth <= MaxDepth
    requires keys != []
    requires forall k :: k in keys ==> k in members
    requires MembersAtMost(members, MaxDepth - depth)
    requires Follows(rest)
    ensures ParseMembers(EncodeMembers(members, keys) + "}" + rest, depth, acc)
         == Success((Collect(acc, members, keys), rest))
    decreases Object(members), 0, |keys|, 1
  {
    if |keys| == 1 {
      LastMemberRoundTrip(members, keys, rest, depth, acc);
    } else {
      NextMemberRoundTrip(members, keys, rest, depth, acc);
    }
  }

  lemma {:induction false} LastMemberRoundTrip(members: map<string, Value>, keys: seq<string>, rest: string,
                                               depth: nat, acc: map<string, Value>)
    requires 1 <= depth <= MaxDepth
    requires |keys| == 1 && keys[0] in members
    requires MembersAtMost(members, MaxDepth - depth)
    requires Follows(rest)
    ensures ParseMembers(EncodeMembers(members, keys) + "}" + rest, depth, acc)
         == Success((Collect(acc, members, keys), rest))
    decreases Object(members), 0, 1, 0
  {
    var key := keys[0];
    var value := members[key];
    var valueText := Encode(value) + ("}" + rest);
    assert EncodeMembers(members, keys) + "}" + rest == Quote(key) + (":" + valueText);
    ValueRoundTrip(value, "}" + rest, depth);
    ParseMemberStep(key, valueText, value, "}" + rest, depth);
    ParseMembersLast(Quote(key) + (":" + valueText), depth, acc, key, value, rest);
    assert keys[1..] == [];
  }

  lemma {:induction false} NextMemberRoundTrip(members: map<string, Value>, keys: seq<string>, rest: string,
                                               depth: nat, acc: map<string, Value>)
    requires 1 <= depth <= MaxDepth
    requires |keys| > 1
    requires forall k :: k in keys ==> k in members
    requires MembersAtMost(members, MaxDepth - depth)
    requires Follows(rest)
    ensures ParseMembers(EncodeMembers(members, keys) + "}" + rest, depth, acc)
         == Success((Collect(acc, members, keys), rest))
    decreases Object(members), 0, |keys|, 0
  {
    var key := keys[0];
    var value := members[key];
    var after := EncodeMembers(members, keys[1..]) + "}" + rest;
    var valueText := Encode(value) + ("," + after);
    NextMemberText(members, keys, rest);
    ValueRoundTrip(value, "," + after, depth);
    EncodeMembersStart(members, keys[1..], "}" + rest);
    MemberThenMore(key, valueText, value, after, depth, acc);
    MembersRoundTrip(members, keys[1..], rest, depth, acc[key := value]);
  }

  lemma NextMemberText(members: map<string, Value>, keys: seq<string>, rest: string)
    requires |keys| > 1
    requires forall k :: k in keys ==> k in members
    ensures EncodeMembers(members, keys) + "}" + rest
         == Quote(keys[0]) + (":" + (Encode(members[keys[0]]) + ("," + (EncodeMembers(members, keys[1..]) + "}" + rest))))
  {
    EncodeMembersUnfold(members, keys);
    Regroup(Quote(keys[0]), Encode(members[keys[0]]), EncodeMembers(members, keys[1..]), rest);
  }

  lemma EncodeMembersUnfold(members: map<string, Value>, keys: seq<string>)
    requires |keys| > 1
    requires forall k :: k in keys ==> k in members
    ensures EncodeMembers(members, keys)
         == Quote(keys[0]) + ":" + Encode(members[keys[0]]) + "," + EncodeMembers(members, keys[1..])
  {
  }

  lemma Regroup(first: string, value: string, more: string, rest: string)
    ensures (first + ":" + value + "," + more) + "}" + rest == first + (":" + (value + ("," + (more + "}" + rest))))
  {
  }

  lemma MemberThenMore(key: string, valueText: string, v: Value, after: string, depth: nat, acc: map<string, Value>)
    requires 1 <= depth <= MaxDepth
    requires ParseValue(valueText, depth) == Success((v, "," + after))
    requires after != [] && after[0] == '"'
    ensures ParseMembers(Quote(key) + (":" + valueText), depth, acc) == ParseMembers(after, depth, acc[key := v])
  {
    ParseMemberStep(key, valueText, v, "," + after, depth);
    assert SkipWhitespace(after) == after;
    ParseMembersNext(Quote(key) + (":" + valueText), depth, acc, key, v, after);
  }

  /** `json.Unmarshal` inverts `json.Marshal` on every value within the nesting limit. */
  lemma DecodeEncode(v: Value)
    requires DepthAtMost(v, MaxDepth)
    ensures Decode(Encode(v)) == Success(v)
  {
    ValueRoundTrip(v, [], 0);
    assert Encode(v) + [] == Encode(v);
  }

  /** Two values within the nesting limit with the same encoding are equal. */
  lemma EncodeInjective(a: Value, b: Value)
    requires DepthAtMost(a, MaxDepth) && DepthAtMost(b, MaxDepth)
    requires Encode(a) == Encode(b)
    ensures a == b
  {
    DecodeEncode(a);
    DecodeEncode(b);
  }
}

=== FILE: landing_zone.dfy ===
/**
 * The Control Tower landing-zone resource's manifest handling: the manifest is a
 * JSON document that is normalised before it is stored or compared, so that
 * whitespace, key order and the `retentionDays` string/number flip-flop do not
 * show up as diffs.
 */
module LandingZone {
  import opened Wrappers
  import opened GoStrings
  import opened Dynamic
  import opened JsonDecode
  import opened JsonEncode
  import opened JsonRoundTrip

  /** The only member name whose string value is rewritten into a number. */
  const RetentionDaysKey: string := "retentionDays"

  /**
   * The replacement for one object member: `Some(n)` when the member is named
   * `retentionDays` and holds a string that `strconv.Atoi` accepts as `n`.
   */
  function NormRetentionDays(key: string, value: Value): (r: Option<Value>)
    ensures r.Some? ==> r.value.Number? && key == RetentionDaysKey
    ensures r.Some? ==> value.String? && Atoi(value.s) == Some(r.value.n)
    ensures (key == RetentionDaysKey && value.String? && Atoi(value.s).Some?) ==> r.Some?
  {
    if key != RetentionDaysKey then None
    else if !value.String? then None
    else
      match Atoi(value.s)
      case None => None
      case Some(n) => Some(Number(n))
  }

  /**
   * The walk over a decoded manifest: object members are first rewritten by
   * `NormRetentionDays`, then every member and array element is walked in turn.
   */
  function Walk(v: Value): (r: Value)
    ensures r.Array? <==> v.Array?
    ensures r.Object? <==> v.Object?
    ensures v.Array? ==> |r.items| == |v.items|
    ensures v.Object? ==> r.members.Keys == v.members.Keys
    ensures !v.Array? && !v.Object? ==> r == v
    decreases v, 0
  {
    match v
    case Array(items) => Array(seq(|items|, i requires 0 <= i < |items| => Walk(items[i])))
    case Object(members) => Object(map k | k in members :: WalkMember(k, members[k]))
    case _ => v
  }

  /** One member after the walk: its replacement if it has one, else the walked value. */
  function WalkMember(key: string, value: Value): (r: Value)
    ensures r.String? ==> value.String?
    decreases value, 1
  {
    match NormRetentionDays(key, value)
    case Some(n) => n
    case None => Walk(value)
  }

  /** No `retentionDays` member anywhere in `v` still holds a string that parses as an integer. */
  predicate Normalized(v: Value)
    decreases v
  {
    match v
    case Array(items) => forall i :: 0 <= i < |items| ==> Normalized(items[i])
    case Object(members) => forall k :: k in members ==> NormRetentionDays(k, members[k]).None? && Normalized(members[k])
    case _ => true
  }

  /** A parsable `retentionDays` string becomes that integer. */
  lemma WalkRewritesRetentionDays(members: map<string, Value>, n: int)
    requires RetentionDaysKey in members
    requires members[RetentionDaysKey].String? && Atoi(members[RetentionDaysKey].s) == Some(n)
    ensures Walk(Object(members)).members[RetentionDaysKey] == Number(n)
  {
  }

  /**
   * Every other member, a non-string `retentionDays` and an unparsable one are only
   * walked; a string among them comes out as it went in.
   */
  lemma WalkKeepsOtherMembers(members: map<string, Value>, k: string)
    requires k in members
    requires k != RetentionDaysKey || !members[k].String? || Atoi(members[k].s).None?
    ensures Walk(Object(members)).members[k] == Walk(members[k])
    ensures members[k].String? ==> Walk(Object(members)).members[k] == members[k]
  {
  }

  /** Array elements are walked but never rewritten themselves: a string element stays a string. */
  lemma WalkArrayElement(items: seq<Value>, i: nat)
    requires i < |items|
    ensures Walk(Array(items)).items[i] == Walk(items[i])
    ensures items[i].String? ==> Walk(Array(items)).items[i] == items[i]
  {
  }

  /** The walk keeps every value within the nesting limit it started in. */
  lemma {:induction false} WalkDepth(v: Value, d: nat)
    requires DepthAtMost(v, d)
    ensures DepthAtMost(Walk(v), d)
    decreases v, 0
  {
    match v
    case Array(items) =>
      var r := Walk(v);
      forall i | 0 <= i < |r.items|
        ensures DepthAtMost(r.items[i], d - 1)
      {
        WalkDepth(items[i], d - 1);
      }
    case Object(members) =>
      var r := Walk(v);
      forall k | k in r.members
        ensures DepthAtMost(r.members[k], d - 1)
      {
        WalkMemberDepth(k, members[k], d - 1);
      }
    case _ =>
  }

  lemma {:induction false} WalkMemberDepth(key: string, value: Value, d: nat)
    requires DepthAtMost(value, d)
    ensures DepthAtMost(WalkMember(key, value), d)
    decreases value, 1
  {
    if NormRetentionDays(key, value).None? {
      WalkDepth(value, d);
    }
  }

  /** The walk leaves nothing for a second walk to rewrite. */
  lemma {:induction false} WalkNormalizes(v: Value)
    ensures Normalized(Walk(v))
    decreases v, 0
  {
    match v
    case Array(items) =>
      var r := Walk(v);
      forall i | 0 <= i < |r.items|
        ensures Normalized(r.items[i])
      {
        WalkNormalizes(items[i]);
      }
    case Object(members) =>
      var r := Walk(v);
      forall k | k in r.members
        ensures NormRetentionDays(k, r.members[k]).None? && Normalized(r.members[k])
      {
        WalkMemberNormalizes(k, members[k]);
      }
    case _ =>
  }

  lemma {:induction false} WalkMemberNormalizes(key: string, value: Value)
    ensures NormRetentionDays(key, WalkMember(key, value)).None?
    ensures Normalized(WalkMember(key, value))
    decreases value, 1
  {
    if NormRetentionDays(key, value).None? {
      WalkNormalizes(value);
      if value.String? {
        assert Walk(value) == value;
      }
    }
  }

  /**
   * The logging-bucket part of a landing-zone manifest: the nested `retentionDays`
   * string becomes a number while the sibling string member is left alone.
   */
  lemma WalkLoggingBucketExample()
    ensures Walk(Object(map["loggingBucket" := Object(map[RetentionDaysKey := String("365")]), "kmsKeyArn" := String("arn")]))
         == Object(map["loggingBucket" := Object(map[RetentionDaysKey := Number(365)]), "kmsKeyArn" := String("arn")])
  {
    var inner := map[RetentionDaysKey := String("365")];
    assert "365"[..2] == "36" && "36"[..1] == "3" && "3"[..0] == [];
    assert DigitsValue("365") == 365;
    assert Atoi("365") == Some(365);
    WalkRewritesRetentionDays(inner, 365);
    assert Walk(Object(inner)).members == map[RetentionDaysKey := Number(365)];
    var outer := map["loggingBucket" := Object(inner), "kmsKeyArn" := String("arn")];
    assert WalkMember("loggingBucket", Object(inner)) == Walk(Object(inner));
    assert Walk(Object(outer)).members == map["loggingBucket" := Object(map[RetentionDaysKey := Number(365)]), "kmsKeyArn" := String("arn")];
  }

  /** On a normalised value the walk changes nothing. */
  lemma {:induction false} WalkFixesNormalized(v: Value)
    requires Normalized(v)
    ensures Walk(v) == v
    decreases v
  {
    match v
    case Array(items) =>
      var r := Walk(v);
      forall i | 0 <= i < |items|
        ensures r.items[i] == items[i]
      {
        WalkFixesNormalized(items[i]);
      }
      assert r.items == items;
    case Object(members) =>
      var r := Walk(v);
      forall k | k in members
        ensures r.members[k] == members[k]
      {
        assert r.members[k] == WalkMember(k, members[k]);
        WalkFixesNormalized(members[k]);
      }
      assert r.members == members;
    case _ =>
  }

  /** Walking twice is walking once. */
  lemma WalkIdempotent(v: Value)
    ensures Walk(Walk(v)) == Walk(v)
  {
    WalkNormalizes(v);
    WalkFixesNormalized(Walk(v));
  }

  /**
   * `resourceLandingZoneNormalizeManifest`: decode, walk, and re-encode compactly
   * with sorted keys. A decoding error is returned as is; `json.Marshal` cannot
   * fail on a decoded value.
   */
  function NormalizeManifest(manifest: string): (r: Result<string, DecodeError>)
    ensures r.Success? <==> Decode(manifest).Success?
    ensures r.Failure? ==> r.error == Decode(manifest).error
  {
    var v :- Decode(manifest);
    Success(Encode(Walk(v)))
  }

  /** The normalised text decodes to the walked manifest. */
  lemma NormalizeManifestDecodes(manifest: string)
    requires Decode(manifest).Success?
    ensures Decode(NormalizeManifest(manifest).value) == Success(Walk(Decode(manifest).value))
  {
    var v := Decode(manifest).value;
    WalkDepth(v, MaxDepth);
    DecodeEncode(Walk(v));
  }

  /** Normalising a normalised manifest gives it back unchanged. */
  lemma NormalizeManifestIdempotent(manifest: string)
    requires NormalizeManifest(manifest).Success?
    ensures NormalizeManifest(NormalizeManifest(manifest).value) == NormalizeManifest(manifest)
  {
    var v := Decode(manifest).value;
    NormalizeManifestDecodes(manifest);
    WalkIdempotent(v);
  }

  /** Two manifests normalise to the same text exactly when their walked trees are equal. */
  lemma NormalizeManifestEqual(a: string, b: string)
    requires Decode(a).Success? && Decode(b).Success?
    ensures NormalizeManifest(a) == NormalizeManifest(b) <==> Walk(Decode(a).value) == Walk(Decode(b).value)
  {
    var wa := Walk(Decode(a).value);
    var wb := Walk(Decode(b).value);
    WalkDepth(Decode(a).value, MaxDepth);
    WalkDepth(Decode(b).value, MaxDepth);
    if Encode(wa) == Encode(wb) {
      EncodeInjective(wa, wb);
    }
  }

  /**
   * `resourceLandingZoneManfiestSuppressEquivalentJSONDiffs`: the old and new
   * manifests are the same once normalised; a manifest that does not decode never
   * suppresses a diff.
   */
  function SuppressEquivalentJsonDiffs(oldManifest: string, newManifest: string): (r: bool)
    ensures r ==> NormalizeManifest(oldManifest).Success? && NormalizeManifest(newManifest).Success?
  {
    match NormalizeManifest(oldManifest)
    case Failure(_) => false
    case Success(oldNorm) =>
      match NormalizeManifest(newManifest)
      case Failure(_) => false
      case Success(newNorm) => oldNorm == newNorm
  }

  /** Suppression holds exactly when both sides decode and walk to the same tree. */
  lemma SuppressIff(oldManifest: string, newManifest: string)
    ensures SuppressEquivalentJsonDiffs(oldManifest, newManifest)
        <==> Decode(oldManifest).Success? && Decode(newManifest).Success? && Walk(Decode(oldManifest).value) == Walk(Decode(newManifest).value)
  {
    if Decode(oldManifest).Success? && Decode(newManifest).Success? {
      NormalizeManifestEqual(oldManifest, newManifest);
    }
  }

  /** Every decodable manifest is equivalent to itself; an undecodable one is equivalent to nothing. */
  lemma SuppressReflexive(manifest: string)
    ensures SuppressEquivalentJsonDiffs(manifest, manifest) <==> Decode(manifest).Success?
  {
  }

  lemma SuppressSymmetric(oldManifest: string, newManifest: string)
    ensures SuppressEquivalentJsonDiffs(oldManifest, newManifest) == SuppressEquivalentJsonDiffs(newManifest, oldManifest)
  {
  }

  lemma SuppressTransitive(a: string, b: string, c: string)
    requires SuppressEquivalentJsonDiffs(a, b) && SuppressEquivalentJsonDiffs(b, c)
    ensures SuppressEquivalentJsonDiffs(a, c)
  {
  }

  /**
   * `resourceLandingZoneManfiestStateFunc`: what Terraform stores for the manifest.
   * A non-string gives `""`, a string that does not decode is stored as is, and
   * anything else is stored normalised.
   */
  function ManifestStateFunc(value: Value): (r: string)
    ensures !value.String? ==> r == ""
    ensures value.String? && Decode(value.s).Failure? ==> r == value.s
    ensures value.String? && Decode(value.s).Success? ==> r == NormalizeManifest(value.s).value
  {
    if !value.String? then ""
    else
      match NormalizeManifest(value.s)
      case Failure(_) => value.s
      case Success(ns) => ns
  }

  /** Storing a stored manifest again stores the same text. */
  lemma ManifestStateFuncIdempotent(s: string)
    ensures ManifestStateFunc(String(ManifestStateFunc(String(s)))) == ManifestStateFunc(String(s))
  {
    if NormalizeManifest(s).Success? {
      NormalizeManifestIdempotent(s);
    }
  }

  /** The stored text of a decodable manifest suppresses the diff against the configured one. */
  lemma ManifestStateFuncEquivalent(s: string)
    requires Decode(s).Success?
    ensures SuppressEquivalentJsonDiffs(s, ManifestStateFunc(String(s)))
  {
    NormalizeManifestIdempotent(s);
  }

  /**
   * `landingZoneIDFromARN`, with `arn.Parse` taken as its outcome: the resource part
   * of the ARN, or the parse error. One leading `landingzone/` is removed.
   */
  function LandingZoneIdFromArn<E>(parsedResource: Result<string, E>): (r: Result<string, E>)
    ensures parsedResource.Failure? ==> r == parsedResource
    ensures parsedResource.Success? ==> r.Success?
  {
    var resource :- parsedResource;
    Success(TrimPrefix(resource, LandingZonePrefix))
  }

  const LandingZonePrefix: string := "landingzone/"

  /** The identifier after `landingzone/` comes back exactly. */
  lemma LandingZoneIdRoundTrip<E>(id: string)
    ensures LandingZoneIdFromArn<E>(Success(LandingZonePrefix + id)) == Success(id)
  {
    var s := LandingZonePrefix + id;
    assert HasPrefix(s, LandingZonePrefix);
    assert s[|LandingZonePrefix|..] == id;
  }

  /** A resource part without the prefix is returned unchanged. */
  lemma LandingZoneIdWithoutPrefix<E>(resource: string)
    requires !HasPrefix(resource, LandingZonePrefix)
    ensures LandingZoneIdFromArn<E>(Success(resource)) == Success(resource)
  {
  }

  /** The outcome of looking up a landing-zone operation. */
  datatype OperationLookup = Found(status: string) | NotFound | LookupError(message: string)

  /** What one refresh of the waiter reports: the operation if found, its status, and any error. */
  datatype Refresh = Refresh(found: bool, status: string, error: Option<string>)

  /**
   * `statusLandingZoneOperation`'s refresh step: a missing operation reports no
   * object and an empty status without error, a lookup error is passed on, and a
   * found operation reports its status.
   */
  function StatusLandingZoneOperation(lookup: OperationLookup): (r: Refresh)
    ensures r.found <==> lookup.Found?
    ensures r.error.Some? <==> lookup.LookupError?
    ensures lookup.LookupError? ==> r.error == Some(lookup.message)
    ensures r.status != "" ==> lookup.Found? && r.status == lookup.status
    ensures lookup.Found? ==> r.status == lookup.status && r.error.None?
  {
    match lookup
    case NotFound => Refresh(false, "", None)
    case LookupError(message) => Refresh(false, "", Some(message))
    case Found(status) => Refresh(true, status, None)
  }

  /**
   * How the waiter reads a refresh: an error first, then a missing object, then
   * the reported status.
   */
  function LookupOf(r: Refresh): (lookup: OperationLookup)
    ensures lookup.LookupError? <==> r.error.Some?
    ensures lookup.Found? <==> r.error.None? && r.found
  {
    if r.error.Some? then LookupError(r.error.value)
    else if r.found then Found(r.status)
    else NotFound
  }

  /**
   * The refresh step loses nothing the waiter needs: reading it back gives the
   * lookup outcome it came from, so not-found, failure and each status stay apart.
   */
  lemma StatusLandingZoneOperationReadBack(lookup: OperationLookup)
    ensures LookupOf(StatusLandingZoneOperation(lookup)) == lookup
  {
  }
}

=== FILE: landing_zone_example.dfy ===
/**
 * The normalisation test of the landing-zone resource: the manifest it feeds in
 * and the exact compact text it expects back. The manifest is given as the tree
 * `json.Unmarshal` builds from the test's input, with the two `retentionDays`
 * strings as parameters so that the same shape serves before and after the walk.
 */
module LandingZoneExample {
  import opened Wrappers
  import opened GoStrings
  import opened Dynamic
  import opened JsonDecode
  import opened JsonEncode
  import opened LandingZone
  import opened LandingZoneExampleText

  /** The `configurations` object of the manifest. */
  function Configurations(accessDays: Value, loggingDays: Value): Value {
    Object(map[
      "accessLoggingBucket" := Object(map[RetentionDaysKey := accessDays]),
      "kmsKeyArn" := String(KmsKeyArn),
      "loggingBucket" := Object(map[RetentionDaysKey := loggingDays])])
  }

  /** The `centralizedLogging` object of the manifest. */
  function CentralizedLogging(accessDays: Value, loggingDays: Value): Value {
    Object(map[
      "accountId" := String("89XXXXXXXX39"),
      "configurations" := Configurations(accessDays, loggingDays),
      "enabled" := Bool(true)])
  }

  const AccessManagement: Value := Object(map["enabled" := Bool(true)])
  const GovernedRegions: Value := Array([String("REGION")])
  const OrganizationStructure: Value := Object(map["security" := Object(map["name" := String("Security")])])
  const SecurityRoles: Value := Object(map["accountId" := String("89XXXXXXXX42")])

  /** The whole manifest. */
  function Manifest(accessDays: Value, loggingDays: Value): Value {
    Object(map[
      "accessManagement" := AccessManagement,
      "centralizedLogging" := CentralizedLogging(accessDays, loggingDays),
      "governedRegions" := GovernedRegions,
      "organizationStructure" := OrganizationStructure,
      "securityRoles" := SecurityRoles])
  }

  /**
   * Normalising the test's manifest gives exactly the text the test expects: both
   * `retentionDays` strings become numbers and the members come out sorted.
   */
  lemma NormalizeManifestTestCase(manifest: string)
    requires Decode(manifest) == Success(Manifest(String("3650"), String("365")))
    ensures NormalizeManifest(manifest) == Success(Expected)
  {
    WalkManifest();
    EncodeManifest();
  }

  // ---------------------------------------------------------------------------
  // The walk
  // ---------------------------------------------------------------------------

  lemma AtoiRetentionDays()
    ensures Atoi("3650") == Some(3650) && Atoi("365") == Some(365)
  {
    assert DigitsValue("365") == 365 by {
      assert "365"[..2] == "36" && "36"[..1] == "3" && "3"[..0] == [];
    }
    assert DigitsValue("3650") == 3650 by {
      assert "3650"[..3] == "365";
    }
  }

  /** An object whose members each walk to the matching member of `expected`. */
  lemma WalkObject(members: map<string, Value>, expected: map<string, Value>)
    requires members.Keys == expected.Keys
    requires forall k :: k in members ==> WalkMember(k, members[k]) == expected[k]
    ensures Walk(Object(members)) == Object(expected)
  {
    assert Walk(Object(members)).members == expected;
  }

  /** A member that is not `retentionDays` and holds a scalar passes through. */
  lemma WalkScalarMember(k: string, v: Value)
    requires k != RetentionDaysKey && !v.Array? && !v.Object?
    ensures WalkMember(k, v) == v
  {
  }

  lemma WalkRetention(text: string, n: int)
    requires Atoi(text) == Some(n)
    ensures Walk(Object(map[RetentionDaysKey := String(text)])) == Object(map[RetentionDaysKey := Number(n)])
  {
    WalkObject(map[RetentionDaysKey := String(text)], map[RetentionDaysKey := Number(n)]);
  }

  lemma WalkFixed(v: Value)
    requires Normalized(v)
    ensures WalkMember("governedRegions", v) == v
    ensures WalkMember("organizationStructure", v) == v
    ensures WalkMember("securityRoles", v) == v
    ensures WalkMember("accessManagement", v) == v
  {
    WalkFixesNormalized(v);
  }

  lemma WalkConfigurations()
    ensures Walk(Configurations(String("3650"), String("365"))) == Configurations(Number(3650), Number(365))
  {
    AtoiRetentionDays();
    WalkRetention("3650", 3650);
    WalkRetention("365", 365);
    var before := Configurations(String("3650"), String("365")).members;
    var after := Configurations(Number(3650), Number(365)).members;
    WalkScalarMember("kmsKeyArn", String(KmsKeyArn));
    WalkObject(before, after);
  }

  lemma WalkCentralizedLogging()
    ensures Walk(CentralizedLogging(String("3650"), String("365"))) == CentralizedLogging(Number(3650), Number(365))
  {
    WalkConfigurations();
    var before := CentralizedLogging(String("3650"), String("365")).members;
    var after := CentralizedLogging(Number(3650), Number(365)).members;
    WalkScalarMember("accountId", String("89XXXXXXXX39"));
    WalkScalarMember("enabled", Bool(true));
    WalkObject(before, after);
  }

  lemma FixedMembersNormalized()
    ensures Normalized(GovernedRegions) && Normalized(OrganizationStructure)
    ensures Normalized(SecurityRoles) && Normalized(AccessManagement)
  {
    assert Normalized(Object(map["name" := String("Security")]));
  }

  /** Five members that each walk to the matching value. */
  lemma WalkObject5(k1: string, v1: Value, w1: Value, k2: string, v2: Value, w2: Value,
                    k3: string, v3: Value, w3: Value, k4: string, v4: Value, w4: Value,
                    k5: string, v5: Value, w5: Value)
    requires WalkMember(k1, v1) == w1 && WalkMember(k2, v2) == w2 && WalkMember(k3, v3) == w3
    requires WalkMember(k4, v4) == w4 && WalkMember(k5, v5) == w5
    requires |{k1, k2, k3, k4, k5}| == 5
    ensures Walk(Object(map[k1 := v1, k2 := v2, k3 := v3, k4 := v4, k5 := v5]))
         == Object(map[k1 := w1, k2 := w2, k3 := w3, k4 := w4, k5 := w5])
  {
    WalkObject(map[k1 := v1, k2 := v2, k3 := v3, k4 := v4, k5 := v5],
               map[k1 := w1, k2 := w2, k3 := w3, k4 := w4, k5 := w5]);
  }

  lemma WalkManifest()
    ensures Walk(Manifest(String("3650"), String("365"))) == Manifest(Number(3650), Number(365))
  {
    WalkCentralizedLogging();
    FixedMembersNormalized();
    WalkFixed(GovernedRegions);
    WalkFixed(OrganizationStructure);
    WalkFixed(SecurityRoles);
    WalkFixed(AccessManagement);
    WalkObject5("accessManagement", AccessManagement, AccessManagement,
                "centralizedLogging", CentralizedLogging(String("3650"), String("365")), CentralizedLogging(Number(3650), Number(365)),
                "governedRegions", GovernedRegions, GovernedRegions,
                "organizationStructure", OrganizationStructure, OrganizationStructure,
                "securityRoles", SecurityRoles, SecurityRoles);
  }

  // ---------------------------------------------------------------------------
  // The encoding
  // ---------------------------------------------------------------------------

  /** Text that `encoding/json` writes as it stands: nothing in it is escaped. */
  predicate PlainText(s: string) {
    forall i :: 0 <= i < |s| ==> PlainChar(s[i])
  }

  lemma PlainConcat(a: string, b: string)
    requires PlainText(a) && PlainText(b)
    ensures PlainText(a + b)
  {
    forall i | 0 <= i < |a + b|
      ensures PlainChar((a + b)[i])
    {
      if i >= |a| {
        assert (a + b)[i] == b[i - |a|];
      }
    }
  }

  lemma PlainArnPieces()
    ensures PlainText("arn:PARTITION:") && PlainText("kms:REGION:") && PlainText("89XXXXXXXX25:")
    ensures PlainText("key/10e27ec4-") && PlainText("5555-4444-")
    ensures PlainText("b408-") && PlainText("777777777777")
  {
  }

  lemma PlainArn()
    ensures PlainText(KmsKeyArn)
  {
    var p1, p2, p3, p4 := "arn:PARTITION:", "kms:REGION:", "89XXXXXXXX25:", "key/10e27ec4-";
    var p5, p6, p7 := "5555-4444-", "b408-", "777777777777";
    PlainArnPieces();
    PlainConcat(p1, p2);
    PlainConcat(p1 + p2, p3);
    PlainConcat(p1 + p2 + p3, p4);
    PlainConcat(p1 + p2 + p3 + p4, p5);
    PlainConcat(p1 + p2 + p3 + p4 + p5, p6);
    PlainConcat(p1 + p2 + p3 + p4 + p5 + p6, p7);
  }

  lemma QuotedPlain(s: string)
    requires PlainText(s)
    ensures Quote(s) == Quoted(s)
  {
    QuotePlain(s);
  }

  /** The members named by `ks`, in that order, separated by commas. */
  function Members(m: map<string, Value>, ks: seq<string>): string
    requires forall k :: k in ks ==> k in m
    decreases |ks|
  {
    if ks == [] then ""
    else if |ks| == 1 then Member(ks[0], Encode(m[ks[0]]))
    else Member(ks[0], Encode(m[ks[0]])) + "," + Members(m, ks[1..])
  }

  lemma {:induction false} EncodeMembersPlain(m: map<string, Value>, ks: seq<string>)
    requires forall k :: k in ks ==> k in m && PlainText(k)
    ensures EncodeMembers(m, ks) == Members(m, ks)
    decreases |ks|
  {
    if ks != [] {
      assert ks[0] in ks;
      QuotePlain(ks[0]);
      EncodeMembersPlain(m, ks[1..]);
    }
  }

  lemma {:induction false} SortedChain(ks: seq<string>)
    requires forall i :: 0 <= i < |ks| - 1 ==> Less(ks[i], ks[i + 1])
    ensures forall i, j :: 0 <= i < j < |ks| ==> Less(ks[i], ks[j])
    decreases |ks|
  {
    if |ks| > 1 {
      SortedChain(ks[1..]);
      forall j | 1 < j < |ks|
        ensures Less(ks[0], ks[j])
      {
        assert Less(ks[1], ks[j]) by {
          assert ks[1] == ks[1..][0] && ks[j] == ks[1..][j - 1];
        }
        LessTransitive(ks[0], ks[1], ks[j]);
      }
    }
  }

  /** An object whose keys, in increasing order, are `ks` and need no escaping. */
  lemma EncodeObjectSorted(m: map<string, Value>, ks: seq<string>)
    requires forall k :: k in m <==> k in ks
    requires forall k :: k in ks ==> PlainText(k)
    requires forall i :: 0 <= i < |ks| - 1 ==> Less(ks[i], ks[i + 1])
    ensures Encode(Object(m)) == "{" + Members(m, ks) + "}"
  {
    SortedChain(ks);
    SortedKeysOfSorted(m.Keys, ks);
    EncodeMembersPlain(m, ks);
  }

  lemma EncodeSingle(k: string, v: Value)
    requires PlainText(k)
    ensures Encode(Object(map[k := v])) == "{" + Member(k, Encode(v)) + "}"
  {
    EncodeObjectSorted(map[k := v], [k]);
  }

  /** Keys in strictly increasing order are pairwise distinct. */
  lemma Distinct(a: string, b: string)
    requires Less(a, b)
    ensures a != b
  {
    LessIrreflexive(a);
  }

  lemma MembersUnfold(m: map<string, Value>, ks: seq<string>)
    requires |ks| > 1 && forall k :: k in ks ==> k in m
    ensures Members(m, ks) == Member(ks[0], Encode(m[ks[0]])) + "," + Members(m, ks[1..])
  {
  }

  lemma EncodeObject3(k1: string, v1: Value, k2: string, v2: Value, k3: string, v3: Value)
    requires PlainText(k1) && PlainText(k2) && PlainText(k3)
    requires Less(k1, k2) && Less(k2, k3)
    ensures Encode(Object(map[k1 := v1, k2 := v2, k3 := v3]))
         == "{" + (Member(k1, Encode(v1)) + "," + (Member(k2, Encode(v2)) + "," + Member(k3, Encode(v3)))) + "}"
  {
    LessTransitive(k1, k2, k3);
    Distinct(k1, k2);
    Distinct(k1, k3);
    Distinct(k2, k3);
    var m := map[k1 := v1, k2 := v2, k3 := v3];
    assert m[k1] == v1 && m[k2] == v2 && m[k3] == v3;
    EncodeObjectSorted(m, [k1, k2, k3]);
    MembersUnfold(m, [k1, k2, k3]);
    assert [k1, k2, k3][1..] == [k2, k3];
    MembersUnfold(m, [k2, k3]);
    assert [k2, k3][1..] == [k3];
  }

  lemma EncodeObject5(k1: string, v1: Value, k2: string, v2: Value, k3: string, v3: Value,
                      k4: string, v4: Value, k5: string, v5: Value)
    requires PlainText(k1) && PlainText(k2) && PlainText(k3) && PlainText(k4) && PlainText(k5)
    requires Less(k1, k2) && Less(k2, k3) && Less(k3, k4) && Less(k4, k5)
    ensures Encode(Object(map[k1 := v1, k2 := v2, k3 := v3, k4 := v4, k5 := v5]))
         == "{" + (Member(k1, Encode(v1)) + "," + (Member(k2, Encode(v2)) + ","
              + (Member(k3, Encode(v3)) + "," + (Member(k4, Encode(v4)) + "," + Member(k5, Encode(v5)))))) + "}"
  {
    LessTransitive(k1, k2, k3);
    LessTransitive(k1, k3, k4);
    LessTransitive(k1, k4, k5);
    LessTransitive(k2, k3, k4);
    LessTransitive(k2, k4, k5);
    LessTransitive(k3, k4, k5);
    Distinct(k1, k2); Distinct(k1, k3); Distinct(k1, k4); Distinct(k1, k5);
    Distinct(k2, k3); Distinct(k2, k4); Distinct(k2, k5);
    Distinct(k3, k4); Distinct(k3, k5);
    Distinct(k4, k5);
    var m := map[k1 := v1, k2 := v2, k3 := v3, k4 := v4, k5 := v5];
    assert m[k1] == v1 && m[k2] == v2 && m[k3] == v3 && m[k4] == v4 && m[k5] == v5;
    EncodeObjectSorted(m, [k1, k2, k3, k4, k5]);
    Members5(m, k1, k2, k3, k4, k5);
  }

  lemma Members5(m: map<string, Value>, k1: string, k2: string, k3: string, k4: string, k5: string)
    requires k1 in m && k2 in m && k3 in m && k4 in m && k5 in m
    ensures Members(m, [k1, k2, k3, k4, k5])
         == Member(k1, Encode(m[k1])) + "," + (Member(k2, Encode(m[k2])) + ","
              + (Member(k3, Encode(m[k3])) + "," + (Member(k4, Encode(m[k4])) + "," + Member(k5, Encode(m[k5])))))
  {
    MembersUnfold(m, [k1, k2, k3, k4, k5]);
    assert [k1, k2, k3, k4, k5][1..] == [k2, k3, k4, k5];
    MembersUnfold(m, [k2, k3, k4, k5]);
    assert [k2, k3, k4, k5][1..] == [k3, k4, k5];
    MembersUnfold(m, [k3, k4, k5]);
    assert [k3, k4, k5][1..] == [k4, k5];
    MembersUnfold(m, [k4, k5]);
    assert [k4, k5][1..] == [k5];
  }

  lemma EncodeAccessManagement()
    ensures Encode(AccessManagement) == AccessManagementText
  {
    assert PlainText("enabled");
    EncodeSingle("enabled", Bool(true));
    AccessManagementMembers();
  }

  lemma EncodeGovernedRegions()
    ensures Encode(GovernedRegions) == GovernedRegionsText
  {
    assert PlainText("REGION");
    QuotedPlain("REGION");
    GovernedRegionsItems();
  }

  lemma EncodeSecurityRoles()
    ensures Encode(SecurityRoles) == SecurityRolesText
  {
    assert PlainText("accountId") && PlainText("89XXXXXXXX42");
    QuotedPlain("89XXXXXXXX42");
    EncodeSingle("accountId", String("89XXXXXXXX42"));
    SecurityRolesMembers();
  }

  lemma EncodeOrganizationStructure()
    ensures Encode(OrganizationStructure) == OrganizationStructureText
  {
    assert PlainText("security") && PlainText("name") && PlainText("Security");
    QuotedPlain("Security");
    EncodeSingle("name", String("Security"));
    EncodeSingle("security", Object(map["name" := String("Security")]));
    OrganizationStructureMembers();
  }

  lemma EncodeRetention(n: nat, text: string)
    requires Itoa(n) == text
    ensures Encode(Object(map[RetentionDaysKey := Number(n)])) == "{" + Member("retentionDays", text) + "}"
  {
    assert PlainText(RetentionDaysKey);
    EncodeSingle(RetentionDaysKey, Number(n));
  }

  lemma ItoaRetentionDays()
    ensures Itoa(3650) == "3650" && Itoa(365) == "365"
  {
    assert NatToDigits(36) == "36" by {
      assert NatToDigits(3) == "3";
    }
    assert NatToDigits(365) == "365";
    assert NatToDigits(3650) == "3650";
  }

  lemma EncodeConfigurations()
    ensures Encode(Configurations(Number(3650), Number(365))) == ConfigurationsText
  {
    assert PlainText("accessLoggingBucket") && PlainText("kmsKeyArn") && PlainText("loggingBucket");
    assert Less("accessLoggingBucket", "kmsKeyArn") && Less("kmsKeyArn", "loggingBucket");
    EncodeObject3("accessLoggingBucket", Object(map[RetentionDaysKey := Number(3650)]),
                  "kmsKeyArn", String(KmsKeyArn),
                  "loggingBucket", Object(map[RetentionDaysKey := Number(365)]));
    ItoaRetentionDays();
    EncodeRetention(3650, "3650");
    EncodeRetention(365, "365");
    RetentionMembers();
    PlainArn();
    QuotedPlain(KmsKeyArn);
    ConfigurationsMembers(Retention3650Text, Quoted(KmsKeyArn), Retention365Text);
  }

  lemma EncodeCentralizedLogging()
    ensures Encode(CentralizedLogging(Number(3650), Number(365))) == CentralizedLoggingText
  {
    assert PlainText("accountId") && PlainText("configurations") && PlainText("enabled") && PlainText("89XXXXXXXX39");
    assert Less("accountId", "configurations") && Less("configurations", "enabled");
    EncodeObject3("accountId", String("89XXXXXXXX39"), "configurations", Configurations(Number(3650), Number(365)),
                  "enabled", Bool(true));
    QuotedPlain("89XXXXXXXX39");
    EncodeConfigurations();
    CentralizedLoggingMembers(Quoted("89XXXXXXXX39"), ConfigurationsText, "true");
  }

  lemma ManifestKeys()
    ensures PlainText("accessManagement") && PlainText("centralizedLogging") && PlainText("governedRegions")
    ensures PlainText("organizationStructure") && PlainText("securityRoles")
  {
    LeadingManifestKeys();
  }

  lemma LeadingManifestKeys()
    ensures PlainText("accessManagement") && PlainText("centralizedLogging") && PlainText("governedRegions")
  {
  }

  lemma ManifestKeyOrder()
    ensures Less("accessManagement", "centralizedLogging") && Less("centralizedLogging", "governedRegions")
    ensures Less("governedRegions", "organizationStructure") && Less("organizationStructure", "securityRoles")
  {
  }

  lemma EncodeManifest()
    ensures Encode(Manifest(Number(3650), Number(365))) == Expected
  {
    ManifestKeys();
    ManifestKeyOrder();
    EncodeObject5("accessManagement", AccessManagement, "centralizedLogging", CentralizedLogging(Number(3650), Number(365)),
                  "governedRegions", GovernedRegions, "organizationStructure", OrganizationStructure,
                  "securityRoles", SecurityRoles);
    EncodeAccessManagement();
    EncodeCentralizedLogging();
    EncodeGovernedRegions();
    EncodeOrganizationStructure();
    EncodeSecurityRoles();
    ManifestMembers(AccessManagementText, CentralizedLoggingText, GovernedRegionsText,
                    OrganizationStructureText, SecurityRolesText);
  }
}

/**
 * The text the landing-zone normalisation test expects, cut at member
 * boundaries, and the plain string facts that put it together from its members.
 * Kept apart from the JSON model so that comparing literal text stays cheap.
 */
module LandingZoneExampleText {
  /** The test's key ARN, written in pieces only to keep the proofs about it small. */
  const KmsKeyArn: string :=
    "arn:PARTITION:" + "kms:REGION:" + "89XXXXXXXX25:" + "key/10e27ec4-" + "5555-4444-" + "b408-" + "777777777777"

  /** A string as `encoding/json` writes it when nothing in it needs escaping. */
  function Quoted(s: string): string {
    "\"" + s + "\""
  }

  /** A member as `encoding/json` writes it when its key needs no escaping. */
  function Member(k: string, text: string): string {
    Quoted(k) + ":" + text
  }

  /** The whole expected output: the five top-level members in key order. */
  const Expected: string :=
    "{\"accessManagement\":" + AccessManagementText
    + ",\"centralizedLogging\":" + CentralizedLoggingText
    + ",\"governedRegions\":" + GovernedRegionsText
    + ",\"organizationStructure\":" + OrganizationStructureText
    + ",\"securityRoles\":" + SecurityRolesText + "}"

  const AccessManagementText: string := "{\"enabled\":true}"
  const CentralizedLoggingText: string :=
    "{\"accountId\":" + Quoted("89XXXXXXXX39") + ",\"configurations\":" + ConfigurationsText + ",\"enabled\":" + "true" + "}"
  const ConfigurationsText: string :=
    "{\"accessLoggingBucket\":" + Retention3650Text
    + ",\"kmsKeyArn\":" + Quoted(KmsKeyArn)
    + ",\"loggingBucket\":" + Retention365Text + "}"
  const Retention3650Text: string := "{\"retentionDays\":3650}"
  const Retention365Text: string := "{\"retentionDays\":365}"
  const GovernedRegionsText: string := "[\"REGION\"]"
  const OrganizationStructureText: string := "{\"security\":{\"name\":\"Security\"}}"
  const SecurityRolesText: string := "{\"accountId\":\"89XXXXXXXX42\"}"

  lemma AccessManagementMembers()
    ensures "{" + Member("enabled", "true") + "}" == AccessManagementText
  {
  }

  lemma GovernedRegionsItems()
    ensures "[" + Quoted("REGION") + "]" == GovernedRegionsText
  {
  }

  lemma SecurityRolesMembers()
    ensures "{" + Member("accountId", Quoted("89XXXXXXXX42")) + "}" == SecurityRolesText
  {
  }

  lemma OrganizationStructureMembers()
    ensures "{" + Member("security", "{" + Member("name", Quoted("Security")) + "}") + "}" == OrganizationStructureText
  {
  }

  lemma RetentionMembers()
    ensures "{" + Member("retentionDays", "3650") + "}" == Retention3650Text
    ensures "{" + Member("retentionDays", "365") + "}" == Retention365Text
  {
  }

  /** Three members in braces, regrouped so that each key's text stands next to its separator. */
  lemma Join3(k1: string, t1: string, k2: string, t2: string, k3: string, t3: string)
    ensures "{" + (Member(k1, t1) + "," + (Member(k2, t2) + "," + Member(k3, t3))) + "}"
         == ("{" + Quoted(k1) + ":") + t1 + ("," + Quoted(k2) + ":") + t2 + ("," + Quoted(k3) + ":") + t3 + "}"
  {
  }

  lemma JoinHead(k1: string, t1: string, k2: string, t2: string, rest: string)
    ensures "{" + (Member(k1, t1) + "," + (Member(k2, t2) + "," + rest)) + "}"
         == ("{" + Quoted(k1) + ":") + t1 + ("," + Quoted(k2) + ":") + t2 + ("," + rest + "}")
  {
  }

  lemma JoinTail(k3: string, t3: string, k4: string, t4: string, k5: string, t5: string)
    ensures "," + (Member(k3, t3) + "," + (Member(k4, t4) + "," + Member(k5, t5))) + "}"
         == ("," + Quoted(k3) + ":") + t3 + ("," + Quoted(k4) + ":") + t4 + ("," + Quoted(k5) + ":") + t5 + "}"
  {
  }

  lemma Flatten(a: string, b: string, c: string, d: string, e: string, f: string, g: string,
                h: string, i: string, j: string, k: string)
    ensures a + b + c + d + (e + f + g + h + i + j + k) == a + b + c + d + e + f + g + h + i + j + k
  {
  }

  /** Five members in braces, regrouped the same way. */
  lemma Join5(k1: string, t1: string, k2: string, t2: string, k3: string, t3: string,
              k4: string, t4: string, k5: string, t5: string)
    ensures "{" + (Member(k1, t1) + "," + (Member(k2, t2) + "," + (Member(k3, t3) + "," + (Member(k4, t4) + "," + Member(k5, t5))))) + "}"
         == ("{" + Quoted(k1) + ":") + t1 + ("," + Quoted(k2) + ":") + t2 + ("," + Quoted(k3) + ":") + t3
            + ("," + Quoted(k4) + ":") + t4 + ("," + Quoted(k5) + ":") + t5 + "}"
  {
    JoinHead(k1, t1, k2, t2, Member(k3, t3) + "," + (Member(k4, t4) + "," + Member(k5, t5)));
    JoinTail(k3, t3, k4, t4, k5, t5);
    Flatten("{" + Quoted(k1) + ":", t1, "," + Quoted(k2) + ":", t2, "," + Quoted(k3) + ":", t3,
            "," + Quoted(k4) + ":", t4, "," + Quoted(k5) + ":", t5, "}");
  }

  lemma ConfigurationsMembers(t1: string, t2: string, t3: string)
    ensures "{" + (Member("accessLoggingBucket", t1) + "," + (Member("kmsKeyArn", t2) + "," + Member("loggingBucket", t3))) + "}"
         == "{\"accessLoggingBucket\":" + t1 + ",\"kmsKeyArn\":" + t2 + ",\"loggingBucket\":" + t3 + "}"
  {
    Join3("accessLoggingBucket", t1, "kmsKeyArn", t2, "loggingBucket", t3);
    AccessLoggingBucketSeparator();
    KmsKeyArnSeparator();
    LoggingBucketSeparator();
  }

  lemma AccessLoggingBucketSeparator()
    ensures "{" + Quoted("accessLoggingBucket") + ":" == "{\"accessLoggingBucket\":"
  {
  }

  lemma KmsKeyArnSeparator()
    ensures "," + Quoted("kmsKeyArn") + ":" == ",\"kmsKeyArn\":"
  {
  }

  lemma LoggingBucketSeparator()
    ensures "," + Quoted("loggingBucket") + ":" == ",\"loggingBucket\":"
  {
  }

  lemma CentralizedLoggingMembers(t1: string, t2: string, t3: string)
    ensures "{" + (Member("accountId", t1) + "," + (Member("configurations", t2) + "," + Member("enabled", t3))) + "}"
         == "{\"accountId\":" + t1 + ",\"configurations\":" + t2 + ",\"enabled\":" + t3 + "}"
  {
    Join3("accountId", t1, "configurations", t2, "enabled", t3);
    AccountIdSeparator();
    ConfigurationsSeparator();
    EnabledSeparator();
  }

  lemma AccountIdSeparator()
    ensures "{" + Quoted("accountId") + ":" == "{\"accountId\":"
  {
  }

  lemma ConfigurationsSeparator()
    ensures "," + Quoted("configurations") + ":" == ",\"configurations\":"
  {
  }

  lemma EnabledSeparator()
    ensures "," + Quoted("enabled") + ":" == ",\"enabled\":"
  {
  }

  lemma ManifestMembers(t1: string, t2: string, t3: string, t4: string, t5: string)
    ensures "{" + (Member("accessManagement", t1) + "," + (Member("centralizedLogging", t2) + ","
              + (Member("governedRegions", t3) + "," + (Member("organizationStructure", t4) + "," + Member("securityRoles", t5))))) + "}"
         == "{\"accessManagement\":" + t1 + ",\"centralizedLogging\":" + t2 + ",\"governedRegions\":" + t3
            + ",\"organizationStructure\":" + t4 + ",\"securityRoles\":" + t5 + "}"
  {
    Join5("accessManagement", t1, "centralizedLogging", t2, "governedRegions", t3,
          "organizationStructure", t4, "securityRoles", t5);
    AccessManagementSeparator();
    CentralizedLoggingSeparator();
    GovernedRegionsSeparator();
    OrganizationStructureSeparator();
    SecurityRolesSeparator();
  }

  lemma AccessManagementSeparator()
    ensures "{" + Quoted("accessManagement") + ":" == "{\"accessManagement\":"
  {
  }

  lemma CentralizedLoggingSeparator()
    ensures "," + Quoted("centralizedLogging") + ":" == ",\"centralizedLogging\":"
  {
  }

  lemma GovernedRegionsSeparator()
    ensures "," + Quoted("governedRegions") + ":" == ",\"governedRegions\":"
  {
  }

  lemma OrganizationStructureSeparator()
    ensures "," + Quoted("organizationStructure") + ":" == ",\"organizationStructure\":"
  {
  }

  lemma SecurityRolesSeparator()
    ensures "," + Quoted("securityRoles") + ":" == ",\"securityRoles\":"
  {
  }
}

=== FILE: matchmaking_configuration.dfy ===
/**
 * The GameLift matchmaking-configuration resource, reduced to its local logic:
 * the argument bounds its schema declares, the conversion of the game properties
 * between the Terraform list and the API's records, the string-list filter, and
 * how Read and Delete interpret what the API returns.
 */
module MatchmakingConfiguration {
  import opened Wrappers
  import opened GoStrings
  import opened Dynamic

  // ---------------------------------------------------------------------------
  // Schema bounds
  // ---------------------------------------------------------------------------

  /** `validation.IntBetween(lo, hi)`. */
  predicate IntBetween(lo: int, hi: int, v: int) {
    lo <= v <= hi
  }

  /** `validation.IntAtLeast(lo)`. */
  predicate IntAtLeast(lo: int, v: int) {
    lo <= v
  }

  /** `validation.StringLenBetween(lo, hi)`, which counts UTF-8 bytes. */
  predicate StringLenBetween(lo: int, hi: int, s: string) {
    lo <= Utf8Len(s) <= hi
  }

  predicate IsAsciiLetter(c: char) {
    ('a' <= c <= 'z') || ('A' <= c <= 'Z')
  }

  /** The character class `[a-zA-Z0-9-\.]` of the name patterns. */
  predicate IsNameChar(c: char) {
    IsAsciiLetter(c) || IsDigit(c) || c == '-' || c == '.'
  }

  /** The character class `[a-zA-Z0-9:/-]` of the queue ARN pattern. */
  predicate IsQueueArnChar(c: char) {
    IsAsciiLetter(c) || IsDigit(c) || c == ':' || c == '/' || c == '-'
  }

  /** The character class `[a-zA-Z0-9:_/-]` of the notification target pattern. */
  predicate IsNotificationChar(c: char) {
    IsAsciiLetter(c) || IsDigit(c) || c == ':' || c == '_' || c == '/' || c == '-'
  }

  /** `^[a-zA-Z0-9-\.]*$`: names may be empty. */
  predicate MatchesName(s: string) {
    forall i :: 0 <= i < |s| ==> IsNameChar(s[i])
  }

  /** `^[a-zA-Z0-9:/-]+$`. */
  predicate MatchesQueueArn(s: string) {
    |s| > 0 && forall i :: 0 <= i < |s| ==> IsQueueArnChar(s[i])
  }

  /** `^[a-zA-Z0-9:_/-]*$`. */
  predicate MatchesNotificationTarget(s: string) {
    forall i :: 0 <= i < |s| ==> IsNotificationChar(s[i])
  }

  /** An optional argument that, when set, satisfies `p`. */
  predicate OptionalOk<T>(v: Option<T>, p: T -> bool) {
    v.None? || p(v.value)
  }

  /** The arguments of the resource that carry a declared bound. */
  datatype Arguments = Arguments(
    acceptanceTimeoutSeconds: Option<int>,
    additionalPlayerCount: Option<int>,
    customEventData: Option<string>,
    description: Option<string>,
    gameProperties: seq<(string, string)>,
    gameSessionData: Option<string>,
    gameSessionQueueArns: seq<string>,
    name: string,
    notificationTarget: Option<string>,
    requestTimeoutSeconds: int,
    ruleSetName: string)

  const MaxGameProperties: nat := 16

  /** A game property's key is at most 32 bytes and its value at most 96. */
  predicate ValidGameProperty(p: (string, string)) {
    StringLenBetween(0, 32, p.0) && StringLenBetween(0, 96, p.1)
  }

  /** Everything the schema declares except the additional player count. */
  predicate ValidOtherArguments(a: Arguments) {
    && OptionalOk(a.acceptanceTimeoutSeconds, v => IntBetween(1, 600, v))
    && OptionalOk(a.customEventData, s => StringLenBetween(0, 256, s))
    && OptionalOk(a.description, s => StringLenBetween(1, 1024, s))
    && |a.gameProperties| <= MaxGameProperties
    && (forall i :: 0 <= i < |a.gameProperties| ==> ValidGameProperty(a.gameProperties[i]))
    && OptionalOk(a.gameSessionData, s => StringLenBetween(0, 4096, s))
    && (forall i :: 0 <= i < |a.gameSessionQueueArns| ==>
          StringLenBetween(1, 256, a.gameSessionQueueArns[i]) && MatchesQueueArn(a.gameSessionQueueArns[i]))
    && StringLenBetween(0, 128, a.name) && MatchesName(a.name)
    && OptionalOk(a.notificationTarget, s => StringLenBetween(0, 300, s) && MatchesNotificationTarget(s))
    && IntBetween(1, 43200, a.requestTimeoutSeconds)
    && StringLenBetween(0, 128, a.ruleSetName) && MatchesName(a.ruleSetName)
  }

  /** The schema as declared: the additional player count only has a lower bound. */
  predicate ValidAsDeclared(a: Arguments) {
    ValidOtherArguments(a) && OptionalOk(a.additionalPlayerCount, v => IntAtLeast(0, v))
  }

  const Int32Min: int := -0x8000_0000
  const Int32Max: int := 0x7fff_ffff

  /** Go's `int32(v)`: keep the low 32 bits, as a signed value. */
  function ToInt32(v: int): (r: int)
    ensures Int32Min <= r <= Int32Max
    ensures (r - v) % 0x1_0000_0000 == 0
  {
    (v - Int32Min) % 0x1_0000_0000 + Int32Min
  }

  /** Within the `int32` range the conversion changes nothing. */
  lemma ToInt32InRange(v: int)
    requires Int32Min <= v <= Int32Max
    ensures ToInt32(v) == v
  {
  }

  /** The integer arguments as sent to the API (`aws.Int32(int32(v))`). */
  datatype Counts = Counts(acceptanceTimeoutSeconds: Option<int>, additionalPlayerCount: Option<int>,
                           requestTimeoutSeconds: int)

  /**
   * `d.GetOk` on an integer argument: `ok` is false both when the argument is unset
   * and when it holds the zero value, so a 0 in the configuration reads as unset.
   */
  function GetOkInt(v: Option<int>): (r: Option<int>)
    ensures r.Some? <==> v.Some? && v.value != 0
    ensures r.Some? ==> r.value == v.value
  {
    match v
    case Some(n) => if n == 0 then None else Some(n)
    case None => None
  }

  /**
   * `if v, ok := d.GetOk(..); ok { .. = aws.Int32(int32(v.(int))) }`: the zero test
   * is on the argument, before the conversion, so 2^32 is still sent, as 0.
   */
  function OptionalInt32(v: Option<int>): (r: Option<int>)
    ensures r.Some? <==> v.Some? && v.value != 0
    ensures r.Some? ==> r.value == ToInt32(v.value)
    ensures v.Some? && v.value != 0 && Int32Min <= v.value <= Int32Max ==> r == v
  {
    match GetOkInt(v)
    case None => None
    case Some(n) => Some(ToInt32(n))
  }

  /** How Create and Update fill in the integer fields of the request. */
  function RequestCounts(a: Arguments): (r: Counts)
    ensures r.requestTimeoutSeconds == ToInt32(a.requestTimeoutSeconds)
    ensures r.acceptanceTimeoutSeconds.Some? <==>
              a.acceptanceTimeoutSeconds.Some? && a.acceptanceTimeoutSeconds.value != 0
    ensures r.acceptanceTimeoutSeconds.Some? ==>
              r.acceptanceTimeoutSeconds.value == ToInt32(a.acceptanceTimeoutSeconds.value)
    ensures r.additionalPlayerCount.Some? <==> a.additionalPlayerCount.Some? && a.additionalPlayerCount.value != 0
    ensures r.additionalPlayerCount.Some? ==> r.additionalPlayerCount.value == ToInt32(a.additionalPlayerCount.value)
  {
    Counts(OptionalInt32(a.acceptanceTimeoutSeconds), OptionalInt32(a.additionalPlayerCount),
           ToInt32(a.requestTimeoutSeconds))
  }

  /**
   * As declared, an additional player count of 2^31 passes validation and is sent
   * as -2^31.
   */
  lemma AdditionalPlayerCountWraps(a: Arguments)
    requires ValidOtherArguments(a) && a.additionalPlayerCount == Some(0x8000_0000)
    ensures ValidAsDeclared(a)
    ensures RequestCounts(a).additionalPlayerCount == Some(-0x8000_0000)
  {
  }

  /**
   * A count of 0 passes validation but is not sent, as if it were unset; a count
   * of 2^32 is sent, as 0.
   */
  lemma ZeroCountNotSent(a: Arguments)
    requires ValidOtherArguments(a)
    ensures a.additionalPlayerCount == Some(0) ==>
              ValidAsDeclared(a) && RequestCounts(a).additionalPlayerCount == None
    ensures a.additionalPlayerCount == Some(0x1_0000_0000) ==>
              ValidAsDeclared(a) && RequestCounts(a).additionalPlayerCount == Some(0)
  {
  }

  /** The bounds with the additional player count also kept within `int32`. */
  predicate ValidArguments(a: Arguments) {
    ValidOtherArguments(a) && OptionalOk(a.additionalPlayerCount, v => IntBetween(0, Int32Max, v))
  }

  /**
   * Valid arguments reach the API unchanged, except that a count of 0 is left out.
   * The acceptance timeout is at least 1, so it is never left out.
   */
  lemma ValidArgumentsReachApi(a: Arguments)
    requires ValidArguments(a)
    ensures RequestCounts(a) == Counts(a.acceptanceTimeoutSeconds, GetOkInt(a.additionalPlayerCount),
                                       a.requestTimeoutSeconds)
    ensures ValidAsDeclared(a)
  {
    ToInt32InRange(a.requestTimeoutSeconds);
  }

  /**
   * The name pattern admits ASCII characters only, so for a name that matches it the
   * byte length `StringLenBetween` counts is the character count.
   */
  lemma NameLengthInCharacters(s: string)
    requires MatchesName(s)
    ensures Utf8Len(s) == |s|
    ensures StringLenBetween(0, 128, s) <==> |s| <= 128
  {
    forall i | 0 <= i < |s|
      ensures s[i] as int < 0x80
    {
      assert IsNameChar(s[i]);
    }
  }

  /** A valid name or rule-set name has at most 128 characters, and at most 128 bytes. */
  lemma ValidNameLength(a: Arguments)
    requires ValidArguments(a)
    ensures |a.name| <= 128 && Utf8Len(a.name) == |a.name|
    ensures |a.ruleSetName| <= 128 && Utf8Len(a.ruleSetName) == |a.ruleSetName|
  {
    NameLengthInCharacters(a.name);
    NameLengthInCharacters(a.ruleSetName);
  }

  // ---------------------------------------------------------------------------
  // Game properties
  // ---------------------------------------------------------------------------

  /** `awstypes.GameProperty`: two string pointers, which an API response may leave nil. */
  datatype GameProperty = GameProperty(key: Option<string>, value: Option<string>)

  /**
   * The run-time panics: a failed type assertion or a nil dereference in the
   * conversion of the game property at `index`, or a nil creation time in Read.
   */
  datatype Panic = BadTypeAssertion(index: nat) | NilDereference(index: nat) | NilCreationTime

  const KeyField: string := "key"
  const ValueField: string := "value"

  /**
   * One element of the Terraform set: a `map[string]interface{}` whose `key` and
   * `value` entries are strings; anything else fails a type assertion.
   */
  function ExpandProperty(v: Value): (r: Option<GameProperty>)
    ensures r.Some? <==> v.Object? && KeyField in v.members && v.members[KeyField].String?
                         && ValueField in v.members && v.members[ValueField].String?
    ensures r.Some? ==> r.value == GameProperty(Some(v.members[KeyField].s), Some(v.members[ValueField].s))
  {
    if v.Object? && KeyField in v.members && v.members[KeyField].String?
       && ValueField in v.members && v.members[ValueField].String?
    then Some(GameProperty(Some(v.members[KeyField].s), Some(v.members[ValueField].s)))
    else None
  }

  /** `expandGameliftGameProperties` from index `i` on, panicking at the first bad element. */
  function ExpandGamePropertiesFrom(cfg: seq<Value>, i: nat): (r: Result<seq<GameProperty>, Panic>)
    requires i <= |cfg|
    ensures r.Success? ==> |r.value| == |cfg| - i
    ensures r.Success? ==> forall j :: 0 <= j < |r.value| ==> ExpandProperty(cfg[i + j]) == Some(r.value[j])
    ensures r.Success? <==> forall j :: i <= j < |cfg| ==> ExpandProperty(cfg[j]).Some?
    ensures r.Failure? ==> r.error.BadTypeAssertion? && i <= r.error.index < |cfg|
                           && ExpandProperty(cfg[r.error.index]).None?
                           && forall j :: i <= j < r.error.index ==> ExpandProperty(cfg[j]).Some?
    decreases |cfg| - i
  {
    if i == |cfg| then Success([])
    else
      match ExpandProperty(cfg[i])
      case None => Failure(BadTypeAssertion(i))
      case Some(p) =>
        var rest :- ExpandGamePropertiesFrom(cfg, i + 1);
        Success([p] + rest)
  }

  /** `expandGameliftGameProperties`: element `i` carries key `i` and value `i` of the input. */
  function ExpandGameProperties(cfg: seq<Value>): (r: Result<seq<GameProperty>, Panic>)
    ensures r.Success? ==> |r.value| == |cfg|
    ensures r.Success? ==> forall j :: 0 <= j < |cfg| ==> ExpandProperty(cfg[j]) == Some(r.value[j])
    ensures r.Success? <==> forall j :: 0 <= j < |cfg| ==> ExpandProperty(cfg[j]).Some?
  {
    ExpandGamePropertiesFrom(cfg, 0)
  }

  /** The `map[string]string` one property flattens to, or a nil dereference. */
  function FlattenProperty(p: GameProperty): (r: Option<map<string, string>>)
    ensures r.Some? <==> p.key.Some? && p.value.Some?
    ensures r.Some? ==> r.value.Keys == {KeyField, ValueField}
                        && r.value[KeyField] == p.key.value && r.value[ValueField] == p.value.value
  {
    if p.key.Some? && p.value.Some? then Some(map[KeyField := p.key.value, ValueField := p.value.value])
    else None
  }

  /** `flattenGameliftGameProperties` from index `i` on. */
  function FlattenGamePropertiesFrom(props: seq<GameProperty>, i: nat): (r: Result<seq<map<string, string>>, Panic>)
    requires i <= |props|
    ensures r.Success? ==> |r.value| == |props| - i
    ensures r.Success? ==> forall j :: 0 <= j < |r.value| ==> FlattenProperty(props[i + j]) == Some(r.value[j])
    ensures r.Success? <==> forall j :: i <= j < |props| ==> FlattenProperty(props[j]).Some?
    ensures r.Failure? ==> r.error.NilDereference? && i <= r.error.index < |props|
    decreases |props| - i
  {
    if i == |props| then Success([])
    else
      match FlattenProperty(props[i])
      case None => Failure(NilDereference(i))
      case Some(m) =>
        var rest :- FlattenGamePropertiesFrom(props, i + 1);
        Success([m] + rest)
  }

  /**
   * `flattenGameliftGameProperties`: one `{key, value}` map per property, in order;
   * an empty input gives an empty list.
   */
  function FlattenGameProperties(props: seq<GameProperty>): (r: Result<seq<map<string, string>>, Panic>)
    ensures props == [] ==> r == Success([])
    ensures r.Success? ==> |r.value| == |props|
    ensures r.Success? ==> forall j :: 0 <= j < |props| ==>
              props[j].key.Some? && props[j].value.Some? && r.value[j].Keys == {KeyField, ValueField}
              && r.value[j][KeyField] == props[j].key.value && r.value[j][ValueField] == props[j].value.value
    ensures r.Success? <==> forall j :: 0 <= j < |props| ==> props[j].key.Some? && props[j].value.Some?
  {
    var r := FlattenGamePropertiesFrom(props, 0);
    assert r.Success? ==> forall j :: 0 <= j < |props| ==> FlattenProperty(props[j]) == Some(r.value[j]);
    r
  }

  /** Flattening what was expanded gives back the key/value pairs of the input. */
  lemma FlattenExpand(cfg: seq<Value>)
    requires ExpandGameProperties(cfg).Success?
    ensures FlattenGameProperties(ExpandGameProperties(cfg).value).Success?
    ensures var out := FlattenGameProperties(ExpandGameProperties(cfg).value).value;
            |out| == |cfg|
            && forall j :: 0 <= j < |cfg| ==>
                 out[j] == map[KeyField := cfg[j].members[KeyField].s, ValueField := cfg[j].members[ValueField].s]
  {
    var props := ExpandGameProperties(cfg).value;
    assert forall j :: 0 <= j < |cfg| ==> ExpandProperty(cfg[j]) == Some(props[j]);
    var out := FlattenGameProperties(props).value;
    forall j | 0 <= j < |cfg|
      ensures out[j] == map[KeyField := cfg[j].members[KeyField].s, ValueField := cfg[j].members[ValueField].s]
    {
      assert ExpandProperty(cfg[j]) == Some(props[j]);
    }
  }

  /** The flattened maps as Terraform hands them back: objects of strings. */
  function AsConfig(flat: seq<map<string, string>>): (r: seq<Value>)
    ensures |r| == |flat|
    ensures forall j :: 0 <= j < |flat| ==> r[j].Object? && r[j].members.Keys == flat[j].Keys
  {
    seq(|flat|, j requires 0 <= j < |flat| => Object(map k | k in flat[j] :: String(flat[j][k])))
  }

  /** Properties without nil pointers survive flatten, the trip through Terraform, and expand. */
  lemma ExpandFlatten(props: seq<GameProperty>)
    requires forall j :: 0 <= j < |props| ==> props[j].key.Some? && props[j].value.Some?
    ensures ExpandGameProperties(AsConfig(FlattenGameProperties(props).value)) == Success(props)
  {
    var flat := FlattenGameProperties(props).value;
    var cfg := AsConfig(flat);
    forall j | 0 <= j < |cfg|
      ensures ExpandProperty(cfg[j]) == Some(props[j])
    {
      assert cfg[j].members[KeyField] == String(flat[j][KeyField]);
      assert cfg[j].members[ValueField] == String(flat[j][ValueField]);
    }
    var r := ExpandGameProperties(cfg).value;
    assert forall j :: 0 <= j < |props| ==> Some(r[j]) == Some(props[j]);
    assert r == props;
  }

  // ---------------------------------------------------------------------------
  // expandStringList
  // ---------------------------------------------------------------------------

  /** Whether an element is a non-empty string, the only kind `expandStringList` keeps. */
  predicate Kept(v: Value) {
    v.String? && v.s != ""
  }

  /** `expandStringList`: the non-empty strings of the list, in order. */
  function ExpandStringList(list: seq<Value>): (r: seq<string>)
    ensures |r| <= |list|
    ensures forall x :: x in r <==> x != "" && String(x) in list
    decreases |list|
  {
    if list == [] then []
    else
      var rest := ExpandStringList(list[1..]);
      assert forall x :: String(x) in list <==> String(x) == list[0] || String(x) in list[1..];
      if Kept(list[0]) then [list[0].s] + rest else rest
  }

  /** The filter distributes over concatenation, so it keeps the relative order of what it keeps. */
  lemma {:induction false} ExpandStringListAppend(a: seq<Value>, b: seq<Value>)
    ensures ExpandStringList(a + b) == ExpandStringList(a) + ExpandStringList(b)
    decreases |a|
  {
    if a != [] {
      assert (a + b)[1..] == a[1..] + b;
      ExpandStringListAppend(a[1..], b);
    } else {
      assert a + b == b;
    }
  }

  /** The list of a sequence of non-empty strings is that sequence. */
  lemma {:induction false} ExpandStringListKeepsAll(ss: seq<string>)
    requires forall i :: 0 <= i < |ss| ==> ss[i] != ""
    ensures ExpandStringList(seq(|ss|, i requires 0 <= i < |ss| => String(ss[i]))) == ss
    decreases |ss|
  {
    var list := seq(|ss|, i requires 0 <= i < |ss| => String(ss[i]));
    if ss != [] {
      var tail := seq(|ss[1..]|, i requires 0 <= i < |ss[1..]| => String(ss[1..][i]));
      assert list[1..] == tail;
      ExpandStringListKeepsAll(ss[1..]);
      assert ss == [ss[0]] + ss[1..];
    }
  }

  /** Filtering a filtered list changes nothing. */
  lemma ExpandStringListIdempotent(list: seq<Value>)
    ensures var r := ExpandStringList(list);
            ExpandStringList(seq(|r|, i requires 0 <= i < |r| => String(r[i]))) == r
  {
    var r := ExpandStringList(list);
    forall i | 0 <= i < |r|
      ensures r[i] != ""
    {
      assert r[i] in r;
    }
    ExpandStringListKeepsAll(r);
  }

  // ---------------------------------------------------------------------------
  // Read and Delete
  // ---------------------------------------------------------------------------

  /** The API errors Read and Delete tell apart. */
  datatype ServiceError =
    | InvalidRequestException(message: string)
    | NotFoundException(message: string)
    | OtherError(message: string)

  const NotFoundMessage: string := "Configuration not found"

  /** The two forms in which the API reports a missing configuration. */
  predicate IsConfigurationNotFound(err: ServiceError) {
    (err.InvalidRequestException? && Contains(err.message, NotFoundMessage)) || err.NotFoundException?
  }

  /** A point in time, in seconds; how Read formats it is not part of this model. */
  type Timestamp = int

  /**
   * A configuration as described by the API, reduced to what Read derives state from.
   * `CreationTime` is a `*time.Time`, which a response may leave nil.
   */
  datatype Configuration = Configuration(arn: string, name: string, creationTime: Option<Timestamp>,
                                         gameProperties: seq<GameProperty>)

  datatype ReadError = DescribeFailed(err: ServiceError) | NotExactlyOne(count: nat) | ReadPanic(panic: Panic)

  /** What Read does to the resource: drop it from state, fail, or fill it in. */
  datatype ReadOutcome =
    | Removed
    | ReadFailed(error: ReadError)
    | Populated(arn: string, name: string, gameProperty: seq<map<string, string>>)

  /**
   * `resourceMatchmakingConfigurationRead` up to the tag listing: a missing
   * configuration (an error saying so, or no result) removes the resource; more
   * than one result is an error; exactly one fills in the state. Formatting the
   * creation time dereferences it before the game properties are flattened.
   */
  function Read(describe: Result<seq<Configuration>, ServiceError>): (r: ReadOutcome)
    ensures describe.Failure? ==>
              r == if IsConfigurationNotFound(describe.error) then Removed else ReadFailed(DescribeFailed(describe.error))
    ensures describe.Success? && |describe.value| == 0 ==> r == Removed
    ensures describe.Success? && |describe.value| > 1 ==> r == ReadFailed(NotExactlyOne(|describe.value|))
    ensures r.Populated? <==> describe.Success? && |describe.value| == 1 && describe.value[0].creationTime.Some?
                              && FlattenGameProperties(describe.value[0].gameProperties).Success?
    ensures r.Populated? ==> r.arn == describe.value[0].arn && r.name == describe.value[0].name
                             && r.gameProperty == FlattenGameProperties(describe.value[0].gameProperties).value
    ensures describe.Success? && |describe.value| == 1 && describe.value[0].creationTime.None? ==>
              r == ReadFailed(ReadPanic(NilCreationTime))
    ensures (describe.Success? && |describe.value| == 1 && describe.value[0].creationTime.Some? && !r.Populated?) ==>
              r == ReadFailed(ReadPanic(FlattenGameProperties(describe.value[0].gameProperties).error))
  {
    match describe
    case Failure(err) =>
      if IsConfigurationNotFound(err) then Removed else ReadFailed(DescribeFailed(err))
    case Success(configurations) =>
      if |configurations| < 1 then Removed
      else if |configurations| != 1 then ReadFailed(NotExactlyOne(|configurations|))
      else
        var c := configurations[0];
        if c.creationTime.None? then ReadFailed(ReadPanic(NilCreationTime))
        else match FlattenGameProperties(c.gameProperties)
        case Failure(p) => ReadFailed(ReadPanic(p))
        case Success(flat) => Populated(c.arn, c.name, flat)
  }

  /**
   * `resourceMatchmakingConfigurationDelete`: the error it reports, if any. A
   * missing configuration counts as deleted.
   */
  function Delete(err: Option<ServiceError>): (r: Option<ServiceError>)
    ensures r.None? <==> err.None? || IsConfigurationNotFound(err.value)
    ensures r.Some? ==> r == err
  {
    match err
    case None => None
    case Some(e) => if IsConfigurationNotFound(e) then None else err
  }

  /**
   * A service that deletes an existing configuration and answers a missing one with
   * a not-found error.
   */
  function ServiceDelete(existing: set<string>, name: string): (r: (set<string>, Option<ServiceError>))
    ensures name !in r.0 && r.0 <= existing
    ensures r.1.Some? <==> name !in existing
  {
    if name in existing then (existing - {name}, None)
    else (existing, Some(NotFoundException(NotFoundMessage)))
  }

  /** Against such a service, deleting twice succeeds twice and leaves the configuration gone. */
  lemma DeleteIdempotent(existing: set<string>, name: string)
    ensures var (after1, err1) := ServiceDelete(existing, name);
            var (after2, err2) := ServiceDelete(after1, name);
            Delete(err1).None? && Delete(err2).None? && after2 == after1 && name !in after2
  {
  }

  /** The invalid-request form of "not found" is recognised wherever the phrase appears in the message. */
  lemma InvalidRequestNotFound(prefix: string, suffix: string)
    ensures Delete(Some(InvalidRequestException(prefix + NotFoundMessage + suffix))).None?
  {
    var m := prefix + NotFoundMessage + suffix;
    assert m[|prefix|..|prefix| + |NotFoundMessage|] == NotFoundMessage;
    assert OccursAt(m, NotFoundMessage, |prefix|);
  }
}

=== FILE: sdk_schema.dfy ===
/**
 * The parts of a Terraform plugin SDK v2 attribute schema that the tag handling
 * reads or writes. Only the flags that the provider code sets are kept.
 */
module SdkSchema {
  import opened Wrappers

  datatype ValueType = TypeBool | TypeInt | TypeString | TypeList | TypeSet | TypeMap

  /** One attribute's schema (`*schema.Schema`, compared by value). */
  datatype Schema = Schema(
    valueType: ValueType,
    optional: bool,
    required: bool,
    computed: bool,
    forceNew: bool,
    elem: Option<ValueType>)

  /** A resource's attributes by name. */
  type SchemaMap = map<string, Schema>

  const TagsKey: string := "tags"
  const TagsAllKey: string := "tags_all"

  /** A string-to-string map attribute, as the tag attributes are. */
  function StringMap(computed: bool): (s: Schema)
    ensures s.valueType == TypeMap && s.elem == Some(TypeString) && s.computed == computed
    ensures !s.optional && !s.required && !s.forceNew
  {
    Schema(TypeMap, false, false, computed, false, Some(TypeString))
  }
}

=== FILE: tag_schema_check.dfy ===
/**
 * The switch that lets the bridge skip the provider's tag-schema consistency check:
 * a context flag, set by `DisableTagSchemaCheck`, under which the schema handed to
 * the tag-schema check is a fixed stand-in instead of the resource's own. There is one
 * variant for SDK v2 resources and one for plugin-framework resources, each with
 * its own context key.
 */
module TagSchemaCheck {
  import opened Wrappers
  import opened Dynamic
  import opened SdkSchema

  /** The context keys involved; the two packages' key types are distinct. */
  datatype ContextKey = SdkDisableKey | FrameworkDisableKey | OtherKey(name: string)

  /** The values stored in a context, innermost binding per key. */
  type Context = map<ContextKey, Value>

  /** `ctx.Value(key)`. */
  function Lookup(ctx: Context, key: ContextKey): Option<Value> {
    if key in ctx then Some(ctx[key]) else None
  }

  /** Whether the flag under `key` is a Go `bool` that is true. */
  predicate FlagSet(ctx: Context, key: ContextKey) {
    match Lookup(ctx, key)
    case Some(Bool(flag)) => flag
    case _ => false
  }

  /** `provider.DisableTagSchemaCheck`. */
  function DisableSdk(ctx: Context): (r: Context)
    ensures FlagSet(r, SdkDisableKey)
    ensures forall k :: k != SdkDisableKey ==> Lookup(r, k) == Lookup(ctx, k)
  {
    ctx[SdkDisableKey := Bool(true)]
  }

  /** `fwprovider.DisableTagSchemaCheck`. */
  function DisableFramework(ctx: Context): (r: Context)
    ensures FlagSet(r, FrameworkDisableKey)
    ensures forall k :: k != FrameworkDisableKey ==> Lookup(r, k) == Lookup(ctx, k)
  {
    ctx[FrameworkDisableKey := Bool(true)]
  }

  /**
   * `schemaMapForTagsChecking`: with the flag set, a map holding only `tags`
   * (computed as the caller says) and `tags_all` (always computed), both string
   * maps; otherwise the resource's own schema map, which is given.
   */
  function SchemaMapForTagsChecking(ctx: Context, own: SchemaMap, tagsComputed: bool): (r: SchemaMap)
    ensures FlagSet(ctx, SdkDisableKey) ==> r.Keys == {TagsKey, TagsAllKey}
    ensures FlagSet(ctx, SdkDisableKey) ==>
              r[TagsKey].valueType == TypeMap && r[TagsKey].elem == Some(TypeString)
              && r[TagsAllKey].valueType == TypeMap && r[TagsAllKey].elem == Some(TypeString)
    ensures FlagSet(ctx, SdkDisableKey) ==> r[TagsKey].computed == tagsComputed && r[TagsAllKey].computed
    ensures !FlagSet(ctx, SdkDisableKey) ==> r == own
  {
    match Lookup(ctx, SdkDisableKey)
    case Some(Bool(flag)) =>
      if flag then map[TagsKey := StringMap(tagsComputed), TagsAllKey := StringMap(true)] else own
    case _ => own
  }

  /** Disabling the tag-schema check through the SDK package makes the stand-in schema apply. */
  lemma SdkDisableTakesEffect(ctx: Context, own: SchemaMap, tagsComputed: bool)
    ensures SchemaMapForTagsChecking(DisableSdk(ctx), own, tagsComputed)
         == map[TagsKey := StringMap(tagsComputed), TagsAllKey := StringMap(true)]
  {
  }

  /** The framework package's flag does not switch the SDK check off. */
  lemma SdkIgnoresFrameworkFlag(ctx: Context, own: SchemaMap, tagsComputed: bool)
    requires !FlagSet(ctx, SdkDisableKey)
    ensures SchemaMapForTagsChecking(DisableFramework(ctx), own, tagsComputed) == own
  {
    assert Lookup(DisableFramework(ctx), SdkDisableKey) == Lookup(ctx, SdkDisableKey);
  }

  /** A plugin-framework attribute, reduced to its kind and whether it is computed. */
  datatype Attribute = Attribute(isMap: bool, computed: bool)

  /** A framework `SchemaResponse`, reduced to its attributes. */
  datatype SchemaResponse = SchemaResponse(attributes: map<string, Attribute>)

  /**
   * `schemaResponseForTagsChecking`: with the flag set, `tags` is a computed map
   * and `tags_all` a map that is not computed; otherwise the response of the
   * resource's own `Schema` method, which is given.
   */
  function SchemaResponseForTagsChecking(ctx: Context, own: SchemaResponse): (r: SchemaResponse)
    ensures FlagSet(ctx, FrameworkDisableKey) ==> r.attributes.Keys == {TagsKey, TagsAllKey}
    ensures FlagSet(ctx, FrameworkDisableKey) ==>
              r.attributes[TagsKey].isMap && r.attributes[TagsKey].computed
              && r.attributes[TagsAllKey].isMap && !r.attributes[TagsAllKey].computed
    ensures !FlagSet(ctx, FrameworkDisableKey) ==> r == own
  {
    match Lookup(ctx, FrameworkDisableKey)
    case Some(Bool(flag)) =>
      if flag then SchemaResponse(map[TagsKey := Attribute(true, true), TagsAllKey := Attribute(true, false)])
      else own
    case _ => own
  }

  /** Disabling through the framework package makes the stand-in response apply. */
  lemma FrameworkDisableTakesEffect(ctx: Context, own: SchemaResponse)
    ensures SchemaResponseForTagsChecking(DisableFramework(ctx), own)
         == SchemaResponse(map[TagsKey := Attribute(true, true), TagsAllKey := Attribute(true, false)])
  {
  }

  /**
   * The bridge disables both checks on the same context; each then sees its own
   * flag, whichever was set first.
   */
  lemma BothDisabled(ctx: Context)
    ensures FlagSet(DisableSdk(DisableFramework(ctx)), SdkDisableKey)
    ensures FlagSet(DisableSdk(DisableFramework(ctx)), FrameworkDisableKey)
  {
    assert Lookup(DisableSdk(DisableFramework(ctx)), FrameworkDisableKey) == Some(Bool(true));
  }
}

=== FILE: tags_shim.dfy ===
/**
 * The bridge shim's schema rewrite: every resource with a `tags_all` attribute
 * gets a `tags_all` whose schema is a copy of its `tags` schema, so that the two
 * attributes agree (the bridge copies `tags` into `tags_all` before Terraform
 * sees them).
 */
module TagsShim {
  import opened Wrappers
  import opened SdkSchema

  /** The panic raised for a resource with `tags_all` but no `tags`. */
  datatype ShimPanic = TagsMissing(resource: string)

  /** `markTagsAllNotComputedForSchema`. */
  function MarkForSchema(rn: string, s: SchemaMap): (r: Result<SchemaMap, ShimPanic>)
    ensures TagsAllKey !in s ==> r == Success(s)
    ensures r.Failure? <==> TagsAllKey in s && TagsKey !in s
    ensures r.Failure? ==> r.error == TagsMissing(rn)
    ensures r.Success? ==> r.value.Keys == s.Keys
    ensures r.Success? && TagsAllKey in s ==> r.value[TagsAllKey] == s[TagsKey]
    ensures r.Success? ==> forall k :: k in s && k != TagsAllKey ==> r.value[k] == s[k]
  {
    if TagsAllKey !in s then Success(s)
    else if TagsKey !in s then Failure(TagsMissing(rn))
    else Success(map k | k in s :: if k == TagsAllKey then s[TagsKey] else s[k])
  }

  /** After the rewrite `tags_all` already agrees with `tags`, so rewriting again changes nothing. */
  lemma MarkForSchemaIdempotent(rn: string, s: SchemaMap)
    requires MarkForSchema(rn, s).Success?
    ensures MarkForSchema(rn, MarkForSchema(rn, s).value) == MarkForSchema(rn, s)
  {
    var t := MarkForSchema(rn, s).value;
    if TagsAllKey in s {
      assert (map k | k in t :: if k == TagsAllKey then t[TagsKey] else t[k]) == t;
    }
  }

  /**
   * A resource's `SchemaFunc`, defunctionalised: either the function the resource
   * came with, producing a schema map, or the shim's wrapper around another one.
   */
  datatype SchemaFunc = Produce(schema: SchemaMap) | Marked(rn: string, inner: SchemaFunc)

  /** Calling a schema function; the wrapper's rewrite may panic at this point. */
  function Call(f: SchemaFunc): (r: Result<SchemaMap, ShimPanic>)
    decreases f
  {
    match f
    case Produce(s) => Success(s)
    case Marked(rn, inner) =>
      var s :- Call(inner);
      MarkForSchema(rn, s)
  }

  /** The fields of a `schema.Resource` the rewrite touches. */
  datatype Resource = Resource(schema: SchemaMap, schemaFunc: Option<SchemaFunc>)

  /** The schema map a resource presents: from its `SchemaFunc` when it has one. */
  function SchemaOf(r: Resource): Result<SchemaMap, ShimPanic> {
    match r.schemaFunc
    case Some(f) => Call(f)
    case None => Success(r.schema)
  }

  /**
   * `markTagsAllNotComputedForResource`: a resource with a `SchemaFunc` gets a
   * wrapped function and keeps its `Schema` field; otherwise the `Schema` field is
   * rewritten right away, which is where a missing `tags` panics.
   */
  function MarkForResource(rn: string, r: Resource): (u: Result<Resource, ShimPanic>)
    ensures r.schemaFunc.Some? ==> u == Success(r.(schemaFunc := Some(Marked(rn, r.schemaFunc.value))))
    ensures r.schemaFunc.None? && u.Success? ==> u.value.schemaFunc.None?
  {
    match r.schemaFunc
    case Some(f) => Success(r.(schemaFunc := Some(Marked(rn, f))))
    case None =>
      var s :- MarkForSchema(rn, r.schema);
      Success(r.(schema := s))
  }

  /**
   * Either way, the schema the rewritten resource presents is the rewrite of the one
   * it presented before; only the moment of the panic differs.
   */
  lemma MarkForResourcePresents(rn: string, r: Resource)
    ensures MarkForResource(rn, r).Success? ==>
              SchemaOf(MarkForResource(rn, r).value) == (var s :- SchemaOf(r); MarkForSchema(rn, s))
    ensures r.schemaFunc.None? && MarkForResource(rn, r).Failure? ==>
              (var s :- SchemaOf(r); MarkForSchema(rn, s)).Failure?
  {
  }

  /** The resources whose rewrite panics straight away. */
  function PanickingResources(resources: map<string, Resource>): (r: set<string>)
    ensures forall rn :: rn in r <==> rn in resources && MarkForResource(rn, resources[rn]).Failure?
  {
    set rn | rn in resources && MarkForResource(rn, resources[rn]).Failure?
  }

  /**
   * `markTagsAllNotComputedForResources`: every resource is rewritten under the
   * same name. Go visits the map in no fixed order and panics at the first failing
   * resource it meets; the failure here is the set of resources any of which it may
   * report.
   */
  function MarkForResources(resources: map<string, Resource>): (r: Result<map<string, Resource>, set<string>>)
    ensures r.Failure? <==> exists rn :: rn in resources && MarkForResource(rn, resources[rn]).Failure?
    ensures r.Failure? ==> r.error != {} && r.error <= resources.Keys
    ensures r.Failure? ==> forall rn :: rn in r.error <==> rn in resources && MarkForResource(rn, resources[rn]).Failure?
    ensures r.Success? ==> r.value.Keys == resources.Keys
    ensures r.Success? ==> forall rn :: rn in resources ==> Success(r.value[rn]) == MarkForResource(rn, resources[rn])
  {
    var panicking := PanickingResources(resources);
    if panicking != {} then Failure(panicking)
    else Success(map rn | rn in resources :: MarkForResource(rn, resources[rn]).value)
  }

  /** A resource map without `tags_all` anywhere comes back as it was. */
  lemma MarkForResourcesNoTagsAll(resources: map<string, Resource>)
    requires forall rn :: rn in resources ==> resources[rn].schemaFunc.None? && TagsAllKey !in resources[rn].schema
    ensures MarkForResources(resources) == Success(resources)
  {
    assert PanickingResources(resources) == {};
    assert (map rn | rn in resources :: MarkForResource(rn, resources[rn]).value) == resources;
  }
}

=== FILE: wrappers.dfy ===
/**
 * Go's two ways of saying "nothing" or "failed": a nil value and a non-nil
 * `error`. `Result` supports `:-`, which stands for Go's `if err != nil { return … }`.
 */
module Wrappers {

  /** A value that may be absent: Go's nil pointer, a missing map entry, a failed `, ok` lookup. */
  datatype Option<+T> = None | Some(value: T)

  /** Go's `(T, error)` pair: either a value or an error. */
  datatype Result<+R, +E> = Success(value: R) | Failure(error: E) {
    predicate IsFailure() { Failure? }

    function PropagateFailure<U>(): Result<U, E>
      requires Failure?
    {
      Failure(error)
    }

    function Extract(): R
      requires Success?
    {
      value
    }
  }
}
